=== FILE: README.md ===
# Django profile, blog, notes and auth-dashboard rules in Dafny

This project models the pure rules inside four small Django applications and
proves properties of them:

- **the user-profile manager**: the profile-completion percentage and its three
  copies, the display name and label of a profile, the profile created with
  every new account, the initials filter, the profile statistics, the field
  validators, the two view decorators, and the views for registration, login,
  the dashboard and the owner-scoped add/edit/delete of the four collections a
  profile owns (education, skills, experience, projects);
- **the blog**: `PostForm`'s validation (the strip, required and length
  cleaning of its model fields and their null-character check, then its two
  field cleaners), the `home` listing
  (search, three sort orders, pages of six), post creation, the
  author-or-superuser rule for editing and deleting, and the per-user
  dashboard with its weekly count;
- **the notes tracker**: `home` with its search and total, `add_note` with
  its strip-then-required validation, and the POST-only `delete_note`;
- **the auth dashboard**: `signup_view` creating a user together with its
  profile, `dashboard_view` and `edit_profile_view` guaranteeing a profile
  through `get_or_create`, and the cropped-avatar data URL that
  `edit_profile_view` splits at `;base64,`, names `avatar_<id>.<ext>` and
  decodes as base64 (section 4 of RFC 4648).

Every view is a pure function from the stored tables and the request to the
new tables and the reply (`Http.Reply`: the response and the flashed
messages). Tables are sequences of immutable records; an operation that raises
in Python returns `Err` with the exception's name, and a value the source may
lack is an `Option`. Framework verdicts the core only consumes (whether a
`ModelForm` is valid, what `authenticate` returned, the current time) are
parameters.

Files, one module each:

| file | module | contents |
|---|---|---|
| wrappers.dfy | Wrappers | `Option`, `Result` |
| http.dfy | Http | methods, sessions, messages, responses |
| text.dfy | Text | ASCII `isspace`/`lower`/`upper`, `strip()`, `split()`, `split(sep)`, `split(c)[-1]`, `str(n)`, lexicographic order |
| seqs.dfy | Seqs | filtering, concatenation, pagination, fresh keys |
| base64.dfy | Base64 | encoding and canonical decoding |
| profiles.dfy | Profiles | `UserProfile`, completion, names, initials, stats, the creation hook |
| validators.dfy | Validators | both validator files of the profile manager |
| decorators.dfy | Decorators | `anonymous_required`, `profile_completion_required` |
| profile_views.dfy | ProfileViews | the profile manager's views |
| blog_forms.dfy | BlogForms | `PostForm`: field cleaning, `clean_title`, `clean_content` |
| blog_views.dfy | BlogViews | the blog's views |
| notes.dfy | Notes | the notes tracker's views |
| auth_dashboard.dfy | AuthDashboard | the auth dashboard's views and the data-URL crop |

Where the code and its description differ, the model follows the code:

- `delete_note` answers a POST for a missing note with a 404 (from
  `get_object_or_404`), not with the redirect home that every other case gets.
- `users/views.py` of the profile manager imports `Education`, `Skill`,
  `Experience` and `Project` from `users/models.py`, which does not define
  them. The model treats each row as a key, a kind, an owning profile and
  opaque form fields.

## Model

| member | source | states |
|---|---|---|
| Profiles.CompletionPercentage | django-user-profile-manager/users/models.py:35-38 | completion is 20 times the number of non-empty fields among full name, bio, phone, location and picture; it lies in 0..100 and is a multiple of 20 |
| Profiles.CompletionMonotone | django-user-profile-manager/users/models.py:36-38 | if every field filled in one profile is filled in another, the second's completion is at least the first's |
| Profiles.FillingOneFieldAddsTwenty | django-user-profile-manager/users/models.py:37-38 | filling one blank field raises completion by exactly 20 |
| Profiles.BlankProfileIsEmpty | django-user-profile-manager/users/test_models.py:17-18 | a newly created profile is 0% complete |
| Profiles.NameAndBioGiveForty | django-user-profile-manager/users/test_models.py:20-25 | a profile with only a full name and a bio is 40% complete |
| Profiles.GetUserProfileCompletion | django-user-profile-manager/users/utils.py:10-14 | the loop over the field list returns the model property's value for every profile |
| Profiles.ProfileCompletionFilter | django-user-profile-manager/users/templatetags/profile_tags.py:7-11 | the filter, written as the length of the list of filled fields, equals the model property for every profile |
| Profiles.DisplayName | django-user-profile-manager/users/models.py:30-32 | the full name when it is non-empty, otherwise the username; empty exactly when both are |
| Profiles.ProfileLabel | django-user-profile-manager/users/models.py:22-23 | the label is the username followed by "'s Profile" |
| Profiles.ProfileLabelInjective | django-user-profile-manager/users/models.py:22-23 | equal labels mean equal usernames |
| Profiles.UserInitials | django-user-profile-manager/users/templatetags/profile_tags.py:14-18 | with a full name: min(2, word count) letters, the i-th the upper-cased first letter of the i-th word; without one: the upper-cased first letter of the username, and an error exactly when the username is empty |
| Profiles.BlankFullNameGivesNoInitials | django-user-profile-manager/users/templatetags/profile_tags.py:15-17 | a non-empty, all-whitespace full name gives "" and does not fall back to the username |
| Profiles.InitialsIgnoreLaterWords | django-user-profile-manager/users/templatetags/profile_tags.py:16-17 | appending more words after the second leaves the initials unchanged |
| Profiles.FormatProfileStats | django-user-profile-manager/users/utils.py:16-22 | the completion is the model property's; has_image, has_bio and has_contact hold exactly when the picture, the bio and the phone are non-empty |
| Profiles.UsernameTaken | django-user-profile-manager/users/utils.py:4-5 | true exactly when some stored account has that username |
| Profiles.EmailTaken | django-user-profile-manager/users/utils.py:7-8 | true exactly when some stored account has that e-mail |
| Profiles.SaveAccount | django-user-profile-manager/users/models.py:40-43 | saving a new account appends one blank profile for it; re-saving an existing account leaves the profiles alone |
| Profiles.CreateAccount | django-user-profile-manager/users/models.py:40-43 | a created account gets a fresh id and the given name and e-mail, and goes through the save hook |
| Profiles.SaveAccountKeepsOneProfileEach | django-user-profile-manager/users/models.py:40-43 | saving keeps ids distinct, one profile per account and no orphan profiles; the saved account has exactly one profile, and the profile count grows by one exactly when the account is new |
| Decorators.Guarded | django-user-profile-manager/users/decorators.py:7-11 | a decorator that proceeds yields the view's reply; one that denies yields its own, whatever the view would answer |
| Decorators.AnonymousRequired | django-user-profile-manager/users/decorators.py:5-12 | denies exactly the signed-in requests, with an info message and a redirect to the dashboard |
| Decorators.AnonymousRequiredDecides | django-user-profile-manager/users/decorators.py:8-11 | an anonymous request gets the view's reply unchanged; a signed-in one gets the same redirect whatever the view |
| Decorators.ProfileCompletionRequired | django-user-profile-manager/users/decorators.py:14-25 | redirects to profile_edit with the warning exactly when the user has a profile whose completion is below the minimum |
| Decorators.DefaultGateNeedsThreeFields | django-user-profile-manager/users/decorators.py:14-20 | with the default minimum of 50, a profile passes exactly when at least three of the five fields are filled |
| Decorators.GateProceedsWithoutProfileOrMinimum | django-user-profile-manager/users/decorators.py:18-23 | a user without a profile always passes, and a minimum of 0 or less never redirects |
| Decorators.GateMonotone | django-user-profile-manager/users/decorators.py:19-22 | lowering the minimum or filling more fields never turns a pass into a redirect |
| Validators.ValidateImageSize | django-user-profile-manager/users/validators.py:4-8 | accepts exactly the sizes up to 5,242,880 bytes, rejecting with "Max file size is 5MB" |
| Validators.ValidateProfilePictureSize | django-user-profile-manager/users/custom_validators.py:12-15 | accepts exactly the sizes up to 5,242,880 bytes, rejecting with its own message |
| Validators.SizeValidatorsAgree | django-user-profile-manager/users/custom_validators.py:13-15 | both size validators accept the same sizes; 5,242,880 passes and 5,242,881 fails |
| Validators.SplitExt | django-user-profile-manager/users/validators.py:11 | the parts rebuild the name; a non-empty extension starts at a '.' with no '.' or '/' after it, following a stem whose last component is not all dots; an empty one means every dot of the last component is preceded there only by dots |
| Validators.ValidateImageExtension | django-user-profile-manager/users/validators.py:10-14 | a rejection carries the allow-list message |
| Validators.ExtensionMessageText | django-user-profile-manager/users/validators.py:14 | the message lists ".jpg, .jpeg, .png, .gif" after "Unsupported file extension. Allowed: " |
| Validators.ExtensionAcceptedIff | django-user-profile-manager/users/validators.py:11-13 | a name of the form stem "." suffix (visible stem, suffix without '.' or '/') is accepted exactly when the lower-cased suffix is jpg, jpeg, png or gif |
| Validators.UpperCaseExtensionAccepted | django-user-profile-manager/users/validators.py:12-13 | any such stem followed by ".PNG" is accepted |
| Validators.LastSuffixCounts | django-user-profile-manager/users/validators.py:11-13 | with several dotted words, only the last suffix decides |
| Validators.NoExtensionRejected | django-user-profile-manager/users/validators.py:11-13 | a last component whose every dot is preceded only by dots has an empty extension and is rejected |
| Validators.NameWithoutDotRejected | django-user-profile-manager/users/validators.py:11-13 | a last component without a dot is rejected |
| Validators.DotfileRejected | django-user-profile-manager/users/validators.py:11-13 | a dotfile such as ".png" is rejected |
| Validators.RemoveSeparators | django-user-profile-manager/users/validators.py:17 | the result keeps every character of the phone that is not '+', '-' or ' ', and only those |
| Validators.ValidatePhoneNumber | django-user-profile-manager/users/validators.py:16-18 | an empty phone is accepted; a rejection carries "Enter a valid phone number" |
| Validators.PhoneNumberAcceptedIff | django-user-profile-manager/users/validators.py:17-18 | accepted exactly when empty, or made only of digits, '+', '-' and ' ' with at least one digit |
| Validators.PlusAloneRejected | django-user-profile-manager/users/validators.py:17-18 | "+" alone is rejected |
| Validators.ValidatePhoneFormat | django-user-profile-manager/users/custom_validators.py:17-21 | an empty phone is accepted; a rejection carries "Enter a valid phone number" |
| Validators.PhoneFormatByLength | django-user-profile-manager/users/custom_validators.py:19-20 | after dropping one final newline and one leading '+', a non-empty phone passes exactly when the rest is 9 to 15 digits, or 16 digits starting with '1' |
| Validators.DigitsOnlyPhoneFormat | django-user-profile-manager/users/custom_validators.py:19 | digit strings of 9 to 15 pass, 16 pass exactly when the first is '1', fewer than 9 or more than 16 fail |
| Validators.PhoneFormatAllowsTrailingNewline | django-user-profile-manager/users/custom_validators.py:19-20 | an accepted number stays accepted with one trailing newline |
| Validators.PhoneFormatAcceptsPattern | django-user-profile-manager/users/custom_validators.py:19-20 | every optional '+', optional '1', 9 to 15 digits and optional final newline is accepted |
| Validators.ValidateBioLength | django-user-profile-manager/users/custom_validators.py:23-27 | accepted exactly when empty or 10 to 500 characters, with the short and the long message on the two sides |
| Validators.ValidateUsernameUnique | django-user-profile-manager/users/custom_validators.py:4-6 | rejects exactly when some account has the username |
| Validators.ValidateEmailUnique | django-user-profile-manager/users/custom_validators.py:8-10 | rejects exactly when some account has the e-mail |
| ProfileViews.Register | django-user-profile-manager/users/views.py:13-22 | a signed-in user is redirected to the dashboard with nothing changed; a valid submission creates the account and redirects to login; anything else re-renders the form with nothing changed |
| ProfileViews.RegisterCreatesOneAccount | django-user-profile-manager/users/views.py:17-21 | a registration appends one account with the submitted name and e-mail, gives it exactly one profile and keeps the tables valid |
| ProfileViews.ResolveUrl | django-user-profile-manager/users/views.py:37 | a redirect target resolves exactly when it is a URL name or holds a '/' or a '.', and otherwise raises NoReverseMatch |
| ProfileViews.UrlScheme | django-user-profile-manager/users/views.py:37 | a non-empty scheme is the lower-cased text before the URL's first ':', which starts with a letter and holds only letters, digits, '+', '-' and '.' |
| ProfileViews.UrlSchemeOfHead | django-user-profile-manager/users/views.py:37 | conversely, such a head followed by ':' is always read as the scheme, lower-cased |
| ProfileViews.UserLogin | django-user-profile-manager/users/views.py:25-39 | signed-in users go to the dashboard unchanged; a successful POST signs the user in and redirects to next, or to the dashboard, when that target resolves and its scheme is allowed; a resolving target with another scheme fails with DisallowedRedirect and keeps the login; a target that does not resolve fails with NoReverseMatch and keeps the visitor signed out; every other request stays signed out on the login page, with the error after a failed POST |
| ProfileViews.LoginRefusesForeignScheme | django-user-profile-manager/users/views.py:35-37 | a next such as `javascript://x` signs the user in and fails with DisallowedRedirect |
| ProfileViews.LoginFollowsAllowedScheme | django-user-profile-manager/users/views.py:35-37 | a next with an http, https or ftp scheme, in any letter case, signs the user in and is redirected to |
| ProfileViews.LoginKeptOnlyWhenNextResolves | django-user-profile-manager/users/views.py:26-37 | a login is kept exactly when the credentials are accepted and the target resolves, so next matters to the session only through whether it resolves; an empty next leaves the visitor signed out; after a kept login every further login request keeps that session and goes to the dashboard |
| ProfileViews.FindOwned | django-user-profile-manager/users/views.py:137 | finds a row only when its key, kind and owner all match; otherwise no row matches |
| ProfileViews.AddEntry | django-user-profile-manager/users/views.py:123-132 | a valid POST appends one row owned by the requester, of that kind and with a key larger than every key in use; otherwise the form is re-rendered and nothing changes |
| ProfileViews.EditEntry | django-user-profile-manager/users/views.py:135-143 | a row the requester does not own is a 404 with nothing changed; a valid POST rewrites only that row's fields |
| ProfileViews.DeleteEntry | django-user-profile-manager/users/views.py:146-153 | a row the requester does not own is a 404; POST removes exactly that row; any other method renders the confirmation and keeps it |
| ProfileViews.OthersUntouched | django-user-profile-manager/users/views.py:123-153 | no add, edit or delete changes the rows another user owns |
| ProfileViews.AddLeavesOthers | django-user-profile-manager/users/views.py:127-129 | an add changes no other user's rows |
| ProfileViews.EditLeavesOthers | django-user-profile-manager/users/views.py:137-140 | an edit changes no other user's rows |
| ProfileViews.DeleteLeavesOthers | django-user-profile-manager/users/views.py:148-150 | a delete changes no other user's rows |
| ProfileViews.DispatchKeepsPksDistinct | django-user-profile-manager/users/views.py:123-153 | every add, edit and delete keeps primary keys distinct |
| ProfileViews.AddKeepsPksDistinct | django-user-profile-manager/users/views.py:127-129 | an add keeps primary keys distinct |
| ProfileViews.DeleteKeepsPksDistinct | django-user-profile-manager/users/views.py:148-150 | a delete keeps primary keys distinct |
| ProfileViews.Dashboard | django-user-profile-manager/users/views.py:49-59 | the completion is the user's profile's, and each count is the number of the user's rows of that kind; no context when the user has no profile |
| ProfileViews.AddRaisesCount | django-user-profile-manager/users/views.py:127-131 | a successful add raises the requester's count of that kind by one and no other count |
| ProfileViews.DeleteLowersCount | django-user-profile-manager/users/views.py:148-152 | a successful delete lowers the requester's count of that kind by one and no other count |
| BlogForms.CleanTitle | django-blog-crud-system/blog/forms.py:42-46 | a title passes unchanged exactly when it has at least 5 characters, and fails with its message otherwise |
| BlogForms.CleanContent | django-blog-crud-system/blog/forms.py:48-52 | content passes unchanged exactly when it has at least 20 characters, and fails with its message otherwise |
| BlogForms.ValidatorMessages | django-blog-crud-system/blog/forms.py:25-33 | a cleaned value has no validator message exactly when it is within the maximum length and holds no null character; at most the two messages |
| BlogForms.CleanCharField | django-blog-crud-system/blog/forms.py:25-33 | a model text field cleans to its stripped value exactly when that is non-blank, within the maximum and free of null characters; a blank value fails as required alone, and otherwise one or two validator messages are reported |
| BlogForms.TitleField | django-blog-crud-system/blog/forms.py:25-46 | the title is accepted exactly when its stripped form is 5 to 200 characters long with no null character, and is kept stripped |
| BlogForms.ContentField | django-blog-crud-system/blog/forms.py:25-52 | the content is accepted exactly when its stripped form is at least 20 characters long with no null character, and is kept stripped; a failure reports one message |
| BlogForms.PostFormErrors | django-blog-crud-system/blog/forms.py:25-52 | the form has no errors exactly when both fields are accepted; at most three messages; a blank title reports "required" first, a short one its own message first, and a null character in the title is always reported |
| BlogForms.OverlongNullTitleReportsBoth | django-blog-crud-system/blog/forms.py:25-33 | an over-long title holding a null character reports both messages, the length first |
| BlogForms.CleaningSeesStrippedValues | django-blog-crud-system/blog/forms.py:25-52 | submitting the stripped values gives the same verdict, errors and cleaned values as the raw ones |
| BlogForms.PaddingDoesNotCount | django-blog-crud-system/blog/forms.py:25-46 | whitespace padding around a title never counts towards its length |
| BlogForms.CleaningBoundaries | django-blog-crud-system/blog/forms.py:44-51 | 4 and 19 characters fail, 5 and 20 pass |
| BlogViews.Search | django-blog-crud-system/blog/views.py:14-20 | an empty query keeps every post; no query adds posts |
| BlogViews.SearchKeepsExactlyMatches | django-blog-crud-system/blog/views.py:16-20 | a non-empty query keeps a post exactly when it occurs case-insensitively in the title, content or author name |
| BlogViews.OrderFor | django-blog-crud-system/blog/views.py:22-28 | "oldest" selects oldest-first, "title" selects by title, anything else or nothing selects newest-first |
| BlogViews.Insert | django-blog-crud-system/blog/views.py:22-28 | inserting into a sorted listing keeps it sorted and adds exactly that post |
| BlogViews.SortPosts | django-blog-crud-system/blog/views.py:23-28 | the result is sorted in the chosen order and is a permutation of the input |
| BlogViews.Home | django-blog-crud-system/blog/views.py:11-40 | there is always a first page, empty exactly when the search finds nothing; otherwise pages hold 1 to 6 posts, and every page but the last holds exactly 6; laid end to end they are sorted in the chosen order and are a permutation of the search result; the context echoes the query and the sort key, defaulting to "" and "newest" |
| BlogViews.HomeWithoutSearchListsEverything | django-blog-crud-system/blog/views.py:14-30 | without a search the pages hold every post exactly once |
| BlogViews.PostCreate | django-blog-crud-system/blog/views.py:107-120 | a valid POST appends one post by the requester with the stripped title and content, dated now, under a fresh key, and redirects to it; anything else re-renders with nothing changed |
| BlogViews.FindPost | django-blog-crud-system/blog/views.py:124 | finds the post with the key, or reports that none has it |
| BlogViews.PostEdit | django-blog-crud-system/blog/views.py:122-139 | a missing post is a 404; a requester who is neither author nor superuser is sent to the detail page with an error and nothing changes; otherwise a valid POST rewrites title and content with their stripped values |
| BlogViews.PostDelete | django-blog-crud-system/blog/views.py:141-154 | the same refusal; an allowed POST removes the post and redirects to the dashboard; any other method renders the confirmation |
| BlogViews.OnlyAuthorOrSuperuserChanges | django-blog-crud-system/blog/views.py:126-128 | whenever an edit or delete changes the posts, the requester is the author or a superuser |
| BlogViews.DeleteRemovesOne | django-blog-crud-system/blog/views.py:149-152 | an allowed delete removes exactly one occurrence of the requested post |
| BlogViews.Listing | django-blog-crud-system/blog/views.py:85 | a queryset lists its rows in the model's default ordering when it has one, in storage order otherwise, always as a permutation |
| BlogViews.Dashboard | django-blog-crud-system/blog/views.py:83-101 | the listing is a permutation of the user's posts, in the default ordering; the weekly count is at most the total; the recent posts are the first five of the listing |
| BlogViews.DashboardRecentAreNewest | django-blog-crud-system/blog/views.py:85-92 | under newest-first ordering no other post of the user is newer than a recent one |
| BlogViews.DashboardCountsOwnPosts | django-blog-crud-system/blog/views.py:85-86 | the total counts the user's posts, and every post the user wrote is listed |
| BlogViews.DashboardCountsThisWeek | django-blog-crud-system/blog/views.py:88-90 | the weekly count is the number of the user's posts dated no earlier than seven days before today |
| BlogViews.NewPostCountsThisWeek | django-blog-crud-system/blog/views.py:88-90 | a post created now adds one to both the total and the weekly count |
| Notes.Home | django_notes_tracker/notes/views.py:7-30 | the total counts every note whatever the search; an empty search shows every note; the query is echoed |
| Notes.HomeSearchExact | django_notes_tracker/notes/views.py:11-19 | a non-empty search shows a stored note exactly when it occurs case-insensitively in its title or content, and shows nothing else |
| Notes.AddNote | django_notes_tracker/notes/views.py:33-77 | a blank stripped title errors and keeps the content; a blank stripped content errors and keeps the title; otherwise one note with the stripped values and a fresh id is added and the reply redirects home; non-POST renders the empty form |
| Notes.AddNoteIgnoresPadding | django_notes_tracker/notes/views.py:48-49 | whitespace padding of either field never changes the outcome |
| Notes.AddNoteSeesStrippedValues | django_notes_tracker/notes/views.py:48-49 | inputs with equal stripped values give equal outcomes |
| Notes.BothBlankReportsTitle | django_notes_tracker/notes/views.py:52-62 | with both fields blank the title error is reported and nothing is stored |
| Notes.AddNoteGrowsByAtMostOne | django_notes_tracker/notes/views.py:65-74 | the notes are unchanged, or exactly one note is added in front and the reply redirects home |
| Notes.FindNote | django_notes_tracker/notes/views.py:116 | finds a note with the id, or reports that none has it |
| Notes.DeleteNote | django_notes_tracker/notes/views.py:101-128 | non-POST redirects home with nothing changed; a POST for a missing note is a 404; otherwise the note is removed with the success message |
| Notes.DeleteNoteRemovesExactlyIt | django_notes_tracker/notes/views.py:114-125 | with distinct ids, a delete removes one note, leaves none with that id and keeps every other |
| AuthDashboard.AvatarName | django-auth-dashboard-system/users/views.py:71 | the name starts with "avatar_", ends with "." and the extension, and the digits between them read back as the user id |
| AuthDashboard.AvatarNameInjective | django-auth-dashboard-system/users/views.py:71 | two users get the same avatar name for an extension only when they are the same user |
| AuthDashboard.CropUpload | django-auth-dashboard-system/users/views.py:67-72 | an absent or empty crop gives no upload; a split into other than two parts is a ValueError; otherwise the payload's decoding, or its error, under the avatar name with the header's extension |
| AuthDashboard.SplitAroundOnlySeparator | django-auth-dashboard-system/users/views.py:69 | a header that cannot hold the separator's first character, then the separator, then a tail without it, splits into header and tail |
| AuthDashboard.SplitInTwoIff | django-auth-dashboard-system/users/views.py:69 | the split has two parts exactly when the separator occurs and does not occur again after its first occurrence |
| AuthDashboard.CropRoundTrip | django-auth-dashboard-system/users/views.py:69-71 | a header without ';', the separator and the encoding of some bytes give back exactly those bytes under the avatar name |
| AuthDashboard.CropWithoutSeparatorFails | django-auth-dashboard-system/users/views.py:69 | a non-empty crop without the separator is a ValueError |
| AuthDashboard.CropWithTwoSeparatorsFails | django-auth-dashboard-system/users/views.py:69 | a crop with the separator twice is a ValueError |
| AuthDashboard.AfterLastFollowsLastOccurrence | django-auth-dashboard-system/users/views.py:70 | the extension is the text after the last '/' |
| AuthDashboard.ExtensionOfHeader | django-auth-dashboard-system/users/views.py:70 | the upload is named after the text following the header's last '/', or after the whole header when it has none |
| AuthDashboard.GetOrCreate | django-auth-dashboard-system/users/views.py:57 | returns the user's existing profile with the store unchanged, or appends a blank one; the users never change |
| AuthDashboard.GetOrCreateGivesOneProfile | django-auth-dashboard-system/users/views.py:62 | for a stored user the store stays valid and the returned profile is the user's only one |
| AuthDashboard.Signup | django-auth-dashboard-system/users/views.py:10-27 | signed-in users are redirected; GET renders; an invalid POST renders with the error; a valid POST appends the user and its blank profile under a fresh id and signs it in |
| AuthDashboard.SignupCreatesOneProfile | django-auth-dashboard-system/users/views.py:17-18 | signup keeps the store valid, and either changes nothing or gives the new user exactly one profile |
| AuthDashboard.DashboardView | django-auth-dashboard-system/users/views.py:55-58 | shows the user's stored profile with the store unchanged, or a newly appended blank one |
| AuthDashboard.DashboardGuaranteesProfile | django-auth-dashboard-system/users/views.py:57 | afterwards the user has exactly one profile and that is the one shown |
| AuthDashboard.EditProfileView | django-auth-dashboard-system/users/views.py:60-84 | GET, an invalid form or a failing crop leave only the get_or_create change; a failing crop escapes as its exception; a valid POST redirects to the dashboard with the success message |
| AuthDashboard.EditedPicture | django-auth-dashboard-system/users/views.py:65-78 | an uploaded file becomes the picture; otherwise a stored picture is written back; only on a profile without one does the crop survive |
| AuthDashboard.IntendedPictureTakesCrop | django-auth-dashboard-system/users/views.py:67-78 | the corrected rule stores every crop, and differs from the code as written exactly when a crop meets a stored picture or a different upload |
| AuthDashboard.EditSavesForm | django-auth-dashboard-system/users/views.py:74-80 | a valid form sets the user's names and the profile's fields, with the picture EditedPicture gives; nothing else changes and the store stays valid |
| AuthDashboard.EditPictureRule | django-auth-dashboard-system/users/views.py:62-78 | after a valid edit the user's one profile holds the picture chosen from the old picture, the crop and the upload |
| AuthDashboard.EditWithoutCropPicture | django-auth-dashboard-system/users/views.py:65-78 | without a crop an upload becomes the picture, and with neither the picture stays the stored one, or none for a new profile |
| AuthDashboard.EditUploadWins | django-auth-dashboard-system/users/views.py:65-78 | an uploaded file becomes the picture whatever crop is posted with it |
| AuthDashboard.EditWithCropStoresAvatar | django-auth-dashboard-system/users/views.py:67-78 | a well-formed crop with no upload becomes the decoded avatar when the user had no picture |
| AuthDashboard.CropLostOverStoredPicture | django-auth-dashboard-system/users/views.py:67-78 | a well-formed crop with no upload, posted by a user who has a picture, leaves the old picture, unlike the corrected rule |
| Text.Strip | django_notes_tracker/notes/views.py:48-49 | the result is empty exactly when the input is all whitespace, and otherwise starts and ends with a non-whitespace character |
| Text.StripRemovesPadding | django_notes_tracker/notes/views.py:48-49 | whitespace padding around a core with non-blank ends strips back to that core |
| Text.StripIdempotent | django_notes_tracker/notes/views.py:48-49 | stripping twice equals stripping once |
| Text.Split | django-user-profile-manager/users/templatetags/profile_tags.py:16 | every word is non-empty without whitespace, and there are none exactly when the text is all whitespace |
| Text.SplitKeepsVisibleChars | django-user-profile-manager/users/templatetags/profile_tags.py:16 | the words laid end to end are exactly the non-whitespace characters in order |
| Text.SplitAppend | django-user-profile-manager/users/templatetags/profile_tags.py:16-17 | text joined at whitespace splits into the words of each side |
| Text.Find | django-auth-dashboard-system/users/views.py:69 | the first occurrence of the separator, or -1 exactly when there is none |
| Text.SplitOn | django-auth-dashboard-system/users/views.py:69 | the parts joined with the separator rebuild the text, and no part contains the separator |
| Text.AfterLast | django-auth-dashboard-system/users/views.py:70 | a suffix without the character, preceded by it when shorter than the text, and the whole text when the character is absent |
| Text.LowerStr | django-user-profile-manager/users/validators.py:13 | same length, each character lower-cased |
| Text.NatToString | django-auth-dashboard-system/users/views.py:71 | a non-empty digit string without a leading zero unless it is "0" |
| Text.NatToStringRoundTrip | django-auth-dashboard-system/users/views.py:71 | the digits read back as the number |
| Text.NatToStringInjective | django-auth-dashboard-system/users/views.py:71 | distinct numbers have distinct decimal strings |
| Text.LexLeTotal | django-blog-crud-system/blog/views.py:26 | any two titles are ordered one way or the other |
| Text.LexLeTransitive | django-blog-crud-system/blog/views.py:26 | title order is transitive |
| Seqs.Chunks | django-blog-crud-system/blog/views.py:30 | the pages laid end to end are the listing; each holds 1 to the page size, and all but the last are full |
| Seqs.FilterTwice | django-blog-crud-system/blog/views.py:85-90 | filtering the user's posts and then by date equals one filter by both conditions |
| Base64.Encode | django-auth-dashboard-system/users/views.py:71 | the encoding uses only alphabet characters and '=' |
| Base64.EncodedLength | django-auth-dashboard-system/users/views.py:71 | four characters for every started group of three bytes |
| Base64.Decode | django-auth-dashboard-system/users/views.py:71 | a length that is not a multiple of four fails; a success decodes each four characters to at most three bytes, losing at most two in the last quad |
| Base64.DecodeEncode | django-auth-dashboard-system/users/views.py:71 | decoding the encoding of any bytes gives them back |
| Base64.EncodeDecode | django-auth-dashboard-system/users/views.py:71 | whatever decodes is the encoding of its result, so decoding accepts exactly canonical encodings |

## Left out

- Text: only ASCII is modelled. `isspace`, `lower`, `upper`, `split`, `strip`, `isdigit`, the regex `\d` and `icontains` work on Unicode in Python.
- Profiles.CompletionPercentage: written as `filled * 100 / 5` in integers. The source computes `int((filled / 5) * 100)` in floating point, which gives the same value for `filled` in 0..5.
- Framework forms are parameters. The verdicts of `UserRegisterForm`, `UserCreationForm`, `SignUpForm`, `UserProfileForm`, and the row forms of the four collections are inputs to the views, and their own validation is not modelled. `PostForm` is the exception: its field cleaning is modelled.
- ProfileViews.EditEntry: `EducationForm`, `SkillForm`, `ExperienceForm` and `ProjectForm` are imported by users/views.py but defined in no file of the profile manager, so their fields are unknown. A row's form data is opaque `details`, and the model assumes these forms cannot change a row's owner or kind.
- ProfileViews.ResolveUrl: the project's URL names are a parameter (`routes`). users/urls.py routes only `register`, `login`, `logout`, `dashboard`, `profile`, `profile_view`, `profile_edit` and `change_password`. It defines neither `education_list`, `skills_list`, `experience_list` nor `projects_list`, which the collection views redirect to, and it routes none of the twelve add, edit and delete views. The model assumes a project urls.py it does not show, in which every name the views redirect to literally is defined, so those redirects never fail. `routes` holds only the names that reverse without arguments: `profile_view` needs a username, so `next=profile_view` raises NoReverseMatch and is not in `routes`.
- ProfileViews.UrlScheme: follows `urlsplit` of Python 3.9 and later. Its stripping of leading control characters and spaces, and its removal of tabs and line breaks, are not modelled. A target holding them may be given a different scheme here than there.
- BlogForms.TitleField: the title's `max_length` is taken as 200, the `maxlength` its widget states; `Post.title`'s own declaration (blog/models.py) is not part of this model. Nor is whether `Post.title` and `Post.content` are `blank=True`: the model takes both as required. If one were blank, an empty value would skip the required step and get the form's own length message instead of "This field is required.".
- Validators.SplitExt: models POSIX `os.path.splitext`. On Windows, `ntpath` also splits at the backslash and after a drive letter, which is not modelled.
- AuthDashboard.EditProfileView: the validation of the uploaded image itself (that it is a readable image) belongs to the form's verdict. The upload is the file posted under `profile_picture`.
- `authenticate`, `login` and sessions: what `authenticate` returns is a parameter, and signing in is the returned session.
- `login_required` redirects: not modelled; the views take the signed-in user.
- Paginator: every page is returned, and an empty listing has one empty first page (`allow_empty_first_page`). `get_page`'s handling of missing or out-of-range page numbers is not modelled.
- BlogViews.Dashboard: the clock and time zone are left out. `today` is a day number supplied by the caller, and a post's date is its UTC day. The listing's order is a parameter (`ordering`), because the `Post` model's `Meta.ordering` (blog/models.py) is not part of this model: `Some(Newest)` matches the `-created_at` ordering the other two apps' models declare, `None` a model without one.
- BlogViews.Home: the model's sort orders posts with equal keys in one fixed way; the database leaves their order open.
- Base64: decoding is modelled for canonical padded input only. Python's lenient `b64decode` (discarding non-alphabet characters, unused non-zero bits) is not, and such input is an error here.
- Base64.Encode: its own ensures states only the alphabet; the length is in `Base64.EncodedLength`, and the round trips are in `DecodeEncode` and `EncodeDecode`.
- Validators.ValidateImageExtension: its own ensures states only the message; acceptance is characterised by `ExtensionAcceptedIff`, `LastSuffixCounts` and `NoExtensionRejected`.
- Validators.ValidatePhoneNumber: its own ensures states the empty case and the message; acceptance is characterised by `PhoneNumberAcceptedIff`.
- Validators.ValidatePhoneFormat: its own ensures states the empty case and the message; acceptance is characterised by `PhoneFormatByLength`.
- File I/O and ImageField storage: an image is its size and name, an upload its name and bytes. Nothing is written to disk.
- The second profile-creation hook (`save_user_profile`, models.py:45-47): it re-saves the profile and changes no field the model holds. The hooks of signals.py are not part of this model, since which hooks are active depends on configuration not shown.
- Templates, message storage order, and the rendered context beyond the values listed in each view's result record.
- The remaining views of the profile manager (`user_logout`, `profile_view`, `profile_edit`, `change_password`, `personal_info` and the four list views): rendering and framework forms only.
- The remaining views of the blog (`register`, `user_login`, `user_logout`, `post_detail`, `author_posts`): the same redirect and lookup rules as those modelled, with nothing of their own to prove.
- The remaining views of the auth dashboard (`login_view`, `logout_view`, `change_password_view`): framework authentication and password forms.
- `view_note`: a lookup and a render.
- The `total_profiles` and `active_users` template tags: plain counts of the account table.
- `get_short_content`: not defined in the notes model file, so there is nothing to model.
- The root `views.py` (movie catalogue), admin, urls, apps, extra forms, API views and the management commands: configuration, ORM pass-through, random seeding and console output.
- All JavaScript: browser UI.

## Findings

| source | as written | input that shows it | evidently intended | confidence | as-written member | corrected member |
|---|---|---|---|---|---|---|
| django-auth-dashboard-system/users/views.py:65-78 | the crop is put on the profile at line 72, but `form.is_valid()` at line 74 then writes the form's `profile_picture` value over it; with no file uploaded that value is the picture the profile already had, so `form.save()` stores the old picture | a user whose profile has a picture posts a valid form with a well-formed `cropped_image` and no file, which is what the page's cropper sends, since it clears the file input (users/static/js/cropper.js:78) | the cropped avatar becomes the picture | medium, not executed: it rests on the framework's `FileField.clean` returning the initial file when none is uploaded and on the instance being filled inside `is_valid()` | AuthDashboard.CropLostOverStoredPicture | AuthDashboard.IntendedPictureTakesCrop |

`AuthDashboard.EditProfileView` keeps the behaviour as written (`EditedPicture`),
since it models the view; `AuthDashboard.IntendedPicture` is the corrected
picture rule, and no other part of the model depends on which of the two is
used.

=== FILE: auth_dashboard.dfy ===
/** The auth dashboard's user views (django-auth-dashboard-system/users/views.py):
    `signup_view` creating the user together with its profile, `dashboard_view`
    and `edit_profile_view` guaranteeing a profile through `get_or_create`, and
    the cropped-avatar data URL that `edit_profile_view` unpacks, names and
    decodes before the form is validated. */
module AuthDashboard {
  import opened Wrappers
  import opened Http
  import opened Text
  import Seqs
  import Base64

  // ---------------------------------------------------------------------------
  // The cropped avatar

  /** The separator the data URL is unpacked around. */
  const DataSeparator: string := ";base64,"

  /** The file `ContentFile(..., name=...)` wraps. */
  datatype Upload = Upload(name: string, content: seq<Base64.byte>)

  /** `avatar_<user id>.<ext>`: the text between the prefix and the last
      `.<ext>` is the id in decimal. */
  function AvatarName(userId: nat, ext: string): (name: string)
    ensures |name| > |ext| + 8
    ensures name[..7] == "avatar_" && name[|name| - |ext| - 1] == '.' && name[|name| - |ext|..] == ext
    ensures var middle := name[7..|name| - |ext| - 1];
      IsDigits(middle) && DigitsValue(middle) == userId
  {
    var digits := NatToString(userId);
    NatToStringRoundTrip(userId);
    var name := "avatar_" + digits + "." + ext;
    assert name[7..|name| - |ext| - 1] == digits;
    name
  }

  /** Distinct users get distinct avatar names for the same extension. */
  lemma AvatarNameInjective(a: nat, b: nat, ext: string)
    requires AvatarName(a, ext) == AvatarName(b, ext)
    ensures a == b
  {
    var name := AvatarName(a, ext);
    var da, db := NatToString(a), NatToString(b);
    assert name == "avatar_" + da + "." + ext;
    assert name == "avatar_" + db + "." + ext;
    assert |da| == |db|;
    assert da == name[7..7 + |da|];
    assert db == name[7..7 + |db|];
    NatToStringInjective(a, b);
  }

  /** The crop branch of `edit_profile_view`: `None` when no cropped image was
      posted (or it is empty), the decoded upload otherwise. Unpacking the split
      into exactly two parts raises `ValueError`, and a payload that is not
      base64 raises `binascii.Error`. */
  function CropUpload(userId: nat, cropped: Option<string>): (r: Result<Option<Upload>>)
    ensures cropped.GetOr("") == "" ==> r == Ok(None)
    ensures cropped.GetOr("") != "" && |SplitOn(cropped.value, DataSeparator)| != 2 ==> r == Err("ValueError")
    ensures cropped.GetOr("") != "" && |SplitOn(cropped.value, DataSeparator)| == 2 ==>
      var parts := SplitOn(cropped.value, DataSeparator);
      var ext := AfterLast(parts[0], '/');
      match Base64.Decode(parts[1])
      case Ok(bytes) => r == Ok(Some(Upload(AvatarName(userId, ext), bytes)))
      case Err(e) => r == Err(e)
  {
    var s := cropped.GetOr("");
    if s == "" then Ok(None)
    else
      var parts := SplitOn(s, DataSeparator);
      if |parts| != 2 then Err("ValueError")
      else
        var ext := AfterLast(parts[0], '/');
        match Base64.Decode(parts[1])
        case Ok(bytes) => Ok(Some(Upload(AvatarName(userId, ext), bytes)))
        case Err(e) => Err(e)
  }

  /** The first occurrence of a separator is right after a head that cannot
      contain the start of it. */
  lemma FindAfterHead(head: string, sep: string, tail: string)
    requires sep != "" && sep[0] !in head
    ensures Find(head + sep + tail, sep) == |head|
  {
    var s := head + sep + tail;
    assert OccursAt(s, sep, |head|) by {
      assert s[|head|..|head| + |sep|] == sep;
    }
    forall j | 0 <= j < |head| ensures !OccursAt(s, sep, j) {
      assert s[j] == head[j];
    }
  }

  /** Splitting around a separator that the head cannot contain the start of,
      and that the tail does not contain, gives back the head and the tail. */
  lemma SplitAroundOnlySeparator(head: string, sep: string, tail: string)
    requires sep != "" && sep[0] !in head && !Contains(tail, sep)
    ensures SplitOn(head + sep + tail, sep) == [head, tail]
  {
    var s := head + sep + tail;
    FindAfterHead(head, sep, tail);
    assert s[..|head|] == head;
    assert s[|head| + |sep|..] == tail;
    assert Find(tail, sep) < 0;
  }

  /** The unpacking succeeds exactly when the separator occurs once: there is
      an occurrence, and none after the first. */
  lemma SplitInTwoIff(s: string, sep: string)
    requires sep != ""
    ensures |SplitOn(s, sep)| == 2 <==>
      Contains(s, sep) && !Contains(s[Find(s, sep) + |sep|..], sep)
  {
    var i := Find(s, sep);
    if i >= 0 {
      var rest := s[i + |sep|..];
      assert SplitOn(s, sep) == [s[..i]] + SplitOn(rest, sep);
      var j := Find(rest, sep);
      if j >= 0 {
        assert SplitOn(rest, sep) == [rest[..j]] + SplitOn(rest[j + |sep|..], sep);
      }
    }
  }

  /** A data URL built from a header without ';' and the encoding of some bytes
      yields exactly those bytes, under the avatar name with the header's
      extension. */
  lemma CropRoundTrip(userId: nat, header: string, bytes: seq<Base64.byte>)
    requires ';' !in header
    ensures CropUpload(userId, Some(header + DataSeparator + Base64.Encode(bytes)))
         == Ok(Some(Upload(AvatarName(userId, AfterLast(header, '/')), bytes)))
  {
    var payload := Base64.Encode(bytes);
    assert !Contains(payload, DataSeparator) by {
      forall i | 0 <= i < |payload| ensures !OccursAt(payload, DataSeparator, i) {
        assert payload[i] != ';';
      }
    }
    SplitAroundOnlySeparator(header, DataSeparator, payload);
    Base64.DecodeEncode(bytes);
  }

  /** A cropped image without the separator cannot be unpacked. */
  lemma CropWithoutSeparatorFails(userId: nat, s: string)
    requires s != "" && !Contains(s, DataSeparator)
    ensures CropUpload(userId, Some(s)) == Err("ValueError")
  {
    assert SplitOn(s, DataSeparator) == [s];
  }

  /** A cropped image with the separator twice cannot be unpacked either. */
  lemma CropWithTwoSeparatorsFails(userId: nat, a: string, b: string, c: string)
    requires ';' !in a
    ensures CropUpload(userId, Some(a + DataSeparator + b + DataSeparator + c)) == Err("ValueError")
  {
    var sep := DataSeparator;
    var rest := b + sep + c;
    var s := a + sep + rest;
    assert s == a + DataSeparator + b + DataSeparator + c;
    FindAfterHead(a, sep, rest);
    assert s[|a| + |sep|..] == rest;
    assert OccursAt(rest, sep, |b|) by {
      assert rest[|b|..|b| + |sep|] == sep;
    }
    SplitInTwoIff(s, sep);
  }

  /** `s.split(c)[-1]` is the text after the occurrence of `c` that has no
      other after it. */
  lemma AfterLastFollowsLastOccurrence(s: string, c: char, k: int)
    requires 0 <= k < |s| && s[k] == c && c !in s[k + 1..]
    ensures AfterLast(s, c) == s[k + 1..]
  {
    var r := AfterLast(s, c);
    var m := |s| - |r|;
    NoneInSuffix(s, c, m);
    assert k < m;
    NoneInSuffix(s, c, k + 1);
    assert m == k + 1;
    assert r == s[m..];
  }

  /** A suffix of `s` without `c`, by index. */
  lemma NoneInSuffix(s: string, c: char, m: int)
    requires 0 <= m <= |s| && c !in s[m..]
    ensures forall i :: m <= i < |s| ==> s[i] != c
  {
    forall i | m <= i < |s|
      ensures s[i] != c
    {
      assert s[i] == s[m..][i - m];
    }
  }

  /** The extension is what follows the header's last '/', and the whole
      header when it has none. */
  lemma ExtensionOfHeader(userId: nat, header: string, bytes: seq<Base64.byte>)
    requires ';' !in header
    ensures '/' !in header ==>
      CropUpload(userId, Some(header + DataSeparator + Base64.Encode(bytes)))
        == Ok(Some(Upload(AvatarName(userId, header), bytes)))
    ensures forall k :: 0 <= k < |header| && header[k] == '/' && '/' !in header[k + 1..] ==>
      CropUpload(userId, Some(header + DataSeparator + Base64.Encode(bytes)))
        == Ok(Some(Upload(AvatarName(userId, header[k + 1..]), bytes)))
  {
    CropRoundTrip(userId, header, bytes);
    forall k | 0 <= k < |header| && header[k] == '/' && '/' !in header[k + 1..]
      ensures AfterLast(header, '/') == header[k + 1..]
    {
      AfterLastFollowsLastOccurrence(header, '/', k);
    }
  }

  // ---------------------------------------------------------------------------
  // Users and profiles

  datatype User = User(id: nat, username: string, email: string, firstName: string, lastName: string)

  /** `UserProfile`: one per user (`OneToOneField`); the picture is the stored upload. */
  datatype UserProfile = UserProfile(
    userId: nat,
    picture: Option<Upload>,
    dateOfBirth: Option<string>,
    bio: Option<string>,
    skills: Option<string>,
    education: Option<string>)

  function BlankProfile(userId: nat): UserProfile {
    UserProfile(userId, None, None, None, None, None)
  }

  datatype Store = Store(users: seq<User>, profiles: seq<UserProfile>)

  predicate HasUser(st: Store, id: nat) {
    exists i :: 0 <= i < |st.users| && st.users[i].id == id
  }

  function FindUser(st: Store, id: nat): (k: int)
    ensures -1 <= k < |st.users|
    ensures k >= 0 ==> st.users[k].id == id
    ensures k < 0 <==> !HasUser(st, id)
  {
    Seqs.FirstIndex(st.users, (u: User) => u.id == id)
  }

  function FindProfile(st: Store, id: nat): (k: int)
    ensures -1 <= k < |st.profiles|
    ensures k >= 0 ==> st.profiles[k].userId == id
    ensures k < 0 <==> forall j :: 0 <= j < |st.profiles| ==> st.profiles[j].userId != id
  {
    Seqs.FirstIndex(st.profiles, (p: UserProfile) => p.userId == id)
  }

  /** Ids are unique, each user has at most one profile, and every profile
      belongs to a stored user. */
  predicate Valid(st: Store) {
    && (forall i, j :: 0 <= i < j < |st.users| ==> st.users[i].id != st.users[j].id)
    && (forall i, j :: 0 <= i < j < |st.profiles| ==> st.profiles[i].userId != st.profiles[j].userId)
    && (forall j :: 0 <= j < |st.profiles| ==> HasUser(st, st.profiles[j].userId))
  }

  /** The profile at `k` is the user's, and the user has no other. */
  predicate OnlyProfileAt(st: Store, id: nat, k: int) {
    0 <= k < |st.profiles| && st.profiles[k].userId == id
    && forall j :: 0 <= j < |st.profiles| && j != k ==> st.profiles[j].userId != id
  }

  /** `UserProfile.objects.get_or_create(user=...)`: the store afterwards and
      the position of the user's profile in it, created blank if missing. */
  function GetOrCreate(st: Store, id: nat): (r: (Store, nat))
    ensures r.1 < |r.0.profiles| && r.0.profiles[r.1].userId == id
    ensures r.0.users == st.users
    ensures FindProfile(st, id) >= 0 ==> r == (st, FindProfile(st, id))
    ensures FindProfile(st, id) < 0 ==> r == (Store(st.users, st.profiles + [BlankProfile(id)]), |st.profiles|)
  {
    var k := FindProfile(st, id);
    if k >= 0 then (st, k)
    else (Store(st.users, st.profiles + [BlankProfile(id)]), |st.profiles|)
  }

  /** For a stored user, `get_or_create` keeps the store valid, and the
      profile it returns is the user's only one. */
  lemma GetOrCreateGivesOneProfile(st: Store, id: nat)
    requires Valid(st) && HasUser(st, id)
    ensures var (st', k) := GetOrCreate(st, id);
      Valid(st') && OnlyProfileAt(st', id, k)
  {
    if FindProfile(st, id) < 0 {
      CreatedProfileIsOnly(st, id);
    }
  }

  lemma CreatedProfileIsOnly(st: Store, id: nat)
    requires Valid(st) && HasUser(st, id) && FindProfile(st, id) < 0
    ensures var st' := Store(st.users, st.profiles + [BlankProfile(id)]);
      Valid(st') && OnlyProfileAt(st', id, |st.profiles|)
  {
    var st' := Store(st.users, st.profiles + [BlankProfile(id)]);
    var n := |st.profiles|;
    assert forall j :: 0 <= j < n ==> st'.profiles[j] == st.profiles[j];
    assert forall x :: HasUser(st', x) == HasUser(st, x);
  }

  // ---------------------------------------------------------------------------
  // signup_view

  datatype SignupForm = SignupForm(username: string, email: string)

  datatype SignupOutcome = SignupOutcome(store: Store, session: Session, reply: Reply)

  /** `signup_view`. `form` is the validated `SignUpForm` (`None` when it is
      invalid); a valid POST saves the user, creates its profile and logs it in. */
  function Signup(st: Store, session: Session, verb: Method, form: Option<SignupForm>): (r: SignupOutcome)
    ensures session.IsAuthenticated() ==> r == SignupOutcome(st, session, Reply(Redirect("dashboard"), []))
    ensures !session.IsAuthenticated() && verb != Post ==>
      r == SignupOutcome(st, session, Reply(Render("users/signup.html"), []))
    ensures !session.IsAuthenticated() && verb == Post && form.None? ==>
      r == SignupOutcome(st, session, Reply(Render("users/signup.html"), [Message(Error, "Please correct the errors below.")]))
    ensures !session.IsAuthenticated() && verb == Post && form.Some? ==>
      && r.session.SignedIn? && !HasUser(st, r.session.userId)
      && r.store.users == st.users + [User(r.session.userId, form.value.username, form.value.email, "", "")]
      && r.store.profiles == st.profiles + [BlankProfile(r.session.userId)]
      && r.reply == Reply(Redirect("dashboard"), [Message(Success, "Account created successfully!")])
  {
    if session.IsAuthenticated() then SignupOutcome(st, session, Reply(Redirect("dashboard"), []))
    else if verb == Post then
      match form
      case None =>
        SignupOutcome(st, session, Reply(Render("users/signup.html"), [Message(Error, "Please correct the errors below.")]))
      case Some(f) =>
        var id := Seqs.NextKey(st.users, (u: User) => u.id);
        var u := User(id, f.username, f.email, "", "");
        SignupOutcome(Store(st.users + [u], st.profiles + [BlankProfile(id)]), SignedIn(id),
                      Reply(Redirect("dashboard"), [Message(Success, "Account created successfully!")]))
    else SignupOutcome(st, session, Reply(Render("users/signup.html"), []))
  }

  /** A successful signup keeps the store valid and gives the new user exactly
      one profile, the last one; every other outcome leaves the store alone. */
  lemma SignupCreatesOneProfile(st: Store, session: Session, verb: Method, form: Option<SignupForm>)
    requires Valid(st)
    ensures var r := Signup(st, session, verb, form);
      Valid(r.store)
      && (r.store == st || (r.session.SignedIn? && OnlyProfileAt(r.store, r.session.userId, |st.profiles|)))
  {
    var r := Signup(st, session, verb, form);
    if r.store != st {
      var id := r.session.userId;
      var n, m := |st.users|, |st.profiles|;
      assert r.store.users[n].id == id;
      forall j | 0 <= j < m ensures r.store.profiles[j].userId != id {
        assert r.store.profiles[j] == st.profiles[j];
        var u :| 0 <= u < |st.users| && st.users[u].id == st.profiles[j].userId;
      }
      forall j | 0 <= j < |r.store.profiles| ensures HasUser(r.store, r.store.profiles[j].userId) {
        if j < m {
          assert r.store.profiles[j] == st.profiles[j];
          var u :| 0 <= u < |st.users| && st.users[u].id == st.profiles[j].userId;
          assert r.store.users[u] == st.users[u];
        }
      }
      forall i | 0 <= i < n ensures r.store.users[i].id != id {
        assert r.store.users[i] == st.users[i];
      }
    }
  }

  // ---------------------------------------------------------------------------
  // dashboard_view

  /** `dashboard_view`: the signed-in user's profile, created blank if missing. */
  function DashboardView(st: Store, userId: nat): (r: (Store, UserProfile, Reply))
    ensures r.1.userId == userId
    ensures r.2 == Reply(Render("users/dashboard.html"), [])
    ensures FindProfile(st, userId) >= 0 ==> r.0 == st && r.1 == st.profiles[FindProfile(st, userId)]
    ensures FindProfile(st, userId) < 0 ==> r.1 == BlankProfile(userId) && r.0.profiles == st.profiles + [r.1]
  {
    var (st', k) := GetOrCreate(st, userId);
    (st', st'.profiles[k], Reply(Render("users/dashboard.html"), []))
  }

  /** The dashboard always has a profile to show, and it is the user's only one. */
  lemma DashboardGuaranteesProfile(st: Store, userId: nat)
    requires Valid(st) && HasUser(st, userId)
    ensures var r := DashboardView(st, userId);
      Valid(r.0)
      && (exists k :: OnlyProfileAt(r.0, userId, k))
      && forall k :: 0 <= k < |r.0.profiles| && r.0.profiles[k].userId == userId ==> r.1 == r.0.profiles[k]
  {
    GetOrCreateGivesOneProfile(st, userId);
    var (st', k) := GetOrCreate(st, userId);
    assert OnlyProfileAt(st', userId, k);
  }

  // ---------------------------------------------------------------------------
  // edit_profile_view

  /** A valid `UserProfileForm`: its cleaned text fields, and `upload`, the
      file posted under `profile_picture` (`None` when no file was sent). */
  datatype ProfileForm = ProfileForm(
    firstName: string,
    lastName: string,
    dateOfBirth: Option<string>,
    bio: Option<string>,
    skills: Option<string>,
    education: Option<string>,
    upload: Option<Upload>)

  /** The store after the request and what the request produced: a reply, or
      the exception that escaped the view. */
  datatype EditOutcome = EditOutcome(store: Store, reply: Result<Reply>)

  /** The picture the form's `profile_picture` field cleans to
      (`FileField.clean(data, initial)`): the uploaded file, or, when none was
      sent, the picture the form was built with. */
  function CleanedPicture(upload: Option<Upload>, initial: Option<Upload>): Option<Upload> {
    if upload.Some? then upload else initial
  }

  /** The picture a valid edit stores, as the view is written. The crop is put
      on the instance first; `is_valid()` then writes the field's cleaned
      picture over it unless that is `None` (which means "no change"). So an
      upload always wins, a stored picture is written back over the crop, and
      the crop survives only on a profile without a picture. */
  function EditedPicture(stored: Option<Upload>, crop: Option<Upload>, upload: Option<Upload>): (p: Option<Upload>)
    ensures upload.Some? ==> p == upload
    ensures upload.None? && stored.Some? ==> p == stored
    ensures upload.None? && stored.None? ==> p == crop
  {
    var onInstance := if crop.Some? then crop else stored;
    var cleaned := CleanedPicture(upload, stored);
    if cleaned.Some? then cleaned else onInstance
  }

  /** The picture the view evidently means to store: a posted crop becomes the
      picture; without one, an uploaded file does; otherwise it stays. */
  function IntendedPicture(stored: Option<Upload>, crop: Option<Upload>, upload: Option<Upload>): Option<Upload> {
    if crop.Some? then crop else CleanedPicture(upload, stored)
  }

  /** The intended rule stores every crop, and differs from the view as written
      exactly when a crop is posted over a stored picture or with an upload
      that is not that crop. */
  lemma IntendedPictureTakesCrop(stored: Option<Upload>, crop: Option<Upload>, upload: Option<Upload>)
    ensures crop.Some? ==> IntendedPicture(stored, crop, upload) == crop
    ensures crop.None? ==> IntendedPicture(stored, crop, upload) == (if upload.Some? then upload else stored)
    ensures IntendedPicture(stored, crop, upload) != EditedPicture(stored, crop, upload) <==>
      crop.Some? && (if upload.Some? then upload != crop else stored.Some? && stored != crop)
  {
  }

  /** The profile `form.save()` writes: the form's fields over the instance,
      with `picture` as the picture. */
  function FormProfile(userId: nat, f: ProfileForm, picture: Option<Upload>): UserProfile {
    UserProfile(userId, picture, f.dateOfBirth, f.bio, f.skills, f.education)
  }

  /** `edit_profile_view` for a signed-in user. `form` is the validated form
      (`None` when invalid) and `cropped` the posted `cropped_image`. The
      profile is fetched or created first, and that creation is already
      stored when the crop raises. */
  function EditProfileView(st: Store, userId: nat, verb: Method, cropped: Option<string>, form: Option<ProfileForm>): (r: EditOutcome)
    requires HasUser(st, userId)
    ensures verb != Post || form.None? || CropUpload(userId, cropped).Err? ==> r.store == GetOrCreate(st, userId).0
    ensures verb != Post ==> r.reply == Ok(Reply(Render("users/edit_profile.html"), []))
    ensures verb == Post && CropUpload(userId, cropped).Err? ==> r.reply == Err(CropUpload(userId, cropped).error)
    ensures verb == Post && CropUpload(userId, cropped).Ok? && form.None? ==>
      r.reply == Ok(Reply(Render("users/edit_profile.html"), []))
    ensures verb == Post && CropUpload(userId, cropped).Ok? && form.Some? ==>
      r.reply == Ok(Reply(Redirect("dashboard"), [Message(Success, "Profile updated successfully!")]))
  {
    var (st1, k) := GetOrCreate(st, userId);
    if verb == Post then
      match CropUpload(userId, cropped)
      case Err(e) => EditOutcome(st1, Err(e))
      case Ok(crop) =>
        match form
        case None => EditOutcome(st1, Ok(Reply(Render("users/edit_profile.html"), [])))
        case Some(f) =>
          var picture := EditedPicture(st1.profiles[k].picture, crop, f.upload);
          var u := FindUser(st, userId);
          var user := st1.users[u].(firstName := f.firstName, lastName := f.lastName);
          EditOutcome(Store(st1.users[u := user], st1.profiles[k := FormProfile(userId, f, picture)]),
                      Ok(Reply(Redirect("dashboard"), [Message(Success, "Profile updated successfully!")])))
    else EditOutcome(st1, Ok(Reply(Render("users/edit_profile.html"), [])))
  }

  /** A valid form stores the names on the user and the fields on the user's
      profile, with the picture `EditedPicture` gives; no other user or
      profile changes, and the store stays valid. */
  lemma EditSavesForm(st: Store, userId: nat, cropped: Option<string>, f: ProfileForm)
    requires Valid(st) && HasUser(st, userId)
    requires CropUpload(userId, cropped).Ok?
    ensures var (st1, k) := GetOrCreate(st, userId);
      var st2 := EditProfileView(st, userId, Post, cropped, Some(f)).store;
      var crop := CropUpload(userId, cropped).value;
      var u := FindUser(st, userId);
      && Valid(st2) && OnlyProfileAt(st2, userId, k)
      && st2.users == st.users[u := st.users[u].(firstName := f.firstName, lastName := f.lastName)]
      && st2.profiles == st1.profiles[k := FormProfile(userId, f, EditedPicture(st1.profiles[k].picture, crop, f.upload))]
  {
    var (st1, k) := GetOrCreate(st, userId);
    GetOrCreateGivesOneProfile(st, userId);
    var st2 := EditProfileView(st, userId, Post, cropped, Some(f)).store;
    EditStoresFields(st, userId, cropped, f);
    SameKeysKeepValid(st1, st2, userId, k);
  }

  /** The store a valid edit leaves: one user's names and one profile replaced. */
  lemma EditStoresFields(st: Store, userId: nat, cropped: Option<string>, f: ProfileForm)
    requires HasUser(st, userId) && CropUpload(userId, cropped).Ok?
    ensures var (st1, k) := GetOrCreate(st, userId);
      var st2 := EditProfileView(st, userId, Post, cropped, Some(f)).store;
      var crop := CropUpload(userId, cropped).value;
      var u := FindUser(st, userId);
      && st2.users == st.users[u := st.users[u].(firstName := f.firstName, lastName := f.lastName)]
      && st2.profiles == st1.profiles[k := FormProfile(userId, f, EditedPicture(st1.profiles[k].picture, crop, f.upload))]
      && SameKeys(st1, st2)
  {
  }

  /** Two stores holding the same user ids and profile owners, position by position. */
  predicate SameKeys(a: Store, b: Store) {
    && |a.users| == |b.users| && |a.profiles| == |b.profiles|
    && (forall i :: 0 <= i < |a.users| ==> a.users[i].id == b.users[i].id)
    && (forall j :: 0 <= j < |a.profiles| ==> a.profiles[j].userId == b.profiles[j].userId)
  }

  /** Validity and the ownership of a profile depend only on the keys. */
  lemma SameKeysKeepValid(a: Store, b: Store, id: nat, k: int)
    requires SameKeys(a, b) && Valid(a) && OnlyProfileAt(a, id, k)
    ensures Valid(b) && OnlyProfileAt(b, id, k)
  {
    forall x | HasUser(a, x) ensures HasUser(b, x) {
      var i :| 0 <= i < |a.users| && a.users[i].id == x;
      assert b.users[i].id == x;
    }
  }

  /** The picture the user's profile holds after a valid edit. */
  function PictureAfterEdit(st: Store, userId: nat, cropped: Option<string>, f: ProfileForm): Option<Upload>
    requires HasUser(st, userId)
  {
    var st2 := EditProfileView(st, userId, Post, cropped, Some(f)).store;
    var k := FindProfile(st2, userId);
    if k >= 0 then st2.profiles[k].picture else None
  }

  /** The picture the user had before the request: the stored one, or none
      when the profile does not exist yet. */
  function PictureBefore(st: Store, userId: nat): Option<Upload> {
    var k := FindProfile(st, userId);
    if k >= 0 then st.profiles[k].picture else None
  }

  /** After a valid edit the user's one profile holds the picture
      `EditedPicture` chooses from the old picture, the crop and the upload. */
  lemma EditPictureRule(st: Store, userId: nat, cropped: Option<string>, f: ProfileForm)
    requires Valid(st) && HasUser(st, userId)
    requires CropUpload(userId, cropped).Ok?
    ensures var st2 := EditProfileView(st, userId, Post, cropped, Some(f)).store;
      FindProfile(st2, userId) >= 0
      && forall k :: 0 <= k < |st2.profiles| && st2.profiles[k].userId == userId ==>
        st2.profiles[k].picture
          == EditedPicture(PictureBefore(st, userId), CropUpload(userId, cropped).value, f.upload)
  {
    EditSavesForm(st, userId, cropped, f);
    var (st1, k) := GetOrCreate(st, userId);
    GetOrCreateGivesOneProfile(st, userId);
    assert st1.profiles[k].picture == PictureBefore(st, userId);
  }

  /** The picture after a valid edit, in terms of the picture before it. */
  lemma PictureAfterEditIs(st: Store, userId: nat, cropped: Option<string>, f: ProfileForm)
    requires Valid(st) && HasUser(st, userId)
    requires CropUpload(userId, cropped).Ok?
    ensures PictureAfterEdit(st, userId, cropped, f)
      == EditedPicture(PictureBefore(st, userId), CropUpload(userId, cropped).value, f.upload)
  {
    EditPictureRule(st, userId, cropped, f);
  }

  /** Without a cropped image, an uploaded file becomes the picture; with no
      upload either, the picture stays what it was (none for a new profile). */
  lemma EditWithoutCropPicture(st: Store, userId: nat, cropped: Option<string>, f: ProfileForm)
    requires Valid(st) && HasUser(st, userId)
    requires cropped.GetOr("") == ""
    ensures PictureAfterEdit(st, userId, cropped, f)
      == if f.upload.Some? then f.upload else PictureBefore(st, userId)
  {
    PictureAfterEditIs(st, userId, cropped, f);
  }

  /** An uploaded file becomes the picture whatever crop accompanies it. */
  lemma EditUploadWins(st: Store, userId: nat, cropped: Option<string>, f: ProfileForm)
    requires Valid(st) && HasUser(st, userId)
    requires CropUpload(userId, cropped).Ok? && f.upload.Some?
    ensures PictureAfterEdit(st, userId, cropped, f) == f.upload
  {
    PictureAfterEditIs(st, userId, cropped, f);
  }

  /** A well-formed cropped image with no upload becomes the user's picture
      when the user had none. */
  lemma EditWithCropStoresAvatar(st: Store, userId: nat, header: string, bytes: seq<Base64.byte>, f: ProfileForm)
    requires Valid(st) && HasUser(st, userId)
    requires ';' !in header
    requires f.upload.None? && PictureBefore(st, userId).None?
    ensures PictureAfterEdit(st, userId, Some(header + DataSeparator + Base64.Encode(bytes)), f)
      == Some(Upload(AvatarName(userId, AfterLast(header, '/')), bytes))
  {
    var cropped := Some(header + DataSeparator + Base64.Encode(bytes));
    CropRoundTrip(userId, header, bytes);
    PictureAfterEditIs(st, userId, cropped, f);
  }

  /** As written, a crop posted by a user who already has a picture is lost:
      the form's picture field cleans to the stored picture and is written
      back over the crop, so the old picture stays. */
  lemma CropLostOverStoredPicture(st: Store, userId: nat, header: string, bytes: seq<Base64.byte>, f: ProfileForm)
    requires Valid(st) && HasUser(st, userId)
    requires ';' !in header
    requires f.upload.None? && PictureBefore(st, userId).Some?
    ensures PictureAfterEdit(st, userId, Some(header + DataSeparator + Base64.Encode(bytes)), f)
      == PictureBefore(st, userId)
    ensures PictureBefore(st, userId) != Some(Upload(AvatarName(userId, AfterLast(header, '/')), bytes)) ==>
      PictureAfterEdit(st, userId, Some(header + DataSeparator + Base64.Encode(bytes)), f)
        != IntendedPicture(PictureBefore(st, userId), Some(Upload(AvatarName(userId, AfterLast(header, '/')), bytes)), None)
  {
    var cropped := Some(header + DataSeparator + Base64.Encode(bytes));
    CropRoundTrip(userId, header, bytes);
    PictureAfterEditIs(st, userId, cropped, f);
  }
}

=== FILE: base64.dfy ===
/** Base64 as defined in section 4 of RFC 4648: every three bytes become four
    characters of the 64-character alphabet, and a final group of one or two
    bytes is padded with "==" or "=". Decoding is modelled for canonical input
    only: padded to a multiple of four, no characters outside the alphabet, and
    zero bits wherever padding leaves bits unused (section 3.5). */
module Base64 {
  import opened Wrappers

  newtype byte = x: int | 0 <= x < 256

  /** One base64 digit: six bits. */
  type Sextet = x: int | 0 <= x < 64

  const Pad: char := '='

  /** The character encoding the six-bit value `v` (Table 1 of RFC 4648:
      A-Z, a-z, 0-9, '+', '/'). */
  function Char(v: Sextet): char
  {
    if v < 26 then ('A' as int + v) as char
    else if v < 52 then ('a' as int + v - 26) as char
    else if v < 62 then ('0' as int + v - 52) as char
    else if v == 62 then '+'
    else '/'
  }

  predicate IsAlphabetChar(c: char) {
    'A' <= c <= 'Z' || 'a' <= c <= 'z' || '0' <= c <= '9' || c == '+' || c == '/'
  }

  /** The six-bit value an alphabet character stands for. */
  function Value(c: char): Sextet
    requires IsAlphabetChar(c)
  {
    if 'A' <= c <= 'Z' then c as int - 'A' as int
    else if 'a' <= c <= 'z' then c as int - 'a' as int + 26
    else if '0' <= c <= '9' then c as int - '0' as int + 52
    else if c == '+' then 62
    else 63
  }

  lemma CharThenValue(v: Sextet)
    ensures IsAlphabetChar(Char(v)) && Value(Char(v)) == v
  {
  }

  lemma ValueThenChar(c: char)
    requires IsAlphabetChar(c)
    ensures Char(Value(c)) == c
  {
  }

  // ---------------------------------------------------------------------------
  // Bit arithmetic of one group: bytes a b c are the sextets
  // a>>2, (a&3)<<4 | b>>4, (b&15)<<2 | c>>6, c&63.

  function S0(a: byte): Sextet { a as int / 4 }
  function S1(a: byte, b: byte): Sextet { (a as int % 4) * 16 + b as int / 16 }
  function S2(b: byte, c: byte): Sextet { (b as int % 16) * 4 + c as int / 64 }
  function S3(c: byte): Sextet { c as int % 64 }

  function B0(v0: Sextet, v1: Sextet): byte { (v0 * 4 + v1 / 16) as byte }
  function B1(v1: Sextet, v2: Sextet): byte { ((v1 % 16) * 16 + v2 / 4) as byte }
  function B2(v2: Sextet, v3: Sextet): byte { ((v2 % 4) * 64 + v3) as byte }

  lemma BytesThroughSextets(a: byte, b: byte, c: byte)
    ensures B0(S0(a), S1(a, b)) == a
    ensures B1(S1(a, b), S2(b, c)) == b
    ensures B2(S2(b, c), S3(c)) == c
  {
    assert S1(a, b) / 16 == a as int % 4;
    assert S1(a, b) % 16 == b as int / 16;
    assert S2(b, c) / 4 == b as int % 16;
    assert S2(b, c) % 4 == c as int / 64;
  }

  lemma SextetsThroughBytes(v0: Sextet, v1: Sextet, v2: Sextet, v3: Sextet)
    ensures S0(B0(v0, v1)) == v0
    ensures S1(B0(v0, v1), B1(v1, v2)) == v1
    ensures S2(B1(v1, v2), B2(v2, v3)) == v2
    ensures S3(B2(v2, v3)) == v3
  {
    assert B0(v0, v1) as int / 4 == v0;
    assert B0(v0, v1) as int % 4 == v1 / 16;
    assert B1(v1, v2) as int / 16 == v1 % 16;
    assert B1(v1, v2) as int % 16 == v2 / 4;
    assert B2(v2, v3) as int / 64 == v2 % 4;
  }

  // ---------------------------------------------------------------------------
  // Encoding

  /** The four characters of a full group of three bytes. */
  function EncodeGroup(a: byte, b: byte, c: byte): (q: string)
    ensures |q| == 4
  {
    [Char(S0(a)), Char(S1(a, b)), Char(S2(b, c)), Char(S3(c))]
  }

  /** `base64.b64encode`. */
  function Encode(bs: seq<byte>): (s: string)
    ensures forall i :: 0 <= i < |s| ==> IsAlphabetChar(s[i]) || s[i] == Pad
    decreases |bs|
  {
    if |bs| == 0 then ""
    else if |bs| == 1 then [Char(S0(bs[0])), Char(S1(bs[0], 0)), Pad, Pad]
    else if |bs| == 2 then [Char(S0(bs[0])), Char(S1(bs[0], bs[1])), Char(S2(bs[1], 0)), Pad]
    else EncodeGroup(bs[0], bs[1], bs[2]) + Encode(bs[3..])
  }

  // ---------------------------------------------------------------------------
  // Decoding

  predicate IsFullQuad(q: string)
    requires |q| == 4
  {
    IsAlphabetChar(q[0]) && IsAlphabetChar(q[1]) && IsAlphabetChar(q[2]) && IsAlphabetChar(q[3])
  }

  function DecodeFullQuad(q: string): seq<byte>
    requires |q| == 4 && IsFullQuad(q)
  {
    var v0, v1, v2, v3 := Value(q[0]), Value(q[1]), Value(q[2]), Value(q[3]);
    [B0(v0, v1), B1(v1, v2), B2(v2, v3)]
  }

  /** The final quad, which alone may carry padding. */
  function DecodeLastQuad(q: string): (r: Result<seq<byte>>)
    requires |q| == 4
    ensures r.Ok? ==> 1 <= |r.value| <= 3
  {
    if IsFullQuad(q) then Ok(DecodeFullQuad(q))
    else if IsAlphabetChar(q[0]) && IsAlphabetChar(q[1]) && IsAlphabetChar(q[2]) && q[3] == Pad then
      var v0, v1, v2 := Value(q[0]), Value(q[1]), Value(q[2]);
      if v2 % 4 == 0 then Ok([B0(v0, v1), B1(v1, v2)]) else Err("binascii.Error")
    else if IsAlphabetChar(q[0]) && IsAlphabetChar(q[1]) && q[2] == Pad && q[3] == Pad then
      var v0, v1 := Value(q[0]), Value(q[1]);
      if v1 % 16 == 0 then Ok([B0(v0, v1)]) else Err("binascii.Error")
    else Err("binascii.Error")
  }

  /** `base64.b64decode` on canonical input; anything else is reported as the
      decoding error `binascii.Error`. */
  function Decode(s: string): (r: Result<seq<byte>>)
    ensures |s| % 4 != 0 ==> r.Err?
    ensures r.Ok? ==> |r.value| * 4 <= |s| * 3 <= |r.value| * 4 + 8
    decreases |s|
  {
    if |s| == 0 then Ok([])
    else if |s| % 4 != 0 then Err("binascii.Error")
    else if |s| == 4 then DecodeLastQuad(s)
    else if !IsFullQuad(s[..4]) then Err("binascii.Error")
    else
      match Decode(s[4..])
      case Ok(rest) => Ok(DecodeFullQuad(s[..4]) + rest)
      case Err(e) => Err(e)
  }

  // ---------------------------------------------------------------------------
  // Round trips

  lemma GroupRoundTrip(a: byte, b: byte, c: byte)
    ensures IsFullQuad(EncodeGroup(a, b, c))
    ensures DecodeFullQuad(EncodeGroup(a, b, c)) == [a, b, c]
  {
    BytesThroughSextets(a, b, c);
    CharThenValue(S0(a));
    CharThenValue(S1(a, b));
    CharThenValue(S2(b, c));
    CharThenValue(S3(c));
  }

  lemma OneByteRoundTrip(a: byte)
    ensures Decode(Encode([a])) == Ok([a])
  {
    var v0, v1 := S0(a), S1(a, 0);
    CharThenValue(v0);
    CharThenValue(v1);
    var q := Encode([a]);
    assert q == [Char(v0), Char(v1), Pad, Pad];
    assert !IsAlphabetChar(Pad);
    assert Decode(q) == DecodeLastQuad(q);
    assert v1 % 16 == 0;
    assert B0(v0, v1) == a by {
      BytesThroughSextets(a, 0, 0);
    }
  }

  lemma TwoBytesRoundTrip(a: byte, b: byte)
    ensures Decode(Encode([a, b])) == Ok([a, b])
  {
    var v0, v1, v2 := S0(a), S1(a, b), S2(b, 0);
    CharThenValue(v0);
    CharThenValue(v1);
    CharThenValue(v2);
    var q := Encode([a, b]);
    assert q == [Char(v0), Char(v1), Char(v2), Pad];
    assert !IsAlphabetChar(Pad);
    assert Decode(q) == DecodeLastQuad(q);
    assert v2 % 4 == 0;
    assert B0(v0, v1) == a && B1(v1, v2) == b by {
      BytesThroughSextets(a, b, 0);
    }
  }

  /** A full quad in front of further quads decodes to its three bytes
      followed by whatever the rest decodes to. */
  lemma DecodeFullQuadFirst(q: string, rest: string, tail: seq<byte>)
    requires |q| == 4 && IsFullQuad(q)
    requires Decode(rest) == Ok(tail) && |rest| % 4 == 0
    ensures Decode(q + rest) == Ok(DecodeFullQuad(q) + tail)
  {
    if rest == "" {
      DecodeOneFullQuad(q);
      assert q + rest == q;
      assert DecodeFullQuad(q) + tail == DecodeFullQuad(q);
    } else {
      DecodeQuadThenMore(q, rest);
    }
  }

  lemma DecodeOneFullQuad(q: string)
    requires |q| == 4 && IsFullQuad(q)
    ensures Decode(q) == Ok(DecodeFullQuad(q))
  {
  }

  lemma DecodeQuadThenMore(q: string, rest: string)
    requires |q| == 4 && IsFullQuad(q)
    requires rest != "" && |rest| % 4 == 0
    ensures Decode(q + rest) == match Decode(rest) case Ok(r) => Ok(DecodeFullQuad(q) + r) case Err(e) => Err(e)
  {
    var s := q + rest;
    assert s[..4] == q;
    assert s[4..] == rest;
    assert |s| > 4 && |s| % 4 == 0;
    assert IsFullQuad(s[..4]);
  }

  /** Every encoding is made of whole quads. */
  lemma EncodedLengthIsMultipleOfFour(bs: seq<byte>)
    ensures |Encode(bs)| % 4 == 0
  {
    EncodedLength(bs);
    FourTimesIsMultipleOfFour(|Encode(bs)|, (|bs| + 2) / 3);
  }

  lemma FourTimesIsMultipleOfFour(n: int, groups: int)
    requires n == groups * 4
    ensures n % 4 == 0
  {
  }

  /** Four characters for every started group of three bytes. */
  lemma {:induction false} EncodedLength(bs: seq<byte>)
    ensures |Encode(bs)| == (|bs| + 2) / 3 * 4
    decreases |bs|
  {
    if |bs| >= 3 {
      EncodedLength(bs[3..]);
      assert |Encode(bs)| == 4 + |Encode(bs[3..])|;
      assert (|bs| + 2) / 3 == (|bs[3..]| + 2) / 3 + 1;
    }
  }

  /** Decoding undoes encoding. */
  lemma {:induction false} DecodeEncode(bs: seq<byte>)
    ensures Decode(Encode(bs)) == Ok(bs)
    decreases |bs|
  {
    if |bs| == 1 {
      assert bs == [bs[0]];
      OneByteRoundTrip(bs[0]);
    } else if |bs| == 2 {
      assert bs == [bs[0], bs[1]];
      TwoBytesRoundTrip(bs[0], bs[1]);
    } else if |bs| >= 3 {
      DecodeEncode(bs[3..]);
      DecodeEncodeStep(bs);
    }
  }

  /** One step of `DecodeEncode`: a leading group of three bytes survives the
      round trip when the rest does. */
  lemma {:induction false} DecodeEncodeStep(bs: seq<byte>)
    requires |bs| >= 3 && Decode(Encode(bs[3..])) == Ok(bs[3..])
    ensures Decode(Encode(bs)) == Ok(bs)
  {
    var q := EncodeGroup(bs[0], bs[1], bs[2]);
    var rest := Encode(bs[3..]);
    assert Encode(bs) == q + rest;
    GroupRoundTrip(bs[0], bs[1], bs[2]);
    EncodedLengthIsMultipleOfFour(bs[3..]);
    DecodeFullQuadFirst(q, rest, bs[3..]);
    assert Decode(q + rest) == Ok([bs[0], bs[1], bs[2]] + bs[3..]);
    HeadThree(bs);
  }

  lemma HeadThree(bs: seq<byte>)
    requires |bs| >= 3
    ensures [bs[0], bs[1], bs[2]] + bs[3..] == bs
  {
  }

  lemma FullQuadRoundTrip(q: string)
    requires |q| == 4 && IsFullQuad(q)
    ensures var b := DecodeFullQuad(q); EncodeGroup(b[0], b[1], b[2]) == q
  {
    SextetsThroughBytes(Value(q[0]), Value(q[1]), Value(q[2]), Value(q[3]));
    ValueThenChar(q[0]);
    ValueThenChar(q[1]);
    ValueThenChar(q[2]);
    ValueThenChar(q[3]);
  }

  lemma PaddedQuadRoundTrip(q: string)
    requires |q| == 4 && !IsFullQuad(q) && DecodeLastQuad(q).Ok?
    ensures Encode(DecodeLastQuad(q).value) == q
  {
    if q[2] != Pad {
      OnePadRoundTrip(q);
    } else {
      TwoPadsRoundTrip(q);
    }
  }

  lemma {:induction false} OnePadRoundTrip(q: string)
    requires |q| == 4 && IsAlphabetChar(q[0]) && IsAlphabetChar(q[1]) && IsAlphabetChar(q[2]) && q[3] == Pad
    requires Value(q[2]) % 4 == 0
    ensures Encode([B0(Value(q[0]), Value(q[1])), B1(Value(q[1]), Value(q[2]))]) == q
  {
    var v0, v1, v2 := Value(q[0]), Value(q[1]), Value(q[2]);
    var b0, b1 := B0(v0, v1), B1(v1, v2);
    TwoBytesSextets(v0, v1, v2);
    EncodeTwoBytes(b0, b1);
    ValueThenChar(q[0]);
    ValueThenChar(q[1]);
    ValueThenChar(q[2]);
    assert Char(S0(b0)) == q[0] && Char(S1(b0, b1)) == q[1] && Char(S2(b1, 0)) == q[2];
    QuadOf(q, Char(S0(b0)), Char(S1(b0, b1)), Char(S2(b1, 0)), Pad);
  }

  lemma QuadOf(q: string, c0: char, c1: char, c2: char, c3: char)
    requires |q| == 4 && q[0] == c0 && q[1] == c1 && q[2] == c2 && q[3] == c3
    ensures q == [c0, c1, c2, c3]
  {
  }

  lemma {:induction false} TwoPadsRoundTrip(q: string)
    requires |q| == 4 && IsAlphabetChar(q[0]) && IsAlphabetChar(q[1]) && q[2] == Pad && q[3] == Pad
    requires Value(q[1]) % 16 == 0
    ensures Encode([B0(Value(q[0]), Value(q[1]))]) == q
  {
    var v0, v1 := Value(q[0]), Value(q[1]);
    OneByteSextets(v0, v1);
    EncodeOneByte(B0(v0, v1));
    ValueThenChar(q[0]);
    ValueThenChar(q[1]);
  }

  lemma OneByteSextets(v0: Sextet, v1: Sextet)
    requires v1 % 16 == 0
    ensures S0(B0(v0, v1)) == v0 && S1(B0(v0, v1), 0) == v1
  {
    SextetsThroughBytes(v0, v1, 0, 0);
    assert B1(v1, 0) == 0;
  }

  lemma TwoBytesSextets(v0: Sextet, v1: Sextet, v2: Sextet)
    requires v2 % 4 == 0
    ensures S0(B0(v0, v1)) == v0 && S1(B0(v0, v1), B1(v1, v2)) == v1 && S2(B1(v1, v2), 0) == v2
  {
    SextetsThroughBytes(v0, v1, v2, 0);
    assert B2(v2, 0) == 0;
  }

  lemma EncodeOneByte(a: byte)
    ensures Encode([a]) == [Char(S0(a)), Char(S1(a, 0)), Pad, Pad]
  {
  }

  lemma EncodeTwoBytes(a: byte, b: byte)
    ensures Encode([a, b]) == [Char(S0(a)), Char(S1(a, b)), Char(S2(b, 0)), Pad]
  {
  }

  /** Whatever decodes successfully is the encoding of what it decodes to, so
      `Decode` accepts exactly the strings `Encode` produces. */
  lemma {:induction false} EncodeDecode(s: string)
    requires Decode(s).Ok?
    ensures Encode(Decode(s).value) == s
    decreases |s|
  {
    if |s| == 4 {
      assert Decode(s) == DecodeLastQuad(s);
      if IsFullQuad(s) {
        LoneFullQuadRoundTrip(s);
      } else {
        PaddedQuadRoundTrip(s);
      }
    } else if |s| > 4 {
      DecodeTail(s);
      EncodeDecode(s[4..]);
      EncodeDecodeStep(s);
    } else {
      ShortDecodeIsEmpty(s);
    }
  }

  lemma ShortDecodeIsEmpty(s: string)
    requires Decode(s).Ok? && |s| < 4
    ensures s == "" && Decode(s).value == []
  {
  }

  /** A successful decode of more than one quad decodes its tail too. */
  lemma DecodeTail(s: string)
    requires Decode(s).Ok? && |s| > 4
    ensures IsFullQuad(s[..4]) && Decode(s[4..]).Ok?
    ensures Decode(s).value == DecodeFullQuad(s[..4]) + Decode(s[4..]).value
  {
  }

  lemma {:induction false} LoneFullQuadRoundTrip(s: string)
    requires |s| == 4 && IsFullQuad(s)
    ensures Decode(s) == Ok(DecodeFullQuad(s))
    ensures Encode(DecodeFullQuad(s)) == s
  {
    FullQuadRoundTrip(s);
    var b := DecodeFullQuad(s);
    assert Encode(b) == EncodeGroup(b[0], b[1], b[2]) + Encode(b[3..]);
    assert b[3..] == [];
  }

  /** One step of `EncodeDecode`: a leading full quad survives the round trip
      when the rest does. */
  lemma {:induction false} EncodeDecodeStep(s: string)
    requires |s| > 4 && Decode(s).Ok?
    requires Decode(s[4..]).Ok? && Encode(Decode(s[4..]).value) == s[4..]
    ensures Encode(Decode(s).value) == s
  {
    var q := s[..4];
    FullQuadRoundTrip(q);
    var b := DecodeFullQuad(q);
    var rest := Decode(s[4..]).value;
    var bs := b + rest;
    assert Decode(s).value == bs;
    assert bs[..3] == b && bs[3..] == rest;
    assert Encode(bs) == q + Encode(rest);
    assert s == q + s[4..];
  }
}

=== FILE: blog_forms.dfy ===
/** `PostForm` (blog/forms.py). `is_valid()` first runs each field's own
    cleaning, which the framework derives from the `Post` model's text fields
    (strip surrounding whitespace, reject an empty value as required, then run
    every validator: `max_length` and the null-character check), and only on
    success the form's `clean_<field>` method. A failing field reports all the
    messages of the step that failed. */
module BlogForms {
  import Text
  import opened Wrappers

  const MinTitleLength: nat := 5
  const MinContentLength: nat := 20

  /** The title's `max_length`, as its widget's `maxlength` attribute states it. */
  const MaxTitleLength: nat := 200

  const RequiredMessage: string := "This field is required."
  const NullMessage: string := "Null characters are not allowed."
  const NulChar: char := '\0'

  function MaxLengthMessage(limit: nat, actual: nat): string {
    "Ensure this value has at most " + Text.NatToString(limit)
    + " characters (it has " + Text.NatToString(actual) + ")."
  }

  /** A field's outcome: its cleaned value, or the messages it reports. */
  datatype FieldResult = Accepted(value: string) | Rejected(messages: seq<string>)

  function Messages(r: FieldResult): seq<string> {
    if r.Rejected? then r.messages else []
  }

  /** `run_validators`: the message of every validator the value fails, in
      the order the field holds them (`max_length` first, then the
      null-character check every form `CharField` carries). */
  function ValidatorMessages(v: string, maxLength: Option<nat>): (ms: seq<string>)
    ensures ms == [] <==> (maxLength.Some? ==> |v| <= maxLength.value) && NulChar !in v
    ensures |ms| <= 2
  {
    (if maxLength.Some? && |v| > maxLength.value then [MaxLengthMessage(maxLength.value, |v|)] else [])
    + (if NulChar in v then [NullMessage] else [])
  }

  /** The framework's `CharField.clean` for a required model text field: the
      stripped value, which must be non-empty and pass every validator. */
  function CleanCharField(raw: string, maxLength: Option<nat>): (r: FieldResult)
    ensures r.Accepted? <==>
      !Text.AllSpace(raw) && NulChar !in Text.Strip(raw) && (maxLength.Some? ==> |Text.Strip(raw)| <= maxLength.value)
    ensures r.Accepted? ==> r.value == Text.Strip(raw)
    ensures r.Rejected? ==> 1 <= |r.messages| <= 2
    ensures Text.AllSpace(raw) ==> r == Rejected([RequiredMessage])
  {
    var v := Text.Strip(raw);
    if v == "" then Rejected([RequiredMessage])
    else
      var ms := ValidatorMessages(v, maxLength);
      if ms == [] then Accepted(v) else Rejected(ms)
  }

  /** `PostForm.clean_title`, on the field-cleaned title. */
  function CleanTitle(title: string): (r: Result<string>)
    ensures r.Ok? <==> |title| >= 5
    ensures r.Ok? ==> r.value == title
    ensures r.Err? ==> r.error == "Title must be at least 5 characters long."
  {
    if |title| < MinTitleLength then Err("Title must be at least 5 characters long.") else Ok(title)
  }

  /** `PostForm.clean_content`, on the field-cleaned content. */
  function CleanContent(content: string): (r: Result<string>)
    ensures r.Ok? <==> |content| >= 20
    ensures r.Ok? ==> r.value == content
    ensures r.Err? ==> r.error == "Content must be at least 20 characters long."
  {
    if |content| < MinContentLength then Err("Content must be at least 20 characters long.") else Ok(content)
  }

  /** The title as `is_valid()` leaves it in `cleaned_data`, or its messages. */
  function TitleField(raw: string): (r: FieldResult)
    ensures r.Accepted? <==> MinTitleLength <= |Text.Strip(raw)| <= MaxTitleLength && NulChar !in Text.Strip(raw)
    ensures r.Accepted? ==> r.value == Text.Strip(raw)
    ensures r.Rejected? ==> 1 <= |r.messages| <= 2
  {
    match CleanCharField(raw, Some(MaxTitleLength))
    case Rejected(ms) => Rejected(ms)
    case Accepted(v) =>
      match CleanTitle(v)
      case Err(e) => Rejected([e])
      case Ok(title) => Accepted(title)
  }

  /** The content as `is_valid()` leaves it (a text field has no `max_length`). */
  function ContentField(raw: string): (r: FieldResult)
    ensures r.Accepted? <==> |Text.Strip(raw)| >= MinContentLength && NulChar !in Text.Strip(raw)
    ensures r.Accepted? ==> r.value == Text.Strip(raw)
    ensures r.Rejected? ==> |r.messages| == 1
  {
    match CleanCharField(raw, None)
    case Rejected(ms) => Rejected(ms)
    case Accepted(v) =>
      match CleanContent(v)
      case Err(e) => Rejected([e])
      case Ok(content) => Accepted(content)
  }

  /** The messages the form reports, in field order; the form is valid when there are none. */
  function PostFormErrors(title: string, content: string): (errors: seq<string>)
    ensures errors == [] <==>
      && MinTitleLength <= |Text.Strip(title)| <= MaxTitleLength && NulChar !in Text.Strip(title)
      && |Text.Strip(content)| >= MinContentLength && NulChar !in Text.Strip(content)
    ensures |errors| <= 3
    ensures Text.AllSpace(title) ==> errors[0] == RequiredMessage
    ensures !Text.AllSpace(title) && |Text.Strip(title)| < MinTitleLength && NulChar !in Text.Strip(title) ==>
      errors[0] == "Title must be at least 5 characters long."
    ensures NulChar in Text.Strip(title) ==> NullMessage in errors
  {
    Messages(TitleField(title)) + Messages(ContentField(content))
  }

  /** Every validator reports: an over-long title holding a null character
      gets both messages, the length first. */
  lemma OverlongNullTitleReportsBoth(title: string)
    requires |Text.Strip(title)| > MaxTitleLength && NulChar in Text.Strip(title)
    ensures TitleField(title) == Rejected([MaxLengthMessage(MaxTitleLength, |Text.Strip(title)|), NullMessage])
  {
  }

  /** Each field sees only the stripped value. */
  lemma SameStripSameFields(a: string, b: string)
    requires Text.Strip(a) == Text.Strip(b)
    ensures TitleField(a) == TitleField(b) && ContentField(a) == ContentField(b)
  {
  }

  /** The form judges only the stripped values: submitting the values it
      cleaned gives the same verdict and the same cleaned values again. */
  lemma CleaningSeesStrippedValues(title: string, content: string)
    ensures TitleField(Text.Strip(title)) == TitleField(title)
    ensures ContentField(Text.Strip(content)) == ContentField(content)
    ensures PostFormErrors(Text.Strip(title), Text.Strip(content)) == PostFormErrors(title, content)
  {
    Text.StripIdempotent(title);
    Text.StripIdempotent(content);
    SameStripSameFields(Text.Strip(title), title);
    SameStripSameFields(Text.Strip(content), content);
  }

  /** Whitespace around a title never counts towards its length: a padded
      title is judged, and stored, as the title without the padding. */
  lemma PaddingDoesNotCount(pre: string, title: string, post: string)
    requires Text.AllSpace(pre) && Text.AllSpace(post)
    requires title != "" ==> !Text.IsSpace(title[0]) && !Text.IsSpace(title[|title| - 1])
    ensures TitleField(pre + title + post) == TitleField(title)
  {
    Text.StripRemovesPadding(pre, title, post);
    Text.StripRemovesPadding("", title, "");
    assert "" + title + "" == title;
    SameStripSameFields(pre + title + post, title);
  }

  /** The boundaries are inclusive: 4 and 19 characters fail, 5 and 20 pass. */
  lemma CleaningBoundaries(title: string, content: string)
    ensures |title| == 4 ==> CleanTitle(title).Err?
    ensures |title| == 5 ==> CleanTitle(title) == Ok(title)
    ensures |content| == 19 ==> CleanContent(content).Err?
    ensures |content| == 20 ==> CleanContent(content) == Ok(content)
  {
  }
}

=== FILE: blog_views.dfy ===
/** The blog's views (blog/views.py): the `home` listing with search, sort and
    pages of six, `post_create`, the author-or-superuser rule of `post_edit`
    and `post_delete`, and the per-user `dashboard` counts. Posts live in one
    sequence in storage order. */
module BlogViews {
  import opened Wrappers
  import opened Http
  import opened Text
  import Seqs
  import BlogForms

  /** The requesting account as the blog sees it. */
  datatype User = User(id: nat, username: string, isSuperuser: bool)

  /** A blog `Post`. The author is named by account id and username; `createdAt` is
      the creation instant in seconds since the epoch (UTC). */
  datatype BlogPost = BlogPost(pk: nat, title: string, content: string, authorId: nat, authorName: string, createdAt: int)

  // ---------------------------------------------------------------------------
  // Search

  /** The `Q(title__icontains=q) | Q(content__icontains=q) | Q(author__username__icontains=q)` test. */
  predicate MatchesSearch(p: BlogPost, q: string) {
    IContains(p.title, q) || IContains(p.content, q) || IContains(p.authorName, q)
  }

  /** The search step of `home`: no filtering for an empty query. */
  function Search(posts: seq<BlogPost>, q: string): (r: seq<BlogPost>)
    ensures q == "" ==> r == posts
    ensures |r| <= |posts|
  {
    if q == "" then posts else Seqs.Filter(posts, p => MatchesSearch(p, q))
  }

  /** A non-empty query keeps exactly the posts that match it, and nothing else. */
  lemma SearchKeepsExactlyMatches(posts: seq<BlogPost>, q: string)
    requires q != ""
    ensures forall i :: 0 <= i < |posts| && MatchesSearch(posts[i], q) ==> posts[i] in Search(posts, q)
    ensures forall p :: p in Search(posts, q) ==> p in posts && MatchesSearch(p, q)
  {
    Seqs.FilterMembers(posts, p => MatchesSearch(p, q));
    forall p | p in Search(posts, q)
      ensures p in posts && MatchesSearch(p, q)
    {
      var r := Search(posts, q);
      var i :| 0 <= i < |r| && r[i] == p;
    }
  }

  // ---------------------------------------------------------------------------
  // Sorting

  /** `order_by('created_at')`, `order_by('title')` and `order_by('-created_at')`. */
  datatype Order = Oldest | ByTitle | Newest

  /** `request.GET.get('sort', 'newest')` mapped to an ordering: only "oldest"
      and "title" are recognised, anything else sorts newest first. */
  function OrderFor(sort: Option<string>): (o: Order)
    ensures sort == Some("oldest") <==> o == Oldest
    ensures sort == Some("title") <==> o == ByTitle
  {
    match sort
    case Some(s) => if s == "oldest" then Oldest else if s == "title" then ByTitle else Newest
    case None => Newest
  }

  /** `a` may come before `b` in order `o`. */
  predicate Before(o: Order, a: BlogPost, b: BlogPost) {
    match o
    case Oldest => a.createdAt <= b.createdAt
    case Newest => a.createdAt >= b.createdAt
    case ByTitle => LexLe(a.title, b.title)
  }

  lemma BeforeTotal(o: Order, a: BlogPost, b: BlogPost)
    ensures Before(o, a, b) || Before(o, b, a)
  {
    if o == ByTitle {
      LexLeTotal(a.title, b.title);
    }
  }

  lemma BeforeTransitive(o: Order, a: BlogPost, b: BlogPost, c: BlogPost)
    requires Before(o, a, b) && Before(o, b, c)
    ensures Before(o, a, c)
  {
    if o == ByTitle {
      LexLeTransitive(a.title, b.title, c.title);
    }
  }

  predicate Sorted(s: seq<BlogPost>, o: Order) {
    forall i, j :: 0 <= i < j < |s| ==> Before(o, s[i], s[j])
  }

  /** `x` placed into the sorted `s` before the first element it may precede. */
  function Insert(x: BlogPost, s: seq<BlogPost>, o: Order): (r: seq<BlogPost>)
    requires Sorted(s, o)
    ensures Sorted(r, o)
    ensures multiset(r) == multiset(s) + multiset{x}
    ensures forall i :: 0 <= i < |r| ==> r[i] == x || r[i] in s
    decreases |s|
  {
    if s == [] then [x]
    else if Before(o, x, s[0]) then
      BeforeAllOfSorted(o, x, s);
      PrependSorted(x, s, o);
      [x] + s
    else
      var rest := Insert(x, s[1..], o);
      BeforeTotal(o, x, s[0]);
      assert s == [s[0]] + s[1..];
      HeadBeforeInserted(o, s, x, rest);
      PrependSorted(s[0], rest, o);
      [s[0]] + rest
  }

  /** Preceding the head of a sorted sequence means preceding all of it. */
  lemma BeforeAllOfSorted(o: Order, x: BlogPost, s: seq<BlogPost>)
    requires Sorted(s, o) && s != [] && Before(o, x, s[0])
    ensures forall j :: 0 <= j < |s| ==> Before(o, x, s[j])
  {
    forall j | 0 < j < |s| ensures Before(o, x, s[j]) {
      BeforeTransitive(o, x, s[0], s[j]);
    }
  }

  /** The head of a sorted `s` precedes `x` and every other element of `s`,
      so it precedes every element of `rest`. */
  lemma HeadBeforeInserted(o: Order, s: seq<BlogPost>, x: BlogPost, rest: seq<BlogPost>)
    requires Sorted(s, o) && s != [] && Before(o, s[0], x)
    requires forall i :: 0 <= i < |rest| ==> rest[i] == x || rest[i] in s[1..]
    ensures forall j :: 0 <= j < |rest| ==> Before(o, s[0], rest[j])
  {
    forall j | 0 <= j < |rest| ensures Before(o, s[0], rest[j]) {
      if rest[j] != x {
        var k :| 0 <= k < |s[1..]| && s[1..][k] == rest[j];
        assert s[k + 1] == rest[j];
      }
    }
  }

  /** An element preceding all of a sorted sequence may head it. */
  lemma PrependSorted(x: BlogPost, s: seq<BlogPost>, o: Order)
    requires Sorted(s, o) && forall j :: 0 <= j < |s| ==> Before(o, x, s[j])
    ensures Sorted([x] + s, o)
  {
    var r := [x] + s;
    forall i, j | 0 <= i < j < |r| ensures Before(o, r[i], r[j]) {
      assert r[j] == s[j - 1];
      if i > 0 {
        assert r[i] == s[i - 1];
      }
    }
  }

  /** The posts of `s` rearranged into order `o` (insertion sort). */
  function SortPosts(s: seq<BlogPost>, o: Order): (r: seq<BlogPost>)
    ensures Sorted(r, o)
    ensures multiset(r) == multiset(s)
    decreases |s|
  {
    if s == [] then []
    else
      assert s == [s[0]] + s[1..];
      Insert(s[0], SortPosts(s[1..], o), o)
  }

  // ---------------------------------------------------------------------------
  // home

  const PageSize: nat := 6

  datatype HomeContext = HomeContext(pages: seq<seq<BlogPost>>, searchQuery: string, sortBy: string)

  /** `home`: search, then sort, then cut into pages of six (`Paginator(posts, 6)`).
      Every page is returned; choosing one (`get_page`) is the framework's. An
      empty listing still has its first page, empty, as the paginator allows
      by default. */
  function Home(posts: seq<BlogPost>, search: Option<string>, sort: Option<string>): (r: HomeContext)
    ensures r.searchQuery == search.GetOr("") && r.sortBy == sort.GetOr("newest")
    ensures |r.pages| >= 1
    ensures r.pages == [[]] <==> Search(posts, search.GetOr("")) == []
    ensures r.pages != [[]] ==> forall i :: 0 <= i < |r.pages| ==> 0 < |r.pages[i]| <= PageSize
    ensures forall i :: 0 <= i < |r.pages| - 1 ==> |r.pages[i]| == PageSize
    ensures Sorted(Seqs.Concat(r.pages), OrderFor(sort))
    ensures multiset(Seqs.Concat(r.pages)) == multiset(Search(posts, search.GetOr("")))
  {
    var q := search.GetOr("");
    var ordered := SortPosts(Search(posts, q), OrderFor(sort));
    if ordered == [] then
      assert Seqs.Concat([[]]) == Seqs.Concat<BlogPost>([]) + [];
      HomeContext([[]], q, sort.GetOr("newest"))
    else HomeContext(Seqs.Chunks(ordered, PageSize), q, sort.GetOr("newest"))
  }

  /** With no search, the listing holds every post exactly once. */
  lemma HomeWithoutSearchListsEverything(posts: seq<BlogPost>, sort: Option<string>)
    ensures multiset(Seqs.Concat(Home(posts, None, sort).pages)) == multiset(posts)
    ensures |Seqs.Concat(Home(posts, None, sort).pages)| == |posts|
  {
    var all := Seqs.Concat(Home(posts, None, sort).pages);
    assert |multiset(all)| == |multiset(posts)|;
  }

  // ---------------------------------------------------------------------------
  // post_create, post_edit, post_delete

  datatype Outcome = Outcome(posts: seq<BlogPost>, reply: Reply)

  /** `form.is_valid()` for the posted title and content. */
  predicate FormValid(title: string, content: string) {
    BlogForms.PostFormErrors(title, content) == []
  }

  /** `post_create`, with `title` and `content` as posted: a valid POST stores
      a post with the form's cleaned (stripped) values, whose author is the
      requester, dated `now`, under a fresh key, and redirects to it. */
  function PostCreate(posts: seq<BlogPost>, user: User, verb: Method, title: string, content: string, now: int)
    : (r: Outcome)
    ensures verb == Post && FormValid(title, content) ==>
      |r.posts| == |posts| + 1 && r.posts[..|posts|] == posts
      && var p := r.posts[|posts|];
         p.authorId == user.id && p.authorName == user.username
         && p.title == Text.Strip(title) && p.content == Text.Strip(content) && p.createdAt == now
         && BlogForms.MinTitleLength <= |p.title| <= BlogForms.MaxTitleLength
         && (forall i :: 0 <= i < |posts| ==> posts[i].pk < p.pk)
         && r.reply == Reply(RedirectPk("post_detail", p.pk), [Message(Success, "Post created successfully!")])
    ensures !(verb == Post && FormValid(title, content)) ==>
      r == Outcome(posts, Reply(Render("blog/post_form.html"), []))
  {
    if verb == Post && FormValid(title, content) then
      var p := BlogPost(Seqs.NextKey(posts, (p: BlogPost) => p.pk), Text.Strip(title), Text.Strip(content),
                        user.id, user.username, now);
      assert (posts + [p])[..|posts|] == posts;
      Outcome(posts + [p], Reply(RedirectPk("post_detail", p.pk), [Message(Success, "Post created successfully!")]))
    else Outcome(posts, Reply(Render("blog/post_form.html"), []))
  }

  /** `get_object_or_404(Post, pk=pk)`: the position of the post, or -1. */
  function FindPost(posts: seq<BlogPost>, pk: nat): (i: int)
    ensures -1 <= i < |posts|
    ensures i >= 0 ==> posts[i].pk == pk
    ensures i < 0 <==> forall j :: 0 <= j < |posts| ==> posts[j].pk != pk
  {
    Seqs.FirstIndex(posts, (p: BlogPost) => p.pk == pk)
  }

  /** `post.author != request.user and not request.user.is_superuser`. */
  predicate MayChange(user: User, p: BlogPost) {
    p.authorId == user.id || user.isSuperuser
  }

  /** `post_edit`, with `title` and `content` as posted; a valid edit stores
      the form's cleaned (stripped) values. */
  function PostEdit(posts: seq<BlogPost>, user: User, pk: nat, verb: Method, title: string, content: string)
    : (r: Outcome)
    ensures FindPost(posts, pk) < 0 ==> r == Outcome(posts, Reply(NotFound, []))
    ensures FindPost(posts, pk) >= 0 && !MayChange(user, posts[FindPost(posts, pk)]) ==>
      r == Outcome(posts, Reply(RedirectPk("post_detail", pk), [Message(Error, "You can only edit your own posts.")]))
    ensures (FindPost(posts, pk) >= 0 && MayChange(user, posts[FindPost(posts, pk)])
             && verb == Post && FormValid(title, content)) ==>
      var i := FindPost(posts, pk);
      r.posts == posts[i := posts[i].(title := Text.Strip(title), content := Text.Strip(content))]
      && r.reply == Reply(RedirectPk("post_detail", pk), [Message(Success, "Post updated successfully!")])
    ensures (FindPost(posts, pk) >= 0 && MayChange(user, posts[FindPost(posts, pk)])
             && !(verb == Post && FormValid(title, content))) ==>
      r == Outcome(posts, Reply(Render("blog/post_form.html"), []))
  {
    var i := FindPost(posts, pk);
    if i < 0 then Outcome(posts, Reply(NotFound, []))
    else if !MayChange(user, posts[i]) then
      Outcome(posts, Reply(RedirectPk("post_detail", pk), [Message(Error, "You can only edit your own posts.")]))
    else if verb == Post && FormValid(title, content) then
      Outcome(posts[i := posts[i].(title := Text.Strip(title), content := Text.Strip(content))],
              Reply(RedirectPk("post_detail", posts[i].pk), [Message(Success, "Post updated successfully!")]))
    else Outcome(posts, Reply(Render("blog/post_form.html"), []))
  }

  /** `post_delete`. */
  function PostDelete(posts: seq<BlogPost>, user: User, pk: nat, verb: Method): (r: Outcome)
    ensures FindPost(posts, pk) < 0 ==> r == Outcome(posts, Reply(NotFound, []))
    ensures FindPost(posts, pk) >= 0 && !MayChange(user, posts[FindPost(posts, pk)]) ==>
      r == Outcome(posts, Reply(RedirectPk("post_detail", pk), [Message(Error, "You can only delete your own posts.")]))
    ensures FindPost(posts, pk) >= 0 && MayChange(user, posts[FindPost(posts, pk)]) && verb == Post ==>
      var i := FindPost(posts, pk);
      r.posts == posts[..i] + posts[i + 1..]
      && r.reply == Reply(Redirect("dashboard"), [Message(Success, "Post deleted successfully!")])
    ensures FindPost(posts, pk) >= 0 && MayChange(user, posts[FindPost(posts, pk)]) && verb != Post ==>
      r == Outcome(posts, Reply(Render("blog/post_confirm_delete.html"), []))
  {
    var i := FindPost(posts, pk);
    if i < 0 then Outcome(posts, Reply(NotFound, []))
    else if !MayChange(user, posts[i]) then
      Outcome(posts, Reply(RedirectPk("post_detail", pk), [Message(Error, "You can only delete your own posts.")]))
    else if verb == Post then
      Outcome(posts[..i] + posts[i + 1..], Reply(Redirect("dashboard"), [Message(Success, "Post deleted successfully!")]))
    else Outcome(posts, Reply(Render("blog/post_confirm_delete.html"), []))
  }

  /** Only the author or a superuser can change a post: whenever an edit or a
      delete changes the stored posts, the requester had that right. */
  lemma OnlyAuthorOrSuperuserChanges(posts: seq<BlogPost>, user: User, pk: nat, verb: Method, title: string, content: string)
    ensures PostEdit(posts, user, pk, verb, title, content).posts != posts ==>
      exists i :: 0 <= i < |posts| && posts[i].pk == pk && MayChange(user, posts[i])
    ensures PostDelete(posts, user, pk, verb).posts != posts ==>
      exists i :: 0 <= i < |posts| && posts[i].pk == pk && MayChange(user, posts[i])
  {
    var i := FindPost(posts, pk);
    if i >= 0 && MayChange(user, posts[i]) {
      assert posts[i].pk == pk;
    }
  }

  /** A delete that goes through removes exactly one post, the requested one. */
  lemma DeleteRemovesOne(posts: seq<BlogPost>, user: User, pk: nat)
    requires FindPost(posts, pk) >= 0 && MayChange(user, posts[FindPost(posts, pk)])
    ensures var after := PostDelete(posts, user, pk, Post).posts;
      |after| == |posts| - 1
      && multiset(after) + multiset{posts[FindPost(posts, pk)]} == multiset(posts)
  {
    var i := FindPost(posts, pk);
    assert posts == posts[..i] + [posts[i]] + posts[i + 1..];
  }

  // ---------------------------------------------------------------------------
  // dashboard

  const SecondsPerDay: int := 86400

  /** `created_at__date`: the calendar day (days since the epoch, UTC). */
  function Day(p: BlogPost): int {
    p.createdAt / SecondsPerDay
  }

  datatype DashboardContext = DashboardContext(posts: seq<BlogPost>, totalPosts: nat, postsThisWeek: nat, recentPosts: seq<BlogPost>)

  /** The order a `Post` queryset comes in: the model's `Meta.ordering` when
      it declares one (`Some`), storage order otherwise (`None`). */
  function Listing(s: seq<BlogPost>, ordering: Option<Order>): (r: seq<BlogPost>)
    ensures multiset(r) == multiset(s) && |r| == |s|
    ensures ordering.Some? ==> Sorted(r, ordering.value)
    ensures ordering.None? ==> r == s
  {
    match ordering
    case None => s
    case Some(o) =>
      var r := SortPosts(s, o);
      assert |r| == |multiset(r)| == |multiset(s)| == |s|;
      r
  }

  /** Reordering keeps every post by the same author. */
  lemma SameMultisetSameAuthor(s: seq<BlogPost>, r: seq<BlogPost>, author: nat)
    requires multiset(r) == multiset(s)
    requires forall i :: 0 <= i < |s| ==> s[i].authorId == author
    ensures forall i :: 0 <= i < |r| ==> r[i].authorId == author
  {
    forall i | 0 <= i < |r| ensures r[i].authorId == author {
      assert r[i] in multiset(s);
    }
  }

  /** `dashboard`, with `today` (a day number) supplied by the caller and
      `ordering` the `Post` model's default ordering: the user's posts in that
      order, their number, how many are dated on or after `today - 7`, and
      the first five of the listing. */
  function Dashboard(posts: seq<BlogPost>, user: User, today: int, ordering: Option<Order>): (r: DashboardContext)
    ensures r.totalPosts == |r.posts|
    ensures multiset(r.posts) == multiset(Seqs.Filter(posts, (p: BlogPost) => p.authorId == user.id))
    ensures forall i :: 0 <= i < |r.posts| ==> r.posts[i].authorId == user.id
    ensures ordering.Some? ==> Sorted(r.posts, ordering.value)
    ensures r.postsThisWeek <= r.totalPosts
    ensures |r.recentPosts| == if r.totalPosts < 5 then r.totalPosts else 5
    ensures r.recentPosts == r.posts[..|r.recentPosts|]
  {
    var mine := Seqs.Filter(posts, (p: BlogPost) => p.authorId == user.id);
    Seqs.FilterMembers(posts, (p: BlogPost) => p.authorId == user.id);
    var listed := Listing(mine, ordering);
    SameMultisetSameAuthor(mine, listed, user.id);
    var weekAgo := today - 7;
    var thisWeek := Seqs.Filter(mine, (p: BlogPost) => Day(p) >= weekAgo);
    DashboardContext(listed, |listed|, |thisWeek|, listed[..if |listed| < 5 then |listed| else 5])
  }

  /** Under newest-first ordering the recent posts are the newest ones: none
      of the user's other posts is newer than any of them. */
  lemma DashboardRecentAreNewest(posts: seq<BlogPost>, user: User, today: int)
    ensures var r := Dashboard(posts, user, today, Some(Newest));
      forall i, j :: 0 <= i < |r.recentPosts| <= j < |r.posts| ==>
        r.recentPosts[i].createdAt >= r.posts[j].createdAt
  {
    var r := Dashboard(posts, user, today, Some(Newest));
    forall i, j | 0 <= i < |r.recentPosts| <= j < |r.posts|
      ensures r.recentPosts[i].createdAt >= r.posts[j].createdAt
    {
      assert r.recentPosts[i] == r.posts[i];
      assert Before(Newest, r.posts[i], r.posts[j]);
    }
  }

  /** The user's posts are exactly those of the store they wrote. */
  lemma DashboardCountsOwnPosts(posts: seq<BlogPost>, user: User, today: int, ordering: Option<Order>)
    ensures Dashboard(posts, user, today, ordering).totalPosts
      == |Seqs.Filter(posts, (p: BlogPost) => p.authorId == user.id)|
    ensures forall i :: 0 <= i < |posts| && posts[i].authorId == user.id ==>
      posts[i] in Dashboard(posts, user, today, ordering).posts
  {
    var mine := Seqs.Filter(posts, (p: BlogPost) => p.authorId == user.id);
    Seqs.FilterMembers(posts, (p: BlogPost) => p.authorId == user.id);
    var listed := Dashboard(posts, user, today, ordering).posts;
    assert |listed| == |mine| by {
      assert listed == Listing(mine, ordering);
    }
    forall i | 0 <= i < |posts| && posts[i].authorId == user.id
      ensures posts[i] in listed
    {
      assert posts[i] in multiset(mine);
    }
  }

  /** This week's count is the number of stored posts that the user wrote and
      that are dated no earlier than seven days before `today`. */
  lemma DashboardCountsThisWeek(posts: seq<BlogPost>, user: User, today: int, ordering: Option<Order>)
    ensures Dashboard(posts, user, today, ordering).postsThisWeek
      == |Seqs.Filter(posts, (p: BlogPost) => p.authorId == user.id && Day(p) >= today - 7)|
  {
    Seqs.FilterTwice(posts, (p: BlogPost) => p.authorId == user.id, (p: BlogPost) => Day(p) >= today - 7,
                     (p: BlogPost) => p.authorId == user.id && Day(p) >= today - 7);
  }

  /** A post the user creates now counts towards this week's total. */
  lemma NewPostCountsThisWeek(posts: seq<BlogPost>, user: User, title: string, content: string, now: int, ordering: Option<Order>)
    requires FormValid(title, content)
    ensures var after := PostCreate(posts, user, Post, title, content, now).posts;
      Dashboard(after, user, now / SecondsPerDay, ordering).postsThisWeek
        == Dashboard(posts, user, now / SecondsPerDay, ordering).postsThisWeek + 1
      && Dashboard(after, user, now / SecondsPerDay, ordering).totalPosts
        == Dashboard(posts, user, now / SecondsPerDay, ordering).totalPosts + 1
  {
    var after := PostCreate(posts, user, Post, title, content, now).posts;
    var p := after[|posts|];
    assert after == posts + [p];
    var mine := (q: BlogPost) => q.authorId == user.id;
    var week := (q: BlogPost) => Day(q) >= now / SecondsPerDay - 7;
    Seqs.FilterAppend(posts, [p], mine);
    Seqs.FilterSingleton(p, mine);
    var m := Seqs.Filter(posts, mine);
    Seqs.FilterAppend(m, [p], week);
    Seqs.FilterSingleton(p, week);
  }
}

=== FILE: decorators.dfy ===
/** The two view decorators of users/decorators.py as pure decisions: a `Gate`
    either lets the request through to the wrapped view or answers it itself. */
module Decorators {
  import opened Wrappers
  import opened Http
  import opened Text
  import opened Profiles

  datatype Gate = Proceed | Deny(reply: Reply)

  /** The wrapped view: the view's own reply when the gate proceeds, the
      gate's reply otherwise (the view is never called). */
  function Guarded(g: Gate, view: Reply): (r: Reply)
    ensures g.Proceed? ==> r == view
    ensures g.Deny? ==> r == g.reply
  {
    match g
    case Proceed => view
    case Deny(reply) => reply
  }

  /** `anonymous_required`. */
  function AnonymousRequired(session: Session): (g: Gate)
    ensures g.Deny? <==> session.IsAuthenticated()
    ensures g.Deny? ==>
      g.reply == Reply(Redirect("dashboard"), [Message(Info, "You are already logged in.")])
  {
    if session.IsAuthenticated() then
      Deny(Reply(Redirect("dashboard"), [Message(Info, "You are already logged in.")]))
    else Proceed
  }

  /** An anonymous request gets the wrapped view's reply unchanged; a signed-in
      one gets the same redirect whatever the view would have answered. */
  lemma AnonymousRequiredDecides(session: Session, view1: Reply, view2: Reply)
    ensures !session.IsAuthenticated() ==> Guarded(AnonymousRequired(session), view1) == view1
    ensures session.IsAuthenticated() ==>
      Guarded(AnonymousRequired(session), view1) == Guarded(AnonymousRequired(session), view2)
      && Guarded(AnonymousRequired(session), view1).response == Redirect("dashboard")
  {
  }

  const DefaultMinPercentage: int := 50

  /** `profile_completion_required(min_percentage)`; `profile` is `None` when
      the user has no profile attribute. */
  function ProfileCompletionRequired(minPercentage: int, profile: Option<Profile>): (g: Gate)
    ensures g.Deny? <==> profile.Some? && CompletionPercentage(profile.value) < minPercentage
    ensures g.Deny? ==> minPercentage > 0 && g.reply == Reply(Redirect("profile_edit"),
      [Message(Warning, "Please complete your profile to at least " + NatToString(minPercentage as nat) + "%")])
  {
    if profile.Some? && CompletionPercentage(profile.value) < minPercentage then
      Deny(Reply(Redirect("profile_edit"),
        [Message(Warning, "Please complete your profile to at least " + NatToString(minPercentage as nat) + "%")]))
    else Proceed
  }

  /** The number of the five completion fields that are filled. */
  function FilledCount(p: Profile): (n: nat)
    ensures n <= 5
  {
    Indicator(p.fullName) + Indicator(p.bio) + Indicator(p.phone) + Indicator(p.location) + Indicator(p.picture)
  }

  /** With the default minimum of 50, a profile passes exactly when at least
      three of the five fields are filled: 40% is redirected, 60% passes. */
  lemma DefaultGateNeedsThreeFields(p: Profile)
    ensures ProfileCompletionRequired(DefaultMinPercentage, Some(p)).Proceed? <==> FilledCount(p) >= 3
  {
  }

  /** A user without a profile always reaches the view, and a minimum of 0 or
      less never redirects. */
  lemma GateProceedsWithoutProfileOrMinimum(minPercentage: int, profile: Option<Profile>)
    ensures ProfileCompletionRequired(minPercentage, None).Proceed?
    ensures minPercentage <= 0 ==> ProfileCompletionRequired(minPercentage, profile).Proceed?
  {
  }

  /** Raising the minimum only turns passes into redirects, never the reverse;
      filling fields only turns redirects into passes. */
  lemma GateMonotone(low: int, high: int, p: Profile, q: Profile)
    requires low <= high && FilledIn(p, q)
    ensures ProfileCompletionRequired(high, Some(p)).Proceed? ==> ProfileCompletionRequired(low, Some(q)).Proceed?
  {
    CompletionMonotone(p, q);
  }
}

=== FILE: http.dfy ===
/** What the views see of a request and what they hand back: the HTTP method,
    the session, flashed messages and the response. Rendered pages are
    identified by their template; the context values a view computes are
    returned in each view's own result record. */
module Http {

  datatype Method = Get | Post | OtherMethod(name: string)

  /** The requesting user: anonymous, or signed in as the account with `userId`. */
  datatype Session = Anonymous | SignedIn(userId: nat) {
    predicate IsAuthenticated() { SignedIn? }
  }

  datatype Level = Success | Info | Warning | Error

  /** A message queued with `messages.success(...)` and friends. */
  datatype Message = Message(level: Level, text: string)

  datatype Response =
    | Redirect(target: string)             // redirect('name') or redirect(url)
    | RedirectPk(target: string, pk: nat)  // redirect('name', pk=pk)
    | Render(template: string)             // render(request, template, context)
    | NotFound                             // get_object_or_404 found nothing

  /** A response together with the messages flashed while producing it. */
  datatype Reply = Reply(response: Response, flash: seq<Message>)
}

=== FILE: notes.dfy ===
/** The notes tracker's views (notes/views.py): `home` with its search and
    total, `add_note` with its strip-then-required validation, and the
    POST-only `delete_note`. The notes are held newest first, the order
    `Note.Meta.ordering` gives every query. */
module Notes {
  import opened Wrappers
  import opened Http
  import opened Text
  import Seqs

  datatype Note = Note(id: nat, title: string, content: string)

  // ---------------------------------------------------------------------------
  // home

  /** `Q(title__icontains=q) | Q(content__icontains=q)`. */
  predicate MatchesSearch(n: Note, q: string) {
    IContains(n.title, q) || IContains(n.content, q)
  }

  datatype HomeContext = HomeContext(notes: seq<Note>, totalNotes: nat, searchQuery: string)

  /** `home`: the notes matching the `search` parameter (all of them when it is
      absent or empty), and the number of stored notes. */
  function Home(notes: seq<Note>, search: Option<string>): (r: HomeContext)
    ensures r.totalNotes == |notes|
    ensures r.searchQuery == search.GetOr("")
    ensures search.GetOr("") == "" ==> r.notes == notes
    ensures |r.notes| <= |notes|
  {
    var q := search.GetOr("");
    var shown := if q != "" then Seqs.Filter(notes, n => MatchesSearch(n, q)) else notes;
    HomeContext(shown, |notes|, q)
  }

  /** A non-empty search shows a stored note exactly when it matches, and
      shows nothing that is not stored. */
  lemma HomeSearchExact(notes: seq<Note>, q: string)
    requires q != ""
    ensures forall i :: 0 <= i < |notes| ==>
      (notes[i] in Home(notes, Some(q)).notes <==> MatchesSearch(notes[i], q))
    ensures forall n :: n in Home(notes, Some(q)).notes ==> n in notes
  {
    var shown := Home(notes, Some(q)).notes;
    Seqs.FilterMembers(notes, n => MatchesSearch(n, q));
    forall i | 0 <= i < |notes| && notes[i] in shown
      ensures MatchesSearch(notes[i], q)
    {
      var j :| 0 <= j < |shown| && shown[j] == notes[i];
    }
    forall n | n in shown
      ensures n in notes
    {
      var j :| 0 <= j < |shown| && shown[j] == n;
    }
  }

  // ---------------------------------------------------------------------------
  // add_note

  /** What the re-rendered form is given back: `add_note` passes the content
      after a title error and the title after a content error. */
  datatype FormContext = FormContext(title: Option<string>, content: Option<string>)

  datatype AddOutcome = AddOutcome(notes: seq<Note>, reply: Reply, form: FormContext)

  /** `add_note`. `title` and `content` are the POSTed values (`None` when absent). */
  function AddNote(notes: seq<Note>, verb: Method, title: Option<string>, content: Option<string>): (r: AddOutcome)
    ensures verb != Post ==> r == AddOutcome(notes, Reply(Render("notes/add_note.html"), []), FormContext(None, None))
    ensures verb == Post ==>
      var t, c := Strip(title.GetOr("")), Strip(content.GetOr(""));
      && (t == "" ==> r == AddOutcome(notes, Reply(Render("notes/add_note.html"), [Message(Error, "Title is required!")]),
                                      FormContext(None, Some(c))))
      && (t != "" && c == "" ==> r == AddOutcome(notes, Reply(Render("notes/add_note.html"), [Message(Error, "Content is required!")]),
                                                 FormContext(Some(t), None)))
      && (t != "" && c != "" ==>
            |r.notes| == |notes| + 1 && r.notes[1..] == notes
            && r.notes[0].title == t && r.notes[0].content == c
            && (forall i :: 0 <= i < |notes| ==> notes[i].id < r.notes[0].id)
            && r.reply == Reply(Redirect("home"), [Message(Success, "Note \"" + t + "\" has been created successfully!")]))
  {
    if verb == Post then
      var t := Strip(title.GetOr(""));
      var c := Strip(content.GetOr(""));
      if t == "" then
        AddOutcome(notes, Reply(Render("notes/add_note.html"), [Message(Error, "Title is required!")]), FormContext(None, Some(c)))
      else if c == "" then
        AddOutcome(notes, Reply(Render("notes/add_note.html"), [Message(Error, "Content is required!")]), FormContext(Some(t), None))
      else
        var n := Note(Seqs.NextKey(notes, (n: Note) => n.id), t, c);
        AddOutcome([n] + notes, Reply(Redirect("home"), [Message(Success, "Note \"" + n.title + "\" has been created successfully!")]),
                   FormContext(None, None))
    else AddOutcome(notes, Reply(Render("notes/add_note.html"), []), FormContext(None, None))
  }

  /** Surrounding whitespace never matters: padding both fields gives the same
      outcome, and a note is stored with its stripped values. */
  lemma AddNoteIgnoresPadding(notes: seq<Note>, t: string, c: string, pre1: string, post1: string, pre2: string, post2: string)
    requires AllSpace(pre1) && AllSpace(post1) && AllSpace(pre2) && AllSpace(post2)
    requires t != "" ==> !IsSpace(t[0]) && !IsSpace(t[|t| - 1])
    requires c != "" ==> !IsSpace(c[0]) && !IsSpace(c[|c| - 1])
    ensures AddNote(notes, Post, Some(pre1 + t + post1), Some(pre2 + c + post2)) == AddNote(notes, Post, Some(t), Some(c))
  {
    StripRemovesPadding(pre1, t, post1);
    StripRemovesPadding(pre2, c, post2);
    StripRemovesPadding("", t, "");
    StripRemovesPadding("", c, "");
    assert "" + t + "" == t;
    assert "" + c + "" == c;
    AddNoteSeesStrippedValues(notes, pre1 + t + post1, pre2 + c + post2, t, c);
  }

  lemma AddNoteSeesStrippedValues(notes: seq<Note>, title1: string, content1: string, title2: string, content2: string)
    requires Strip(title1) == Strip(title2) && Strip(content1) == Strip(content2)
    ensures AddNote(notes, Post, Some(title1), Some(content1)) == AddNote(notes, Post, Some(title2), Some(content2))
  {
  }

  /** When both fields are blank, the title error is the one reported. */
  lemma BothBlankReportsTitle(notes: seq<Note>, title: string, content: string)
    requires AllSpace(title) && AllSpace(content)
    ensures AddNote(notes, Post, Some(title), Some(content)).reply.flash == [Message(Error, "Title is required!")]
    ensures AddNote(notes, Post, Some(title), Some(content)).notes == notes
  {
  }

  /** Only a valid POST changes the store, and then by exactly one note. */
  lemma AddNoteGrowsByAtMostOne(notes: seq<Note>, verb: Method, title: Option<string>, content: Option<string>)
    ensures var r := AddNote(notes, verb, title, content);
      r.notes == notes || (|r.notes| == |notes| + 1 && r.notes[1..] == notes && r.reply.response == Redirect("home"))
  {
  }

  // ---------------------------------------------------------------------------
  // delete_note

  function FindNote(notes: seq<Note>, id: nat): (i: int)
    ensures -1 <= i < |notes|
    ensures i >= 0 ==> notes[i].id == id
    ensures i < 0 <==> forall j :: 0 <= j < |notes| ==> notes[j].id != id
  {
    Seqs.FirstIndex(notes, (n: Note) => n.id == id)
  }

  /** `delete_note`: only a POST deletes, and a POST for a missing note is a 404;
      every other method redirects home and changes nothing. */
  function DeleteNote(notes: seq<Note>, verb: Method, id: nat): (r: (seq<Note>, Reply))
    ensures verb != Post ==> r == (notes, Reply(Redirect("home"), []))
    ensures verb == Post && FindNote(notes, id) < 0 ==> r == (notes, Reply(NotFound, []))
    ensures verb == Post && FindNote(notes, id) >= 0 ==>
      var i := FindNote(notes, id);
      r.0 == notes[..i] + notes[i + 1..]
      && r.1 == Reply(Redirect("home"), [Message(Success, "Note \"" + notes[i].title + "\" has been deleted successfully!")])
  {
    if verb == Post then
      var i := FindNote(notes, id);
      if i < 0 then (notes, Reply(NotFound, []))
      else (notes[..i] + notes[i + 1..], Reply(Redirect("home"), [Message(Success, "Note \"" + notes[i].title + "\" has been deleted successfully!")]))
    else (notes, Reply(Redirect("home"), []))
  }

  predicate DistinctIds(notes: seq<Note>) {
    forall i, j :: 0 <= i < j < |notes| ==> notes[i].id != notes[j].id
  }

  /** With distinct ids, a successful delete leaves no note with that id and
      keeps every other note. */
  lemma DeleteNoteRemovesExactlyIt(notes: seq<Note>, id: nat)
    requires DistinctIds(notes) && FindNote(notes, id) >= 0
    ensures var after := DeleteNote(notes, Post, id).0;
      |after| == |notes| - 1
      && (forall j :: 0 <= j < |after| ==> after[j].id != id)
      && (forall j :: 0 <= j < |notes| && notes[j].id != id ==> notes[j] in after)
  {
    var i := FindNote(notes, id);
    var after := DeleteNote(notes, Post, id).0;
    forall j | 0 <= j < |after| ensures after[j].id != id {
      if j < i {
        assert after[j] == notes[j];
      } else {
        assert after[j] == notes[j + 1];
      }
    }
    forall j | 0 <= j < |notes| && notes[j].id != id ensures notes[j] in after {
      if j < i {
        assert after[j] == notes[j];
      } else {
        assert after[j - 1] == notes[j];
      }
    }
  }
}

=== FILE: profile_views.dfy ===
/** The request handlers of the user-profile manager (users/views.py): the
    `register` and `user_login` redirect rules, the `dashboard` counts, and the
    add / edit / delete views of the four collections a profile owns
    (education, skills, experience, projects). Each handler is a function from
    the stored state and the request to the new state and the reply. */
module ProfileViews {
  import opened Wrappers
  import opened Http
  import opened Profiles
  import Seqs
  import Text

  // ---------------------------------------------------------------------------
  // register and user_login

  /** The fields of a submitted registration form the model keeps. */
  datatype Registration = Registration(username: string, email: string)

  /** `register`. `submitted` is `None` when the request carries no form data
      (`request.POST or None`); `formValid` is the framework's verdict on it. */
  function Register(d: Directory, session: Session, submitted: Option<Registration>, formValid: bool)
    : (r: (Directory, Reply))
    ensures session.IsAuthenticated() ==> r == (d, Reply(Redirect("dashboard"), []))
    ensures !session.IsAuthenticated() && submitted.Some? && formValid ==>
      r.0 == CreateAccount(d, submitted.value.username, submitted.value.email).0
      && r.1 == Reply(Redirect("login"),
        [Message(Success, "Account created for " + submitted.value.username + "! You can now login.")])
    ensures !session.IsAuthenticated() && !(submitted.Some? && formValid) ==>
      r == (d, Reply(Render("users/register.html"), []))
  {
    if session.IsAuthenticated() then (d, Reply(Redirect("dashboard"), []))
    else if submitted.Some? && formValid then
      var (d', user) := CreateAccount(d, submitted.value.username, submitted.value.email);
      (d', Reply(Redirect("login"), [Message(Success, "Account created for " + user.username + "! You can now login.")]))
    else (d, Reply(Render("users/register.html"), []))
  }

  /** A successful registration adds one account with the submitted name and
      e-mail, gives it exactly one profile, and keeps the tables valid. */
  lemma RegisterCreatesOneAccount(d: Directory, reg: Registration)
    requires Valid(d)
    ensures var d' := Register(d, Anonymous, Some(reg), true).0;
      && Valid(d')
      && |d'.accounts| == |d.accounts| + 1
      && d'.accounts[..|d.accounts|] == d.accounts
      && var a := d'.accounts[|d.accounts|];
         a.username == reg.username && a.email == reg.email
         && |ProfilesOf(d'.profiles, a.id)| == 1
  {
    var (d', a) := CreateAccount(d, reg.username, reg.email);
    SaveAccountKeepsOneProfileEach(d, a);
    assert AccountIndex(d.accounts, a.id) < 0;
    assert d'.accounts == d.accounts + [a];
  }

  /** Django's `resolve_url` on a string: a URL name reverses to its route, a
      string holding a '/' or a '.' is taken as a URL as it is, and anything
      else raises `NoReverseMatch`. `routes` is the project's set of URL names
      (its urls.py is not part of this model); a resolved route keeps its
      name, as every redirect of the model is written. */
  function ResolveUrl(to: string, routes: set<string>): (r: Result<string>)
    ensures r.Err? <==> to !in routes && '/' !in to && '.' !in to
    ensures r.Err? ==> r.error == "NoReverseMatch"
    ensures r.Ok? ==> r.value == to
  {
    if to in routes || '/' in to || '.' in to then Ok(to) else Err("NoReverseMatch")
  }

  /** The schemes `HttpResponseRedirect` accepts in the URL it is given. */
  const AllowedSchemes: set<string> := {"http", "https", "ftp"}

  predicate IsSchemeChar(c: char) {
    'a' <= c <= 'z' || 'A' <= c <= 'Z' || '0' <= c <= '9' || c == '+' || c == '-' || c == '.'
  }

  /** `urlparse(url).scheme`: the text before the first ':', lower-cased, when
      it starts with a letter and holds only scheme characters; "" otherwise. */
  function UrlScheme(url: string): (scheme: string)
    ensures scheme != "" ==>
      && |scheme| < |url| && url[|scheme|] == ':'
      && ('a' <= url[0] <= 'z' || 'A' <= url[0] <= 'Z')
      && (forall k :: 0 <= k < |scheme| ==> IsSchemeChar(url[k]))
      && Text.LowerStr(url[..|scheme|]) == scheme
  {
    var i := Text.Find(url, ":");
    if i > 0 && ('a' <= url[0] <= 'z' || 'A' <= url[0] <= 'Z') && forall k :: 0 <= k < i ==> IsSchemeChar(url[k]) then
      assert url[i..i + 1] == ":";
      Text.LowerStr(url[..i])
    else ""
  }

  /** Conversely, a scheme-shaped head followed by ':' is the URL's scheme. */
  lemma UrlSchemeOfHead(head: string, rest: string)
    requires head != "" && ('a' <= head[0] <= 'z' || 'A' <= head[0] <= 'Z')
    requires forall k :: 0 <= k < |head| ==> IsSchemeChar(head[k])
    ensures UrlScheme(head + ":" + rest) == Text.LowerStr(head)
  {
    var url := head + ":" + rest;
    assert Text.OccursAt(url, ":", |head|) by {
      assert url[|head|..|head| + 1] == ":";
    }
    var i := Text.Find(url, ":");
    forall j | 0 <= j < |head|
      ensures !Text.OccursAt(url, ":", j)
    {
      assert url[j] == head[j];
      assert url[j..j + 1][0] == url[j];
    }
    assert i == |head|;
    assert url[..i] == head;
  }

  /** Whether `HttpResponseRedirect` accepts the redirect `redirect(to)` builds:
      a URL name reverses to a path, which has no scheme; any other target is
      refused with `DisallowedRedirect` when its scheme is not an allowed one. */
  predicate RedirectAllowed(to: string, routes: set<string>) {
    to in routes || UrlScheme(to) == "" || UrlScheme(to) in AllowedSchemes
  }

  /** `user_login`. `authenticated` is what `authenticate(...)` returned for the
      posted credentials (the account id, or `None`); `next` is the `next`
      query parameter and `routes` the project's URL names. The first
      component is the session afterwards. When `redirect(next)` raises
      `NoReverseMatch`, the request ends in a server error, whose session the
      framework does not save, so the visitor stays signed out. When it raises
      `DisallowedRedirect`, the answer is a Bad Request, whose session is saved
      with the login in it. */
  function UserLogin(session: Session, verb: Method, authenticated: Option<nat>, routes: set<string>, next: Option<string>)
    : (r: (Session, Result<Reply>))
    ensures session.IsAuthenticated() ==> r == (session, Ok(Reply(Redirect("dashboard"), [])))
    ensures !session.IsAuthenticated() && verb == Post && authenticated.Some?
            && ResolveUrl(next.GetOr("dashboard"), routes).Ok? && RedirectAllowed(next.GetOr("dashboard"), routes) ==>
      r == (SignedIn(authenticated.value), Ok(Reply(Redirect(if next.Some? then next.value else "dashboard"), [])))
    ensures !session.IsAuthenticated() && verb == Post && authenticated.Some?
            && ResolveUrl(next.GetOr("dashboard"), routes).Ok? && !RedirectAllowed(next.GetOr("dashboard"), routes) ==>
      r == (SignedIn(authenticated.value), Err("DisallowedRedirect"))
    ensures !session.IsAuthenticated() && verb == Post && authenticated.Some?
            && ResolveUrl(next.GetOr("dashboard"), routes).Err? ==>
      r == (Anonymous, Err("NoReverseMatch"))
    ensures !session.IsAuthenticated() && !(verb == Post && authenticated.Some?) ==>
      r.0 == Anonymous && r.1.Ok? && r.1.value.response == Render("users/login.html")
    ensures !session.IsAuthenticated() && verb == Post && authenticated.None? ==>
      r.1 == Ok(Reply(Render("users/login.html"), [Message(Error, "Invalid username or password")]))
  {
    if session.IsAuthenticated() then (session, Ok(Reply(Redirect("dashboard"), [])))
    else if verb == Post then
      match authenticated
      case Some(id) =>
        (match ResolveUrl(next.GetOr("dashboard"), routes)
         case Ok(url) =>
           if RedirectAllowed(url, routes) then (SignedIn(id), Ok(Reply(Redirect(url), [])))
           else (SignedIn(id), Err("DisallowedRedirect"))
         case Err(e) => (session, Err(e)))
      case None => (session, Ok(Reply(Render("users/login.html"), [Message(Error, "Invalid username or password")])))
    else (session, Ok(Reply(Render("users/login.html"), [])))
  }

  /** A target such as `javascript://x`: a scheme outside the allowed ones,
      followed by a '/' so that it resolves. The login is kept, and the answer
      is `DisallowedRedirect`. */
  lemma LoginRefusesForeignScheme(session: Session, id: nat, routes: set<string>, head: string, rest: string)
    requires !session.IsAuthenticated()
    requires head != "" && ('a' <= head[0] <= 'z' || 'A' <= head[0] <= 'Z')
    requires forall k :: 0 <= k < |head| ==> IsSchemeChar(head[k])
    requires Text.LowerStr(head) !in AllowedSchemes
    requires '/' in rest && head + ":" + rest !in routes
    ensures UserLogin(session, Post, Some(id), routes, Some(head + ":" + rest)) == (SignedIn(id), Err("DisallowedRedirect"))
  {
    var url := head + ":" + rest;
    assert ResolveUrl(url, routes) == Ok(url) by {
      var j :| 0 <= j < |rest| && rest[j] == '/';
      assert url[|head| + 1 + j] == '/';
    }
    assert !RedirectAllowed(url, routes) by {
      UrlSchemeOfHead(head, rest);
    }
  }

  /** An http, https or ftp target, in any letter case, is redirected to. */
  lemma LoginFollowsAllowedScheme(session: Session, id: nat, routes: set<string>, head: string, rest: string)
    requires !session.IsAuthenticated()
    requires head != "" && ('a' <= head[0] <= 'z' || 'A' <= head[0] <= 'Z')
    requires forall k :: 0 <= k < |head| ==> IsSchemeChar(head[k])
    requires Text.LowerStr(head) in AllowedSchemes
    requires '/' in rest
    ensures UserLogin(session, Post, Some(id), routes, Some(head + ":" + rest))
      == (SignedIn(id), Ok(Reply(Redirect(head + ":" + rest), [])))
  {
    var url := head + ":" + rest;
    assert ResolveUrl(url, routes) == Ok(url) by {
      var j :| 0 <= j < |rest| && rest[j] == '/';
      assert url[|head| + 1 + j] == '/';
    }
    assert RedirectAllowed(url, routes) by {
      UrlSchemeOfHead(head, rest);
    }
  }

  /** A login is kept exactly when the credentials are accepted and the
      redirect target resolves. So `next` matters to the session only through
      whether it resolves; an empty `next` (when no URL is named "") leaves the
      visitor signed out; and once signed in, every further login request keeps
      that session and goes to the dashboard, whatever it posts. */
  lemma LoginKeptOnlyWhenNextResolves(session: Session, verb: Method, authenticated: Option<nat>, routes: set<string>,
                                      next1: Option<string>, next2: Option<string>,
                                      verb2: Method, authenticated2: Option<nat>)
    ensures UserLogin(session, verb, authenticated, routes, next1).0.IsAuthenticated() <==>
      session.IsAuthenticated()
      || (verb == Post && authenticated.Some? && ResolveUrl(next1.GetOr("dashboard"), routes).Ok?)
    ensures ResolveUrl(next1.GetOr("dashboard"), routes).Ok? == ResolveUrl(next2.GetOr("dashboard"), routes).Ok? ==>
      UserLogin(session, verb, authenticated, routes, next1).0 == UserLogin(session, verb, authenticated, routes, next2).0
    ensures !session.IsAuthenticated() && "" !in routes ==>
      UserLogin(session, verb, authenticated, routes, Some("")).0 == Anonymous
    ensures var s := UserLogin(session, verb, authenticated, routes, next1).0;
      s.IsAuthenticated() ==>
        UserLogin(s, verb2, authenticated2, routes, next2) == (s, Ok(Reply(Redirect("dashboard"), [])))
  {
  }

  // ---------------------------------------------------------------------------
  // The four owned collections

  datatype Kind = Education | Skill | Experience | Project

  /** A row of one of the four collections. `owner` is the owning profile,
      named by its account id (the profile link is one-to-one); `details` stands
      for the row's own form fields. */
  datatype Entry = Entry(pk: nat, kind: Kind, owner: nat, details: string)

  /** The page each collection's views return to. */
  function ListPage(k: Kind): string {
    match k
    case Education => "education_list"
    case Skill => "skills_list"
    case Experience => "experience_list"
    case Project => "projects_list"
  }

  function FormTemplate(k: Kind): string {
    match k
    case Education => "users/education_form.html"
    case Skill => "users/skill_form.html"
    case Experience => "users/experience_form.html"
    case Project => "users/project_form.html"
  }

  function AddedMessage(k: Kind): string {
    match k
    case Education => "Education entry added successfully!"
    case Skill => "Skill added successfully!"
    case Experience => "Experience added successfully!"
    case Project => "Project added successfully!"
  }

  function UpdatedMessage(k: Kind): string {
    match k
    case Education => "Education entry updated successfully!"
    case Skill => "Skill updated successfully!"
    case Experience => "Experience updated successfully!"
    case Project => "Project updated successfully!"
  }

  function DeletedMessage(k: Kind): string {
    match k
    case Education => "Education entry deleted successfully!"
    case Skill => "Skill deleted successfully!"
    case Experience => "Experience deleted successfully!"
    case Project => "Project deleted successfully!"
  }

  /** The rows of kind `k` owned by `owner`: `profile.<kind>_set`. */
  function OwnedOfKind(entries: seq<Entry>, owner: nat, k: Kind): seq<Entry> {
    Seqs.Filter(entries, (e: Entry) => e.owner == owner && e.kind == k)
  }

  /** Every row owned by `owner`, of any kind. */
  function OwnedBy(entries: seq<Entry>, owner: nat): seq<Entry> {
    Seqs.Filter(entries, (e: Entry) => e.owner == owner)
  }

  predicate DistinctPks(entries: seq<Entry>) {
    forall i, j :: 0 <= i < j < |entries| ==> entries[i].pk != entries[j].pk
  }

  /** `get_object_or_404(Model, pk=pk, profile=request.user.profile)`: the
      position of the row with this pk, kind and owner, or -1 (a 404). */
  function FindOwned(entries: seq<Entry>, k: Kind, owner: nat, pk: nat): (i: int)
    ensures -1 <= i < |entries|
    ensures i >= 0 ==> entries[i].pk == pk && entries[i].kind == k && entries[i].owner == owner
    ensures i < 0 <==> forall j :: 0 <= j < |entries| ==>
      !(entries[j].pk == pk && entries[j].kind == k && entries[j].owner == owner)
  {
    Seqs.FirstIndex(entries, (e: Entry) => e.pk == pk && e.kind == k && e.owner == owner)
  }

  /** The outcome of a collection view: the rows afterwards and the reply. */
  datatype Outcome = Outcome(entries: seq<Entry>, reply: Reply)

  /** `education_add`, `skill_add`, `experience_add`, `project_add`: on a valid
      POST the new row is attached to the requesting user's profile, whatever
      the form held, under a fresh primary key. */
  function AddEntry(entries: seq<Entry>, k: Kind, user: nat, verb: Method, details: string, formValid: bool)
    : (r: Outcome)
    ensures verb == Post && formValid ==>
      |r.entries| == |entries| + 1 && r.entries[..|entries|] == entries
      && var e := r.entries[|entries|];
         e.owner == user && e.kind == k && e.details == details
         && forall j :: 0 <= j < |entries| ==> entries[j].pk < e.pk
    ensures verb == Post && formValid ==>
      r.reply == Reply(Redirect(ListPage(k)), [Message(Success, AddedMessage(k))])
    ensures !(verb == Post && formValid) ==>
      r == Outcome(entries, Reply(Render(FormTemplate(k)), []))
  {
    if verb == Post && formValid then
      var e := Entry(Seqs.NextKey(entries, (e: Entry) => e.pk), k, user, details);
      assert (entries + [e])[..|entries|] == entries;
      Outcome(entries + [e], Reply(Redirect(ListPage(k)), [Message(Success, AddedMessage(k))]))
    else Outcome(entries, Reply(Render(FormTemplate(k)), []))
  }

  /** `education_edit` and its three siblings: a row the user does not own
      (or that does not exist) is a 404 and nothing changes; a valid POST
      rewrites the row's fields and keeps its key, kind and owner. */
  function EditEntry(entries: seq<Entry>, k: Kind, user: nat, pk: nat, verb: Method, details: string, formValid: bool)
    : (r: Outcome)
    ensures FindOwned(entries, k, user, pk) < 0 ==> r == Outcome(entries, Reply(NotFound, []))
    ensures FindOwned(entries, k, user, pk) >= 0 && verb == Post && formValid ==>
      var i := FindOwned(entries, k, user, pk);
      r.entries == entries[i := entries[i].(details := details)]
      && r.reply == Reply(Redirect(ListPage(k)), [Message(Success, UpdatedMessage(k))])
    ensures FindOwned(entries, k, user, pk) >= 0 && !(verb == Post && formValid) ==>
      r == Outcome(entries, Reply(Render(FormTemplate(k)), []))
  {
    var i := FindOwned(entries, k, user, pk);
    if i < 0 then Outcome(entries, Reply(NotFound, []))
    else if verb == Post && formValid then
      Outcome(entries[i := entries[i].(details := details)],
              Reply(Redirect(ListPage(k)), [Message(Success, UpdatedMessage(k))]))
    else Outcome(entries, Reply(Render(FormTemplate(k)), []))
  }

  /** `education_delete` and its three siblings: a 404 for a row the user does
      not own; the row is removed only on POST, any other method renders the
      confirmation page and keeps it. */
  function DeleteEntry(entries: seq<Entry>, k: Kind, user: nat, pk: nat, verb: Method): (r: Outcome)
    ensures FindOwned(entries, k, user, pk) < 0 ==> r == Outcome(entries, Reply(NotFound, []))
    ensures FindOwned(entries, k, user, pk) >= 0 && verb == Post ==>
      var i := FindOwned(entries, k, user, pk);
      r.entries == entries[..i] + entries[i + 1..]
      && r.reply == Reply(Redirect(ListPage(k)), [Message(Success, DeletedMessage(k))])
    ensures FindOwned(entries, k, user, pk) >= 0 && verb != Post ==>
      r == Outcome(entries, Reply(Render("users/confirm_delete.html"), []))
  {
    var i := FindOwned(entries, k, user, pk);
    if i < 0 then Outcome(entries, Reply(NotFound, []))
    else if verb == Post then
      Outcome(entries[..i] + entries[i + 1..], Reply(Redirect(ListPage(k)), [Message(Success, DeletedMessage(k))]))
    else Outcome(entries, Reply(Render("users/confirm_delete.html"), []))
  }

  /** The three collection views as one request, for stating what they share. */
  datatype Action =
    | Add(details: string, formValid: bool)
    | Edit(pk: nat, details: string, formValid: bool)
    | Delete(pk: nat)

  function Dispatch(entries: seq<Entry>, k: Kind, user: nat, verb: Method, a: Action): Outcome {
    match a
    case Add(details, valid) => AddEntry(entries, k, user, verb, details, valid)
    case Edit(pk, details, valid) => EditEntry(entries, k, user, pk, verb, details, valid)
    case Delete(pk) => DeleteEntry(entries, k, user, pk, verb)
  }

  /** No add, edit or delete by one user changes the rows any other user owns. */
  lemma OthersUntouched(entries: seq<Entry>, k: Kind, user: nat, verb: Method, a: Action, other: nat)
    requires other != user
    ensures OwnedBy(Dispatch(entries, k, user, verb, a).entries, other) == OwnedBy(entries, other)
  {
    match a
    case Add(details, valid) => AddLeavesOthers(entries, k, user, verb, details, valid, other);
    case Edit(pk, details, valid) => EditLeavesOthers(entries, k, user, pk, verb, details, valid, other);
    case Delete(pk) => DeleteLeavesOthers(entries, k, user, pk, verb, other);
  }

  lemma AddLeavesOthers(entries: seq<Entry>, k: Kind, user: nat, verb: Method, details: string, valid: bool, other: nat)
    requires other != user
    ensures OwnedBy(AddEntry(entries, k, user, verb, details, valid).entries, other) == OwnedBy(entries, other)
  {
    var r := AddEntry(entries, k, user, verb, details, valid);
    if verb == Post && valid {
      var keep := (e: Entry) => e.owner == other;
      var e := r.entries[|entries|];
      assert r.entries == entries + [e];
      Seqs.FilterAppend(entries, [e], keep);
      Seqs.FilterSingleton(e, keep);
    }
  }

  lemma EditLeavesOthers(entries: seq<Entry>, k: Kind, user: nat, pk: nat, verb: Method, details: string, valid: bool, other: nat)
    requires other != user
    ensures OwnedBy(EditEntry(entries, k, user, pk, verb, details, valid).entries, other) == OwnedBy(entries, other)
  {
    var i := FindOwned(entries, k, user, pk);
    if i >= 0 && verb == Post && valid {
      var keep := (e: Entry) => e.owner == other;
      Seqs.FilterReplace(entries, i, entries[i].(details := details), keep);
      Seqs.FilterAround(entries, i, keep);
    }
  }

  lemma DeleteLeavesOthers(entries: seq<Entry>, k: Kind, user: nat, pk: nat, verb: Method, other: nat)
    requires other != user
    ensures OwnedBy(DeleteEntry(entries, k, user, pk, verb).entries, other) == OwnedBy(entries, other)
  {
    var i := FindOwned(entries, k, user, pk);
    if i >= 0 && verb == Post {
      Seqs.FilterRemove(entries, i, (e: Entry) => e.owner == other);
    }
  }

  /** Every collection view keeps primary keys distinct. */
  lemma DispatchKeepsPksDistinct(entries: seq<Entry>, k: Kind, user: nat, verb: Method, a: Action)
    requires DistinctPks(entries)
    ensures DistinctPks(Dispatch(entries, k, user, verb, a).entries)
  {
    match a
    case Add(details, valid) => AddKeepsPksDistinct(entries, k, user, verb, details, valid);
    case Edit(pk, details, valid) =>
      var r := EditEntry(entries, k, user, pk, verb, details, valid);
      assert forall j :: 0 <= j < |entries| ==> r.entries[j].pk == entries[j].pk;
    case Delete(pk) => DeleteKeepsPksDistinct(entries, k, user, pk, verb);
  }

  lemma AddKeepsPksDistinct(entries: seq<Entry>, k: Kind, user: nat, verb: Method, details: string, valid: bool)
    requires DistinctPks(entries)
    ensures DistinctPks(AddEntry(entries, k, user, verb, details, valid).entries)
  {
    var r := AddEntry(entries, k, user, verb, details, valid);
    if verb == Post && valid {
      forall i, j | 0 <= i < j < |r.entries|
        ensures r.entries[i].pk != r.entries[j].pk
      {
        assert r.entries[i] == entries[i];
        if j < |entries| {
          assert r.entries[j] == entries[j];
        }
      }
    }
  }

  lemma DeleteKeepsPksDistinct(entries: seq<Entry>, k: Kind, user: nat, pk: nat, verb: Method)
    requires DistinctPks(entries)
    ensures DistinctPks(DeleteEntry(entries, k, user, pk, verb).entries)
  {
    var i := FindOwned(entries, k, user, pk);
    if i >= 0 && verb == Post {
      var rest := entries[..i] + entries[i + 1..];
      forall x, y | 0 <= x < y < |rest|
        ensures rest[x].pk != rest[y].pk
      {
        var x' := if x < i then x else x + 1;
        var y' := if y < i then y else y + 1;
        assert rest[x] == entries[x'] && rest[y] == entries[y'];
      }
    }
  }

  // ---------------------------------------------------------------------------
  // dashboard

  datatype DashboardContext = DashboardContext(
    completion: nat,
    educationCount: nat,
    skillsCount: nat,
    experienceCount: nat,
    projectsCount: nat)

  /** `dashboard`: the signed-in user's completion and the size of each of the
      four collections. `None` when the user has no profile (the source raises). */
  function Dashboard(d: Directory, entries: seq<Entry>, user: nat): (r: Option<DashboardContext>)
    ensures r.None? <==> ProfilesOf(d.profiles, user) == []
    ensures r.Some? ==>
      && r.value.completion == CompletionPercentage(ProfilesOf(d.profiles, user)[0])
      && r.value.educationCount == |OwnedOfKind(entries, user, Education)|
      && r.value.skillsCount == |OwnedOfKind(entries, user, Skill)|
      && r.value.experienceCount == |OwnedOfKind(entries, user, Experience)|
      && r.value.projectsCount == |OwnedOfKind(entries, user, Project)|
  {
    var mine := ProfilesOf(d.profiles, user);
    if mine == [] then None
    else Some(DashboardContext(
      CompletionPercentage(mine[0]),
      |OwnedOfKind(entries, user, Education)|,
      |OwnedOfKind(entries, user, Skill)|,
      |OwnedOfKind(entries, user, Experience)|,
      |OwnedOfKind(entries, user, Project)|))
  }

  /** A successful add raises the user's count of that kind by one and
      leaves every other (owner, kind) count alone. */
  lemma AddRaisesCount(entries: seq<Entry>, k: Kind, user: nat, details: string, owner: nat, k2: Kind)
    ensures var after := AddEntry(entries, k, user, Post, details, true).entries;
      |OwnedOfKind(after, owner, k2)| == |OwnedOfKind(entries, owner, k2)| + (if owner == user && k2 == k then 1 else 0)
  {
    var keep := (e: Entry) => e.owner == owner && e.kind == k2;
    var after := AddEntry(entries, k, user, Post, details, true).entries;
    var e := after[|entries|];
    assert after == entries + [e];
    Seqs.FilterAppend(entries, [e], keep);
    Seqs.FilterSingleton(e, keep);
  }

  /** A successful delete lowers the user's count of that kind by one and
      leaves every other (owner, kind) count alone. */
  lemma DeleteLowersCount(entries: seq<Entry>, k: Kind, user: nat, pk: nat, owner: nat, k2: Kind)
    requires FindOwned(entries, k, user, pk) >= 0
    ensures var after := DeleteEntry(entries, k, user, pk, Post).entries;
      |OwnedOfKind(after, owner, k2)| + (if owner == user && k2 == k then 1 else 0) == |OwnedOfKind(entries, owner, k2)|
  {
    var keep := (e: Entry) => e.owner == owner && e.kind == k2;
    var i := FindOwned(entries, k, user, pk);
    Seqs.FilterRemove(entries, i, keep);
  }
}

=== FILE: profiles.dfy ===
/** The user-profile manager's profile record and the code that reads it:
    `UserProfile` and its creation hook (users/models.py), the helpers of
    users/utils.py and the template filters of users/templatetags/profile_tags.py.
    The completion rule appears three times in the source; each copy is
    modelled in the style it is written in and proved to agree with the others. */
module Profiles {
  import opened Wrappers
  import opened Text
  import Seqs

  /** An account of the framework's user table, reduced to what the core reads. */
  datatype Account = Account(id: nat, username: string, email: string)

  /** `UserProfile`. `userId` is the one-to-one link to the account; `picture`
      is the stored image's file name, "" when there is none (an empty image
      field is false in Python, like an empty string). */
  datatype Profile = Profile(
    userId: nat,
    fullName: string,
    bio: string,
    phone: string,
    location: string,
    picture: string)

  /** The profile a new account receives: every optional field blank. */
  function BlankProfile(userId: nat): Profile {
    Profile(userId, "", "", "", "", "")
  }

  // ---------------------------------------------------------------------------
  // Completion

  datatype Field = FullName | Bio | Phone | Location | ProfilePicture

  /** The fields the completion rule inspects, in the order the source lists them. */
  const CompletionFields: seq<Field> := [FullName, Bio, Phone, Location, ProfilePicture]

  function FieldValue(p: Profile, f: Field): string {
    match f
    case FullName => p.fullName
    case Bio => p.bio
    case Phone => p.phone
    case Location => p.location
    case ProfilePicture => p.picture
  }

  /** `getattr(profile, field)` is truthy. */
  predicate Filled(p: Profile, f: Field) {
    FieldValue(p, f) != ""
  }

  /** `p` with field `f` set to `v`. */
  function WithField(p: Profile, f: Field, v: string): (q: Profile)
    ensures Filled(q, f) <==> v != ""
    ensures forall g :: g != f ==> FieldValue(q, g) == FieldValue(p, g)
  {
    match f
    case FullName => p.(fullName := v)
    case Bio => p.(bio := v)
    case Phone => p.(phone := v)
    case Location => p.(location := v)
    case ProfilePicture => p.(picture := v)
  }

  /** `sum([1 for field in fields if getattr(profile, field)])`. */
  function CountFilled(p: Profile, fields: seq<Field>): (n: nat)
    ensures n <= |fields|
  {
    if fields == [] then 0
    else CountFilled(p, fields[..|fields| - 1]) + (if Filled(p, fields[|fields| - 1]) then 1 else 0)
  }

  function Indicator(s: string): nat {
    if s != "" then 1 else 0
  }

  /** `UserProfile.profile_completion_percentage` (models.py). The source
      computes `int((filled / 5) * 100)` in floating point, which is exactly
      `filled * 20` for `filled` in 0..5, so integers are used here. */
  function CompletionPercentage(p: Profile): (r: nat)
    ensures r <= 100 && r % 20 == 0
    ensures r == 20 * (Indicator(p.fullName) + Indicator(p.bio) + Indicator(p.phone)
                       + Indicator(p.location) + Indicator(p.picture))
  {
    CountCompletionFields(p);
    CountFilled(p, CompletionFields) * 100 / |CompletionFields|
  }

  lemma CountCompletionFields(p: Profile)
    ensures CountFilled(p, CompletionFields) == Indicator(p.fullName) + Indicator(p.bio)
      + Indicator(p.phone) + Indicator(p.location) + Indicator(p.picture)
  {
    var fs := CompletionFields;
    assert fs[..1][..0] == [];
    assert fs[..2][..1] == fs[..1];
    assert fs[..3][..2] == fs[..2];
    assert fs[..4][..3] == fs[..3];
    assert fs[..4] == fs[..|fs| - 1];
    assert CountFilled(p, fs[..1]) == Indicator(p.fullName);
    assert CountFilled(p, fs[..2]) == CountFilled(p, fs[..1]) + Indicator(p.bio);
    assert CountFilled(p, fs[..3]) == CountFilled(p, fs[..2]) + Indicator(p.phone);
    assert CountFilled(p, fs[..4]) == CountFilled(p, fs[..3]) + Indicator(p.location);
  }

  /** Every field filled in `p` is also filled in `q`. */
  predicate FilledIn(p: Profile, q: Profile) {
    forall f :: Filled(p, f) ==> Filled(q, f)
  }

  /** Filling fields never lowers completion. */
  lemma CompletionMonotone(p: Profile, q: Profile)
    requires FilledIn(p, q)
    ensures CompletionPercentage(p) <= CompletionPercentage(q)
  {
    assert Filled(p, FullName) ==> Filled(q, FullName);
    assert Filled(p, Bio) ==> Filled(q, Bio);
    assert Filled(p, Phone) ==> Filled(q, Phone);
    assert Filled(p, Location) ==> Filled(q, Location);
    assert Filled(p, ProfilePicture) ==> Filled(q, ProfilePicture);
  }

  /** Filling one blank field adds exactly twenty points; clearing a filled one
      removes them. */
  lemma FillingOneFieldAddsTwenty(p: Profile, f: Field, v: string)
    requires !Filled(p, f) && v != ""
    ensures CompletionPercentage(WithField(p, f, v)) == CompletionPercentage(p) + 20
  {
    var q := WithField(p, f, v);
    assert FieldValue(q, FullName) == FieldValue(p, FullName) || f == FullName;
    assert FieldValue(q, Bio) == FieldValue(p, Bio) || f == Bio;
    assert FieldValue(q, Phone) == FieldValue(p, Phone) || f == Phone;
    assert FieldValue(q, Location) == FieldValue(p, Location) || f == Location;
    assert FieldValue(q, ProfilePicture) == FieldValue(p, ProfilePicture) || f == ProfilePicture;
  }

  /** A freshly created profile is 0% complete. */
  lemma BlankProfileIsEmpty(userId: nat)
    ensures CompletionPercentage(BlankProfile(userId)) == 0
  {
  }

  /** A profile with only a full name and a bio is 40% complete. */
  lemma NameAndBioGiveForty(userId: nat, name: string, bio: string)
    requires name != "" && bio != ""
    ensures CompletionPercentage(BlankProfile(userId).(fullName := name, bio := bio)) == 40
  {
  }

  /** `get_user_profile_completion(user)` (utils.py), given `user.profile`;
      the loop is the `sum` over the field list. */
  method GetUserProfileCompletion(profile: Profile) returns (r: nat)
    ensures r == CompletionPercentage(profile)
  {
    var fields := CompletionFields;
    var filled := 0;
    var i := 0;
    while i < |fields|
      invariant 0 <= i <= |fields|
      invariant filled == CountFilled(profile, fields[..i])
    {
      assert fields[..i + 1][..i] == fields[..i];
      if FieldValue(profile, fields[i]) != "" {
        filled := filled + 1;
      }
      i := i + 1;
    }
    assert fields[..i] == fields;
    r := filled * 100 / |fields|;
  }

  lemma {:induction false} FilterCountsFilled(p: Profile, fields: seq<Field>)
    ensures |Seqs.Filter(fields, f => Filled(p, f))| == CountFilled(p, fields)
    decreases |fields|
  {
    if fields != [] {
      var n := |fields| - 1;
      assert fields == fields[..n] + [fields[n]];
      Seqs.FilterAppend(fields[..n], [fields[n]], f => Filled(p, f));
      FilterCountsFilled(p, fields[..n]);
    }
  }

  /** The `profile_completion` template filter (profile_tags.py), given
      `user.profile`: the length of the list of filled fields. */
  function ProfileCompletionFilter(profile: Profile): (r: nat)
    ensures r == CompletionPercentage(profile)
  {
    var filled := Seqs.Filter(CompletionFields, f => Filled(profile, f));
    FilterCountsFilled(profile, CompletionFields);
    |filled| * 100 / |CompletionFields|
  }

  // ---------------------------------------------------------------------------
  // Names

  /** `UserProfile.get_full_name`: the full name, or the username when it is blank. */
  function DisplayName(user: Account, p: Profile): (r: string)
    ensures p.fullName != "" ==> r == p.fullName
    ensures p.fullName == "" ==> r == user.username
    ensures r == "" <==> p.fullName == "" && user.username == ""
  {
    if p.fullName != "" then p.fullName else user.username
  }

  const LabelSuffix: string := "'s Profile"

  /** `str(profile)`: the owner's username followed by "'s Profile". */
  function ProfileLabel(user: Account): (r: string)
    ensures |r| == |user.username| + |LabelSuffix|
    ensures r[..|user.username|] == user.username && r[|user.username|..] == LabelSuffix
  {
    user.username + LabelSuffix
  }

  /** Distinct usernames give distinct labels. */
  lemma ProfileLabelInjective(a: Account, b: Account)
    requires ProfileLabel(a) == ProfileLabel(b)
    ensures a.username == b.username
  {
    var la := ProfileLabel(a);
    assert |a.username| == |b.username|;
    assert a.username == la[..|a.username|] == b.username;
  }

  function Min(a: int, b: int): int {
    if a <= b then a else b
  }

  /** The upper-cased first letters of `words`. */
  function Initials(words: seq<string>): (r: string)
    requires forall i :: 0 <= i < |words| ==> |words[i]| > 0
    ensures |r| == |words|
    ensures forall i :: 0 <= i < |words| ==> r[i] == Upper(words[i][0])
  {
    seq(|words|, i requires 0 <= i < |words| => Upper(words[i][0]))
  }

  /** The `user_initials` filter (profile_tags.py). `None` stands for the
      IndexError the source raises for a blank full name and an empty username. */
  function UserInitials(user: Account, p: Profile): (r: Option<string>)
    ensures p.fullName == "" ==> (r.Some? <==> user.username != "")
    ensures p.fullName == "" && r.Some? ==> r.value == [Upper(user.username[0])]
    ensures p.fullName != "" ==> r.Some? && |r.value| == Min(2, |Split(p.fullName)|)
    ensures p.fullName != "" ==>
      forall i :: 0 <= i < |r.value| ==> r.value[i] == Upper(Split(p.fullName)[i][0])
  {
    if p.fullName != "" then
      var names := Split(p.fullName);
      assert forall i :: 0 <= i < |names| ==> IsWord(names[i]);
      Some(Initials(names[..Min(2, |names|)]))
    else if user.username == "" then None
    else Some([Upper(user.username[0])])
  }

  /** A full name made only of whitespace yields no initials and does not fall
      back to the username. */
  lemma BlankFullNameGivesNoInitials(user: Account, p: Profile)
    requires p.fullName != "" && AllSpace(p.fullName)
    ensures UserInitials(user, p) == Some("")
  {
  }

  /** Words after the second never change the initials. */
  lemma InitialsIgnoreLaterWords(user: Account, p: Profile, more: string)
    requires |Split(p.fullName)| >= 2
    requires more == "" || IsSpace(more[0])
    ensures UserInitials(user, p.(fullName := p.fullName + more)) == UserInitials(user, p)
  {
    SplitAppend(p.fullName, more);
    var q := p.(fullName := p.fullName + more);
    assert Split(q.fullName)[..2] == Split(p.fullName)[..2];
  }

  // ---------------------------------------------------------------------------
  // utils.py

  datatype ProfileStats = ProfileStats(completion: nat, hasImage: bool, hasBio: bool, hasContact: bool)

  /** `format_profile_stats(profile)`: the completion goes through
      `get_user_profile_completion`; contact means a phone number only. */
  method FormatProfileStats(p: Profile) returns (stats: ProfileStats)
    ensures stats.completion == CompletionPercentage(p)
    ensures stats.hasImage <==> p.picture != ""
    ensures stats.hasBio <==> p.bio != ""
    ensures stats.hasContact <==> p.phone != ""
  {
    var completion := GetUserProfileCompletion(p);
    stats := ProfileStats(completion, p.picture != "", p.bio != "", p.phone != "");
  }

  /** `check_username_exists(name)`. */
  function UsernameTaken(accounts: seq<Account>, name: string): (r: bool)
    ensures r <==> exists i :: 0 <= i < |accounts| && accounts[i].username == name
  {
    if accounts == [] then false
    else accounts[0].username == name || UsernameTaken(accounts[1..], name)
  }

  /** `check_email_exists(email)`. */
  function EmailTaken(accounts: seq<Account>, email: string): (r: bool)
    ensures r <==> exists i :: 0 <= i < |accounts| && accounts[i].email == email
  {
    if accounts == [] then false
    else accounts[0].email == email || EmailTaken(accounts[1..], email)
  }

  // ---------------------------------------------------------------------------
  // The account and profile tables, and the profile-creation hook

  datatype Directory = Directory(accounts: seq<Account>, profiles: seq<Profile>)

  predicate HasAccount(d: Directory, id: nat) {
    exists i :: 0 <= i < |d.accounts| && d.accounts[i].id == id
  }

  /** The position of the first account with id `id`, or -1. */
  function AccountIndex(accounts: seq<Account>, id: nat): (k: int)
    ensures -1 <= k < |accounts|
    ensures k >= 0 ==> accounts[k].id == id
    ensures k < 0 <==> forall i :: 0 <= i < |accounts| ==> accounts[i].id != id
  {
    if accounts == [] then -1
    else if accounts[0].id == id then 0
    else
      var k := AccountIndex(accounts[1..], id);
      if k < 0 then -1 else k + 1
  }

  /** The profiles linked to account `id`. */
  function ProfilesOf(profiles: seq<Profile>, id: nat): seq<Profile> {
    Seqs.Filter(profiles, (p: Profile) => p.userId == id)
  }

  predicate DistinctIds(accounts: seq<Account>) {
    forall i, j :: 0 <= i < j < |accounts| ==> accounts[i].id != accounts[j].id
  }

  predicate OneProfileEach(d: Directory) {
    forall i :: 0 <= i < |d.accounts| ==> |ProfilesOf(d.profiles, d.accounts[i].id)| == 1
  }

  predicate NoOrphans(d: Directory) {
    forall k :: 0 <= k < |d.profiles| ==> HasAccount(d, d.profiles[k].userId)
  }

  /** Account ids are distinct, every account has exactly one profile and
      every profile belongs to an account. */
  predicate Valid(d: Directory) {
    DistinctIds(d.accounts) && OneProfileEach(d) && NoOrphans(d)
  }

  /** Saving account `a`, followed by the `create_user_profile` post-save hook:
      an insert (`created`) also inserts a blank profile, an update of an
      existing account creates none. */
  function SaveAccount(d: Directory, a: Account): (r: Directory)
    ensures HasAccount(d, a.id) ==> r.profiles == d.profiles
    ensures !HasAccount(d, a.id) ==> r.profiles == d.profiles + [BlankProfile(a.id)]
    ensures HasAccount(r, a.id)
  {
    var i := AccountIndex(d.accounts, a.id);
    if i >= 0 then
      var r := Directory(d.accounts[i := a], d.profiles);
      assert r.accounts[i].id == a.id;
      r
    else
      var r := Directory(d.accounts + [a], d.profiles + [BlankProfile(a.id)]);
      assert r.accounts[|d.accounts|].id == a.id;
      r
  }

  /** Registering a new account: a fresh id, then `SaveAccount`. */
  function CreateAccount(d: Directory, username: string, email: string): (r: (Directory, Account))
    ensures !HasAccount(d, r.1.id)
    ensures r.1.username == username && r.1.email == email
    ensures r.0 == SaveAccount(d, r.1)
  {
    var id := Seqs.NextKey(d.accounts, (a: Account) => a.id);
    (SaveAccount(d, Account(id, username, email)), Account(id, username, email))
  }

  /** Saving keeps the tables valid; a created account ends up with exactly one
      profile, and the number of profiles grows by one exactly when the account is new. */
  lemma SaveAccountKeepsOneProfileEach(d: Directory, a: Account)
    requires Valid(d)
    ensures Valid(SaveAccount(d, a))
    ensures |ProfilesOf(SaveAccount(d, a).profiles, a.id)| == 1
    ensures |SaveAccount(d, a).profiles| == |d.profiles| + (if HasAccount(d, a.id) then 0 else 1)
  {
    if HasAccount(d, a.id) {
      UpdateKeepsValid(d, a);
    } else {
      InsertKeepsValid(d, a);
    }
  }

  /** Two account tables that hold the same ids at the same positions. */
  predicate SameIds(xs: seq<Account>, ys: seq<Account>) {
    |xs| == |ys| && forall i :: 0 <= i < |xs| ==> xs[i].id == ys[i].id
  }

  /** Validity depends on the account ids only. */
  lemma SameIdsKeepValid(d: Directory, accounts: seq<Account>)
    requires Valid(d) && SameIds(d.accounts, accounts)
    ensures Valid(Directory(accounts, d.profiles))
  {
    var r := Directory(accounts, d.profiles);
    forall k | 0 <= k < |r.profiles|
      ensures HasAccount(r, r.profiles[k].userId)
    {
      assert HasAccount(d, d.profiles[k].userId);
      var j :| 0 <= j < |d.accounts| && d.accounts[j].id == d.profiles[k].userId;
      assert r.accounts[j].id == d.accounts[j].id;
    }
    forall x | 0 <= x < |r.accounts|
      ensures |ProfilesOf(r.profiles, r.accounts[x].id)| == 1
    {
      assert r.accounts[x].id == d.accounts[x].id;
    }
  }

  lemma UpdateKeepsValid(d: Directory, a: Account)
    requires Valid(d) && HasAccount(d, a.id)
    ensures Valid(SaveAccount(d, a))
    ensures |ProfilesOf(SaveAccount(d, a).profiles, a.id)| == 1
  {
    var i := AccountIndex(d.accounts, a.id);
    assert SaveAccount(d, a) == Directory(d.accounts[i := a], d.profiles);
    assert SameIds(d.accounts, d.accounts[i := a]);
    SameIdsKeepValid(d, d.accounts[i := a]);
    assert |ProfilesOf(d.profiles, d.accounts[i].id)| == 1;
  }

  /** A new account's id has no profile yet. */
  lemma NewIdHasNoProfile(d: Directory, id: nat)
    requires NoOrphans(d) && !HasAccount(d, id)
    ensures ProfilesOf(d.profiles, id) == []
  {
    forall k | 0 <= k < |d.profiles|
      ensures d.profiles[k].userId != id
    {
      assert HasAccount(d, d.profiles[k].userId);
    }
    Seqs.FilterKeepsNone(d.profiles, (p: Profile) => p.userId == id);
  }

  lemma ProfilesOfAppend(ps: seq<Profile>, q: Profile, id: nat)
    ensures |ProfilesOf(ps + [q], id)| == |ProfilesOf(ps, id)| + (if q.userId == id then 1 else 0)
  {
    Seqs.FilterAppend(ps, [q], (p: Profile) => p.userId == id);
    assert Seqs.Filter([q], (p: Profile) => p.userId == id)
      == (if q.userId == id then [q] else []) + Seqs.Filter([], (p: Profile) => p.userId == id);
  }

  lemma InsertKeepsValid(d: Directory, a: Account)
    requires Valid(d) && !HasAccount(d, a.id)
    ensures Valid(SaveAccount(d, a))
    ensures |ProfilesOf(SaveAccount(d, a).profiles, a.id)| == 1
  {
    var blank := BlankProfile(a.id);
    var r := Directory(d.accounts + [a], d.profiles + [blank]);
    assert SaveAccount(d, a) == r;
    NewIdHasNoProfile(d, a.id);
    ProfilesOfAppend(d.profiles, blank, a.id);
    InsertDistinct(d, a);
    InsertOneProfileEach(d, a);
    InsertNoOrphans(d, a);
  }

  lemma InsertDistinct(d: Directory, a: Account)
    requires DistinctIds(d.accounts) && !HasAccount(d, a.id)
    ensures DistinctIds(d.accounts + [a])
  {
    var xs := d.accounts + [a];
    forall i, j | 0 <= i < j < |xs|
      ensures xs[i].id != xs[j].id
    {
      assert xs[i] == d.accounts[i];
      if j < |d.accounts| {
        assert xs[j] == d.accounts[j];
      }
    }
  }

  lemma InsertOneProfileEach(d: Directory, a: Account)
    requires OneProfileEach(d) && NoOrphans(d) && !HasAccount(d, a.id)
    ensures OneProfileEach(Directory(d.accounts + [a], d.profiles + [BlankProfile(a.id)]))
  {
    var r := Directory(d.accounts + [a], d.profiles + [BlankProfile(a.id)]);
    forall i | 0 <= i < |r.accounts|
      ensures |ProfilesOf(r.profiles, r.accounts[i].id)| == 1
    {
      var x := r.accounts[i].id;
      ProfilesOfAppend(d.profiles, BlankProfile(a.id), x);
      if i < |d.accounts| {
        assert r.accounts[i] == d.accounts[i];
      } else {
        NewIdHasNoProfile(d, a.id);
      }
    }
  }

  lemma InsertNoOrphans(d: Directory, a: Account)
    requires NoOrphans(d)
    ensures NoOrphans(Directory(d.accounts + [a], d.profiles + [BlankProfile(a.id)]))
  {
    var r := Directory(d.accounts + [a], d.profiles + [BlankProfile(a.id)]);
    forall k | 0 <= k < |r.profiles|
      ensures HasAccount(r, r.profiles[k].userId)
    {
      if k < |d.profiles| {
        assert r.profiles[k] == d.profiles[k];
        assert HasAccount(d, d.profiles[k].userId);
        var j :| 0 <= j < |d.accounts| && d.accounts[j].id == d.profiles[k].userId;
        assert r.accounts[j] == d.accounts[j];
      } else {
        assert r.accounts[|d.accounts|] == a;
      }
    }
  }
}

=== FILE: seqs.dfy ===
/** Sequence helpers standing in for the ORM's query primitives: `filter(...)`
    becomes `Filter`, `count()` the length of a filter, pagination `Chunks`,
    and auto-incremented primary keys `NextKey`. */
module Seqs {

  /** The elements of `s` that satisfy `keep`, in their original order. */
  function Filter<T>(s: seq<T>, keep: T -> bool): (r: seq<T>)
    ensures |r| <= |s|
  {
    if s == [] then []
    else (if keep(s[0]) then [s[0]] else []) + Filter(s[1..], keep)
  }

  /** The filter keeps exactly the elements that satisfy `keep`, each no more
      often than it occurs. */
  lemma {:induction false} FilterMembers<T>(s: seq<T>, keep: T -> bool)
    ensures forall i :: 0 <= i < |Filter(s, keep)| ==> Filter(s, keep)[i] in s && keep(Filter(s, keep)[i])
    ensures forall i :: 0 <= i < |s| && keep(s[i]) ==> s[i] in Filter(s, keep)
    ensures multiset(Filter(s, keep)) <= multiset(s)
    decreases |s|
  {
    if s != [] {
      FilterMembers(s[1..], keep);
      assert s == [s[0]] + s[1..];
    }
  }

  lemma {:induction false} FilterAppend<T>(a: seq<T>, b: seq<T>, keep: T -> bool)
    ensures Filter(a + b, keep) == Filter(a, keep) + Filter(b, keep)
    decreases |a|
  {
    if a == [] {
      assert a + b == b;
    } else {
      var c := a + b;
      assert c[0] == a[0] && c[1..] == a[1..] + b;
      FilterAppend(a[1..], b, keep);
      var h := if keep(a[0]) then [a[0]] else [];
      assert Filter(c, keep) == h + (Filter(a[1..], keep) + Filter(b, keep));
      assert Filter(a, keep) == h + Filter(a[1..], keep);
    }
  }

  /** Filtering by a weaker condition keeps at least as many elements. */
  lemma {:induction false} FilterWeakerKeepsMore<T>(s: seq<T>, strong: T -> bool, weak: T -> bool)
    requires forall x :: strong(x) ==> weak(x)
    ensures |Filter(s, strong)| <= |Filter(s, weak)|
    decreases |s|
  {
    if s != [] {
      FilterWeakerKeepsMore(s[1..], strong, weak);
    }
  }

  /** Filtering by a condition every element meets keeps the whole sequence. */
  lemma {:induction false} FilterKeepsAll<T>(s: seq<T>, keep: T -> bool)
    requires forall i :: 0 <= i < |s| ==> keep(s[i])
    ensures Filter(s, keep) == s
    decreases |s|
  {
    if s != [] {
      FilterKeepsAll(s[1..], keep);
    }
  }

  /** Filtering by a condition no element meets leaves nothing. */
  lemma {:induction false} FilterKeepsNone<T>(s: seq<T>, keep: T -> bool)
    requires forall i :: 0 <= i < |s| ==> !keep(s[i])
    ensures Filter(s, keep) == []
    decreases |s|
  {
    if s != [] {
      FilterKeepsNone(s[1..], keep);
    }
  }

  /** Two conditions that agree on every element select the same subsequence. */
  lemma {:induction false} FilterCongruent<T>(s: seq<T>, p: T -> bool, q: T -> bool)
    requires forall i :: 0 <= i < |s| ==> (p(s[i]) <==> q(s[i]))
    ensures Filter(s, p) == Filter(s, q)
    decreases |s|
  {
    if s != [] {
      FilterCongruent(s[1..], p, q);
    }
  }

  /** Filtering by `a` and then by `b` is filtering once by their conjunction. */
  lemma {:induction false} FilterTwice<T>(s: seq<T>, a: T -> bool, b: T -> bool, both: T -> bool)
    requires forall x :: both(x) <==> a(x) && b(x)
    ensures Filter(Filter(s, a), b) == Filter(s, both)
    decreases |s|
  {
    if s != [] {
      var h := if a(s[0]) then [s[0]] else [];
      assert Filter(s, a) == h + Filter(s[1..], a);
      FilterAppend(h, Filter(s[1..], a), b);
      if a(s[0]) {
        FilterSingleton(s[0], b);
      }
      FilterTwice(s[1..], a, b, both);
    }
  }

  /** Removing the element at `i` changes the filter only by that element. */
  lemma FilterRemove<T>(s: seq<T>, i: nat, keep: T -> bool)
    requires i < |s|
    ensures Filter(s[..i] + s[i + 1..], keep)
      == Filter(s[..i], keep) + Filter(s[i + 1..], keep)
    ensures Filter(s, keep)
      == Filter(s[..i], keep) + (if keep(s[i]) then [s[i]] else []) + Filter(s[i + 1..], keep)
  {
    FilterAppend(s[..i], s[i + 1..], keep);
    FilterAround(s, i, keep);
  }

  lemma FilterAround<T>(s: seq<T>, i: nat, keep: T -> bool)
    requires i < |s|
    ensures Filter(s, keep)
      == Filter(s[..i], keep) + (if keep(s[i]) then [s[i]] else []) + Filter(s[i + 1..], keep)
  {
    var a, x, b := s[..i], [s[i]], s[i + 1..];
    SplitAt(s, i);
    var fa, fx, fb := Filter(a, keep), Filter(x, keep), Filter(b, keep);
    FilterAppend(x, b, keep);
    assert Filter(x + b, keep) == fx + fb;
    FilterAppend(a, x + b, keep);
    assert Filter(s, keep) == fa + (fx + fb);
    AppendAssoc(fa, fx, fb);
    FilterSingleton(s[i], keep);
  }

  lemma SplitAt<T>(s: seq<T>, i: nat)
    requires i < |s|
    ensures s == s[..i] + ([s[i]] + s[i + 1..])
  {
  }

  lemma AppendAssoc<T>(a: seq<T>, b: seq<T>, c: seq<T>)
    ensures a + (b + c) == a + b + c
  {
  }

  lemma FilterSingleton<T>(x: T, keep: T -> bool)
    ensures Filter([x], keep) == if keep(x) then [x] else []
  {
    assert [x][1..] == [];
  }

  /** Replacing the element at `i` changes the filter only at that element. */
  lemma FilterReplace<T>(s: seq<T>, i: nat, x: T, keep: T -> bool)
    requires i < |s|
    ensures Filter(s[i := x], keep)
      == Filter(s[..i], keep) + (if keep(x) then [x] else []) + Filter(s[i + 1..], keep)
  {
    var t := s[i := x];
    assert t[..i] == s[..i] && t[i + 1..] == s[i + 1..];
    FilterRemove(t, i, keep);
  }

  /** The position of the first element satisfying `p`, or -1. */
  function FirstIndex<T>(s: seq<T>, p: T -> bool): (k: int)
    ensures -1 <= k < |s|
    ensures k >= 0 ==> p(s[k]) && forall j :: 0 <= j < k ==> !p(s[j])
    ensures k < 0 <==> forall j :: 0 <= j < |s| ==> !p(s[j])
  {
    if s == [] then -1
    else if p(s[0]) then 0
    else
      var k := FirstIndex(s[1..], p);
      if k < 0 then -1 else k + 1
  }

  /** The sequences of `ss` laid end to end. */
  function Concat<T>(ss: seq<seq<T>>): seq<T>
  {
    if ss == [] then [] else ss[0] + Concat(ss[1..])
  }

  lemma {:induction false} ConcatAppend<T>(a: seq<seq<T>>, b: seq<seq<T>>)
    ensures Concat(a + b) == Concat(a) + Concat(b)
    decreases |a|
  {
    if a == [] {
      assert a + b == b;
    } else {
      assert (a + b)[1..] == a[1..] + b;
      ConcatAppend(a[1..], b);
    }
  }

  /** `s` cut into consecutive pieces of `size` elements; only the last may be shorter. */
  function Chunks<T>(s: seq<T>, size: nat): (pieces: seq<seq<T>>)
    requires size > 0
    ensures Concat(pieces) == s
    ensures forall i :: 0 <= i < |pieces| ==> 0 < |pieces[i]| <= size
    ensures forall i :: 0 <= i < |pieces| - 1 ==> |pieces[i]| == size
    decreases |s|
  {
    if s == [] then []
    else if |s| <= size then [s]
    else
      var rest := Chunks(s[size..], size);
      assert Concat([s[..size]] + rest) == s[..size] + Concat(rest);
      assert s == s[..size] + s[size..];
      [s[..size]] + rest
  }

  /** A key larger than the key `key(x)` of every row `x` in use, as an
      auto-incremented primary key is. */
  function NextKey<T>(rows: seq<T>, key: T -> nat): (k: nat)
    ensures k > 0
    ensures forall i :: 0 <= i < |rows| ==> key(rows[i]) < k
  {
    if rows == [] then 1
    else
      var k := NextKey(rows[1..], key);
      if key(rows[0]) < k then k else key(rows[0]) + 1
  }
}

=== FILE: text.dfy ===
/** The handful of Python string operations the views and validators use, over
    ASCII: `isspace`, `isdigit`, `lower`/`upper`, `strip()`, `split()`,
    `split(sep)`, substring containment (the ORM's `icontains`) and `str(int)`. */
module Text {
  import Seqs

  /** `str.isspace()` on ASCII: tab through carriage return, the four
      information separators (0x1C-0x1F) and the space. */
  predicate IsSpace(c: char) {
    9 <= c as int <= 13 || 28 <= c as int <= 32
  }

  predicate IsDigit(c: char) {
    '0' <= c <= '9'
  }

  /** `str.isdigit()`: false on the empty string. */
  predicate IsDigits(s: string) {
    |s| > 0 && forall i :: 0 <= i < |s| ==> IsDigit(s[i])
  }

  predicate AllSpace(s: string) {
    forall i :: 0 <= i < |s| ==> IsSpace(s[i])
  }

  function Lower(c: char): char {
    if 'A' <= c <= 'Z' then (c as int + 32) as char else c
  }

  function Upper(c: char): char {
    if 'a' <= c <= 'z' then (c as int - 32) as char else c
  }

  function LowerStr(s: string): (r: string)
    ensures |r| == |s|
    ensures forall i :: 0 <= i < |s| ==> r[i] == Lower(s[i])
  {
    seq(|s|, i requires 0 <= i < |s| => Lower(s[i]))
  }

  // ---------------------------------------------------------------------------
  // strip()

  /** How many whitespace characters `s` starts with. */
  function LeadingSpaces(s: string): (k: nat)
    ensures k <= |s|
    ensures forall i :: 0 <= i < k ==> IsSpace(s[i])
    ensures k < |s| ==> !IsSpace(s[k])
  {
    if |s| > 0 && IsSpace(s[0]) then 1 + LeadingSpaces(s[1..]) else 0
  }

  /** How many whitespace characters `s` ends with. */
  function TrailingSpaces(s: string): (k: nat)
    ensures k <= |s|
    ensures forall i :: |s| - k <= i < |s| ==> IsSpace(s[i])
    ensures k < |s| ==> !IsSpace(s[|s| - 1 - k])
  {
    if |s| > 0 && IsSpace(s[|s| - 1]) then 1 + TrailingSpaces(s[..|s| - 1]) else 0
  }

  /** `str.strip()` with no argument. */
  function Strip(s: string): (r: string)
    ensures r == "" <==> AllSpace(s)
    ensures r != "" ==> !IsSpace(r[0]) && !IsSpace(r[|r| - 1])
  {
    var t := s[LeadingSpaces(s)..];
    t[..|t| - TrailingSpaces(t)]
  }

  /** Strip removes exactly the whitespace padding: a string with non-blank
      ends, padded on both sides by whitespace, strips back to itself. */
  lemma StripRemovesPadding(pre: string, core: string, post: string)
    requires AllSpace(pre) && AllSpace(post)
    requires core != "" ==> !IsSpace(core[0]) && !IsSpace(core[|core| - 1])
    ensures Strip(pre + core + post) == core
  {
    var s := pre + core + post;
    if core == "" {
      assert AllSpace(s) by {
        forall i | 0 <= i < |s| ensures IsSpace(s[i]) {
          if i < |pre| { assert s[i] == pre[i]; } else { assert s[i] == post[i - |pre|]; }
        }
      }
    } else {
      LeadingSpacesOfPadded(pre, core + post);
      assert s == pre + (core + post);
      var t := s[|pre|..];
      assert t == core + post;
      TrailingSpacesOfPadded(core, post);
    }
  }

  lemma {:induction false} LeadingSpacesOfPadded(pre: string, rest: string)
    requires AllSpace(pre)
    requires rest != "" && !IsSpace(rest[0])
    ensures LeadingSpaces(pre + rest) == |pre|
    decreases |pre|
  {
    if pre == "" {
      assert pre + rest == rest;
    } else {
      assert (pre + rest)[1..] == pre[1..] + rest;
      LeadingSpacesOfPadded(pre[1..], rest);
    }
  }

  lemma {:induction false} TrailingSpacesOfPadded(rest: string, post: string)
    requires AllSpace(post)
    requires rest != "" && !IsSpace(rest[|rest| - 1])
    ensures TrailingSpaces(rest + post) == |post|
    decreases |post|
  {
    if post == "" {
      assert rest + post == rest;
    } else {
      var s := rest + post;
      assert s[..|s| - 1] == rest + post[..|post| - 1];
      TrailingSpacesOfPadded(rest, post[..|post| - 1]);
    }
  }

  /** Stripping twice is stripping once. */
  lemma StripIdempotent(s: string)
    ensures Strip(Strip(s)) == Strip(s)
  {
    var r := Strip(s);
    assert r == "" + r + "";
    StripRemovesPadding("", r, "");
  }

  // ---------------------------------------------------------------------------
  // split()

  /** How many non-whitespace characters `s` starts with. */
  function WordLength(s: string): (n: nat)
    ensures n <= |s|
    ensures forall i :: 0 <= i < n ==> !IsSpace(s[i])
    ensures n < |s| ==> IsSpace(s[n])
  {
    if |s| > 0 && !IsSpace(s[0]) then 1 + WordLength(s[1..]) else 0
  }

  predicate IsWord(w: string) {
    |w| > 0 && forall i :: 0 <= i < |w| ==> !IsSpace(w[i])
  }

  /** `str.split()` with no argument: the maximal runs of non-whitespace. */
  function Split(s: string): (words: seq<string>)
    ensures forall i :: 0 <= i < |words| ==> IsWord(words[i])
    ensures words == [] <==> AllSpace(s)
    decreases |s|
  {
    if s == "" then []
    else if IsSpace(s[0]) then Split(s[1..])
    else
      var n := WordLength(s);
      [s[..n]] + Split(s[n..])
  }

  /** The non-whitespace characters of `s`, in order. */
  function VisibleChars(s: string): string
  {
    if s == "" then "" else (if IsSpace(s[0]) then "" else [s[0]]) + VisibleChars(s[1..])
  }

  lemma {:induction false} VisibleCharsAppend(a: string, b: string)
    ensures VisibleChars(a + b) == VisibleChars(a) + VisibleChars(b)
    decreases |a|
  {
    if a != "" {
      assert (a + b)[1..] == a[1..] + b;
      VisibleCharsAppend(a[1..], b);
    } else {
      assert a + b == b;
    }
  }

  lemma {:induction false} VisibleCharsOfWord(w: string)
    requires forall i :: 0 <= i < |w| ==> !IsSpace(w[i])
    ensures VisibleChars(w) == w
    decreases |w|
  {
    if w != "" {
      VisibleCharsOfWord(w[1..]);
    }
  }

  /** Splitting loses only whitespace: the words laid end to end are exactly
      the non-whitespace characters of the input. */
  lemma {:induction false} SplitKeepsVisibleChars(s: string)
    ensures Seqs.Concat(Split(s)) == VisibleChars(s)
    decreases |s|
  {
    if s == "" {
    } else if IsSpace(s[0]) {
      SplitKeepsVisibleChars(s[1..]);
    } else {
      var n := WordLength(s);
      SplitKeepsVisibleChars(s[n..]);
      assert s == s[..n] + s[n..];
      VisibleCharsAppend(s[..n], s[n..]);
      VisibleCharsOfWord(s[..n]);
      assert Seqs.Concat([s[..n]] + Split(s[n..])) == s[..n] + Seqs.Concat(Split(s[n..]));
    }
  }

  lemma {:induction false} WordLengthAppend(a: string, b: string)
    requires WordLength(a) < |a| || b == "" || IsSpace(b[0])
    ensures WordLength(a + b) == WordLength(a)
    decreases |a|
  {
    if a == "" {
      assert a + b == b;
    } else if !IsSpace(a[0]) {
      assert (a + b)[1..] == a[1..] + b;
      WordLengthAppend(a[1..], b);
    }
  }

  /** Text joined at whitespace splits into the words of each side. */
  lemma {:induction false} SplitAppend(a: string, b: string)
    requires b == "" || IsSpace(b[0])
    ensures Split(a + b) == Split(a) + Split(b)
    decreases |a|
  {
    if a == "" {
      assert a + b == b;
    } else if IsSpace(a[0]) {
      assert (a + b)[1..] == a[1..] + b;
      SplitSkipsSpace(a + b);
      SplitAppend(a[1..], b);
    } else {
      var n := WordLength(a);
      WordLengthAppend(a, b);
      assert (a + b)[..n] == a[..n];
      assert (a + b)[n..] == a[n..] + b;
      SplitTakesWord(a + b);
      SplitAppend(a[n..], b);
      Seqs.AppendAssoc([a[..n]], Split(a[n..]), Split(b));
    }
  }

  lemma SplitSkipsSpace(s: string)
    requires s != "" && IsSpace(s[0])
    ensures Split(s) == Split(s[1..])
  {
  }

  lemma SplitTakesWord(s: string)
    requires s != "" && !IsSpace(s[0])
    ensures Split(s) == [s[..WordLength(s)]] + Split(s[WordLength(s)..])
  {
  }

  // ---------------------------------------------------------------------------
  // substrings and split(sep)

  /** `n` occurs in `h` starting at index `i`. */
  predicate OccursAt(h: string, n: string, i: int) {
    0 <= i && i + |n| <= |h| && h[i..i + |n|] == n
  }

  /** Python's `n in h`. */
  predicate Contains(h: string, n: string) {
    exists i :: 0 <= i <= |h| && OccursAt(h, n, i)
  }

  /** The ORM's `icontains` lookup: containment after lower-casing both sides. */
  predicate IContains(h: string, n: string) {
    Contains(LowerStr(h), LowerStr(n))
  }

  /** `str.find`: the first index at which `n` occurs in `h`, or -1. */
  function Find(h: string, n: string): (r: int)
    ensures -1 <= r <= |h|
    ensures r >= 0 ==> OccursAt(h, n, r)
    ensures r >= 0 ==> forall j :: 0 <= j < r ==> !OccursAt(h, n, j)
    ensures r < 0 <==> !Contains(h, n)
    decreases |h|
  {
    if |h| < |n| then -1
    else if h[..|n|] == n then
      assert OccursAt(h, n, 0);
      0
    else
      var k := Find(h[1..], n);
      assert forall j :: 1 <= j <= |h| ==> (OccursAt(h, n, j) <==> OccursAt(h[1..], n, j - 1));
      if k < 0 then -1 else k + 1
  }

  /** `sep.join(parts)`. */
  function Join(parts: seq<string>, sep: string): string
  {
    if |parts| == 0 then ""
    else if |parts| == 1 then parts[0]
    else parts[0] + sep + Join(parts[1..], sep)
  }

  /** `s.split(sep)` for a non-empty separator: the text between the
      left-to-right, non-overlapping occurrences of `sep`. */
  function SplitOn(s: string, sep: string): (parts: seq<string>)
    requires sep != ""
    ensures |parts| >= 1
    ensures Join(parts, sep) == s
    ensures forall i :: 0 <= i < |parts| ==> !Contains(parts[i], sep)
    decreases |s|
  {
    var i := Find(s, sep);
    if i < 0 then [s]
    else
      var rest := SplitOn(s[i + |sep|..], sep);
      assert s == s[..i] + sep + s[i + |sep|..];
      NoEarlierOccurrence(s, sep, i);
      [s[..i]] + rest
  }

  lemma NoEarlierOccurrence(s: string, sep: string, i: int)
    requires sep != ""
    requires 0 <= i <= |s|
    requires forall j :: 0 <= j < i ==> !OccursAt(s, sep, j)
    ensures !Contains(s[..i], sep)
  {
    forall j | 0 <= j <= i
      ensures !OccursAt(s[..i], sep, j)
    {
      if j + |sep| <= i {
        assert j < i;
        assert !OccursAt(s, sep, j);
        assert s[..i][j..j + |sep|] == s[j..j + |sep|];
      }
    }
  }

  /** The last of the parts, preceded in `Join` by the separator unless it is the only part. */
  lemma {:induction false} JoinEndsWithLast(parts: seq<string>, sep: string)
    requires |parts| >= 1
    ensures var j := Join(parts, sep); var last := parts[|parts| - 1];
      |j| >= |last| && j[|j| - |last|..] == last &&
      (|parts| >= 2 ==> |j| >= |last| + |sep| && j[|j| - |last| - |sep|..|j| - |last|] == sep)
    decreases |parts|
  {
    if |parts| >= 2 {
      JoinEndsWithLast(parts[1..], sep);
      if |parts| == 2 {
        assert Join(parts[1..], sep) == parts[1];
      }
    }
  }

  /** `s.split(c)[-1]`: the text after the last `c`, or all of `s` when it has none. */
  function AfterLast(s: string, c: char): (r: string)
    ensures |r| <= |s| && s[|s| - |r|..] == r
    ensures c !in r
    ensures |r| < |s| ==> s[|s| - |r| - 1] == c
    ensures c !in s ==> r == s
  {
    var parts := SplitOn(s, [c]);
    LastPartOfSplit(s, c, parts);
    parts[|parts| - 1]
  }

  lemma LastPartOfSplit(s: string, c: char, parts: seq<string>)
    requires parts == SplitOn(s, [c])
    ensures var r := parts[|parts| - 1];
      && |r| <= |s| && s[|s| - |r|..] == r
      && c !in r
      && (|r| < |s| ==> s[|s| - |r| - 1] == c)
  {
    var r := parts[|parts| - 1];
    assert !Contains(r, [c]);
    CharNotInPart(r, c);
    LastPartOfJoin(s, [c], parts);
  }

  /** The last part ends the joined text, right after a separator when there
      is more than one part. */
  lemma LastPartOfJoin(s: string, sep: string, parts: seq<string>)
    requires |parts| >= 1 && Join(parts, sep) == s && |sep| == 1
    ensures var r := parts[|parts| - 1];
      && |r| <= |s| && s[|s| - |r|..] == r
      && (|r| < |s| ==> s[|s| - |r| - 1] == sep[0])
  {
    var r := parts[|parts| - 1];
    JoinEndsWithLast(parts, sep);
    if |parts| >= 2 {
      var m := |s| - |r|;
      assert s[m - 1..m] == sep;
      assert s[m - 1] == s[m - 1..m][0];
    }
  }

  /** A text not containing the one-character string `[c]` does not contain `c`. */
  lemma CharNotInPart(r: string, c: char)
    requires !Contains(r, [c])
    ensures c !in r
  {
    forall k | 0 <= k < |r|
      ensures r[k] != c
    {
      assert r[k..k + 1] == [r[k]];
      assert !OccursAt(r, [c], k);
    }
  }

  // ---------------------------------------------------------------------------
  // str(n) for a natural number

  function DigitChar(d: nat): char
    requires d < 10
  {
    ('0' as int + d) as char
  }

  /** Python's `str(n)` for a non-negative integer. */
  function NatToString(n: nat): (s: string)
    ensures IsDigits(s)
    ensures s[0] == '0' ==> n == 0 && s == "0"
    decreases n
  {
    if n < 10 then [DigitChar(n)] else NatToString(n / 10) + [DigitChar(n % 10)]
  }

  /** The value of a decimal digit string. */
  function DigitsValue(s: string): nat
    requires forall i :: 0 <= i < |s| ==> IsDigit(s[i])
  {
    if s == "" then 0
    else
      assert IsDigit(s[|s| - 1]);
      DigitsValue(s[..|s| - 1]) * 10 + (s[|s| - 1] as int - '0' as int)
  }

  /** `str(n)` is read back as `n`. */
  lemma {:induction false} NatToStringRoundTrip(n: nat)
    ensures DigitsValue(NatToString(n)) == n
    decreases n
  {
    if n >= 10 {
      NatToStringRoundTrip(n / 10);
      var s := NatToString(n);
      assert s[..|s| - 1] == NatToString(n / 10);
    }
  }

  /** Distinct numbers have distinct decimal strings. */
  lemma NatToStringInjective(a: nat, b: nat)
    requires NatToString(a) == NatToString(b)
    ensures a == b
  {
    NatToStringRoundTrip(a);
    NatToStringRoundTrip(b);
  }

  // ---------------------------------------------------------------------------
  // ordering

  /** Lexicographic order on code points, the order `order_by('title')` produces. */
  predicate LexLe(a: string, b: string) {
    a == "" || (b != "" && (a[0] < b[0] || (a[0] == b[0] && LexLe(a[1..], b[1..]))))
  }

  lemma {:induction false} LexLeTotal(a: string, b: string)
    ensures LexLe(a, b) || LexLe(b, a)
    decreases |a|
  {
    if a != "" && b != "" && a[0] == b[0] {
      LexLeTotal(a[1..], b[1..]);
    }
  }

  lemma {:induction false} LexLeTransitive(a: string, b: string, c: string)
    requires LexLe(a, b) && LexLe(b, c)
    ensures LexLe(a, c)
    decreases |a|
  {
    if a != "" && b != "" && c != "" && a[0] == b[0] && b[0] == c[0] {
      LexLeTransitive(a[1..], b[1..], c[1..]);
    }
  }
}

=== FILE: validators.dfy ===
/** The field validators of the user-profile manager: users/validators.py
    (image size, image extension, phone number) and users/custom_validators.py
    (uniqueness, picture size, phone format, bio length). A validator either
    returns normally or raises `ValidationError` with a message; `Reject`
    carries that message. */
module Validators {
  import opened Text
  import Seqs
  import Profiles

  datatype Verdict = Accept | Reject(message: string)

  // ---------------------------------------------------------------------------
  // Image size

  const MiB: nat := 1024 * 1024

  /** `validate_image_size`: at most `limit_mb` = 5 mebibytes. */
  function ValidateImageSize(size: nat): (v: Verdict)
    ensures v.Accept? <==> size <= 5242880
    ensures v.Reject? ==> v.message == "Max file size is 5MB"
  {
    var limitMb := 5;
    if size > limitMb * MiB then Reject("Max file size is " + NatToString(limitMb) + "MB")
    else Accept
  }

  /** `validate_profile_picture_size`: the same limit under another message. */
  function ValidateProfilePictureSize(size: nat): (v: Verdict)
    ensures v.Accept? <==> size <= 5242880
    ensures v.Reject? ==> v.message == "Image file too large. Maximum size is 5MB"
  {
    var maxSizeMb := 5;
    if size > maxSizeMb * MiB then
      Reject("Image file too large. Maximum size is " + NatToString(maxSizeMb) + "MB")
    else Accept
  }

  /** The two size validators accept exactly the same files, and the limit is inclusive. */
  lemma SizeValidatorsAgree(size: nat)
    ensures ValidateImageSize(size).Accept? <==> ValidateProfilePictureSize(size).Accept?
    ensures ValidateImageSize(5242880).Accept? && ValidateImageSize(5242881).Reject?
  {
  }

  // ---------------------------------------------------------------------------
  // Image extension

  /** `s.rfind(c)`: the last index holding `c`, or -1. */
  function RFind(s: string, c: char): (k: int)
    ensures -1 <= k < |s|
    ensures k >= 0 ==> s[k] == c
    ensures forall i :: k < i < |s| ==> s[i] != c
  {
    if s == [] then -1
    else if s[|s| - 1] == c then |s| - 1
    else RFind(s[..|s| - 1], c)
  }

  predicate OnlyDots(s: string) {
    forall i :: 0 <= i < |s| ==> s[i] == '.'
  }

  /** `os.path.splitext` on a POSIX path: the extension runs from the last
      '.' of the final path component, unless everything before that dot in
      the component is dots (a dotfile such as ".png" has no extension). */
  function SplitExt(p: string): (r: (string, string))
    ensures SplitExtSpec(p, r)
  {
    var sep := RFind(p, '/');
    var dot := RFind(p, '.');
    if dot > sep && !OnlyDots(p[sep + 1..dot]) then
      ExtensionBranch(p, sep, dot);
      (p[..dot], p[dot..])
    else
      NoExtensionBranch(p, sep, dot);
      (p, "")
  }

  /** What `SplitExt` promises: the two parts rebuild the path; a non-empty
      extension is a '.' followed by neither '.' nor '/', after a stem that is
      not all dots within the last component; and an empty one means every
      dot of the last component is preceded there only by dots. */
  predicate SplitExtSpec(p: string, r: (string, string)) {
    && r.0 + r.1 == p
    && (r.1 != "" ==>
          && r.1[0] == '.'
          && (forall i :: 1 <= i < |r.1| ==> r.1[i] != '.' && r.1[i] != '/')
          && exists j :: RFind(p, '/') < j < |r.0| && p[j] != '.')
    && (r.1 == "" ==>
          forall k :: RFind(p, '/') < k < |p| && p[k] == '.' ==>
            forall j :: RFind(p, '/') < j < k ==> p[j] == '.')
  }

  lemma ExtensionBranch(p: string, sep: int, dot: int)
    requires sep == RFind(p, '/') && dot == RFind(p, '.')
    requires dot > sep && !OnlyDots(p[sep + 1..dot])
    ensures SplitExtSpec(p, (p[..dot], p[dot..]))
  {
    var stem, ext := p[..dot], p[dot..];
    assert stem + ext == p;
    assert ext[0] == p[dot] == '.';
    forall i | 1 <= i < |ext|
      ensures ext[i] != '.' && ext[i] != '/'
    {
      assert ext[i] == p[dot + i];
    }
    var j := VisibleInComponent(p, sep, dot);
    assert sep < j < |stem| && p[j] != '.';
  }

  /** The witness that the part of the last component before `dot` is not all dots. */
  lemma VisibleInComponent(p: string, sep: int, dot: int) returns (j: int)
    requires -1 <= sep < dot <= |p| && !OnlyDots(p[sep + 1..dot])
    ensures sep < j < dot && p[j] != '.'
  {
    var m :| 0 <= m < |p[sep + 1..dot]| && p[sep + 1..dot][m] != '.';
    j := sep + 1 + m;
    assert p[sep + 1..dot][m] == p[j];
  }

  lemma NoExtensionBranch(p: string, sep: int, dot: int)
    requires sep == RFind(p, '/') && dot == RFind(p, '.')
    requires !(dot > sep && !OnlyDots(p[sep + 1..dot]))
    ensures SplitExtSpec(p, (p, ""))
  {
    forall k, j | sep < j < k < |p| && p[k] == '.'
      ensures p[j] == '.'
    {
      assert k <= dot;
      assert p[sep + 1..dot][j - sep - 1] == p[j];
    }
    assert p + "" == p;
  }

  const ValidExtensions: seq<string> := [".jpg", ".jpeg", ".png", ".gif"]

  const ExtensionMessage: string := "Unsupported file extension. Allowed: " + Join(ValidExtensions, ", ")

  /** The message lists the allowed extensions, comma-separated. */
  lemma ExtensionMessageText()
    ensures ExtensionMessage == "Unsupported file extension. Allowed: " + ".jpg, .jpeg, .png, .gif"
  {
    var v := ValidExtensions;
    assert v[1..][1..][1..] == [".gif"];
    assert Join(v[1..][1..], ", ") == ".png" + ", " + ".gif";
    assert Join(v[1..], ", ") == ".jpeg" + ", " + (".png" + ", " + ".gif");
    assert Join(v, ", ") == ".jpg" + ", " + (".jpeg" + ", " + (".png" + ", " + ".gif"));
  }

  /** `validate_image_extension`: the lower-cased extension must be on the allow-list. */
  function ValidateImageExtension(name: string): (v: Verdict)
    ensures v.Reject? ==> v.message == ExtensionMessage
  {
    var ext := SplitExt(name).1;
    if LowerStr(ext) in ValidExtensions then Accept
    else Reject(ExtensionMessage)
  }

  /** The last `c` of `s` is at `k`. */
  lemma {:induction false} RFindAt(s: string, c: char, k: int)
    requires 0 <= k < |s| && s[k] == c
    requires forall i :: k < i < |s| ==> s[i] != c
    ensures RFind(s, c) == k
    decreases |s|
  {
    if k < |s| - 1 {
      RFindAt(s[..|s| - 1], c, k);
    }
  }

  /** A name whose final component has a visible stem followed by '.' and a
      suffix free of '.' and '/' is split at that dot. */
  lemma SplitExtOfStemAndSuffix(stem: string, suffix: string)
    requires stem != "" && stem[|stem| - 1] != '.' && stem[|stem| - 1] != '/'
    requires '.' !in suffix && '/' !in suffix
    ensures SplitExt(stem + "." + suffix) == (stem, "." + suffix)
  {
    var p := stem + "." + suffix;
    var n := |stem|;
    LastDotAfterStem(stem, suffix);
    SplitExtAtLastDot(p, n);
    StemAndSuffixSlices(stem, suffix);
  }

  lemma StemAndSuffixSlices(stem: string, suffix: string)
    ensures var p := stem + "." + suffix;
      p[..|stem|] == stem && p[|stem|..] == "." + suffix
  {
  }

  /** A last dot with a visible character right before it, inside the final
      component, is where the extension starts. */
  lemma SplitExtAtLastDot(p: string, n: int)
    requires 0 < n < |p| && RFind(p, '.') == n && RFind(p, '/') < n - 1 && p[n - 1] != '.'
    ensures SplitExt(p) == (p[..n], p[n..])
  {
    var sep := RFind(p, '/');
    assert p[sep + 1..n][n - 1 - (sep + 1)] == p[n - 1];
  }

  lemma LastDotAfterStem(stem: string, suffix: string)
    requires stem != "" && stem[|stem| - 1] != '.' && stem[|stem| - 1] != '/'
    requires '.' !in suffix && '/' !in suffix
    ensures var p := stem + "." + suffix;
      RFind(p, '.') == |stem| && RFind(p, '/') < |stem| - 1 && p[|stem| - 1] != '.'
  {
    var p := stem + "." + suffix;
    var n := |stem|;
    assert p[n] == '.' && p[n - 1] == stem[n - 1];
    forall i | n < i < |p|
      ensures p[i] != '.' && p[i] != '/'
    {
      assert p[i] == suffix[i - n - 1];
    }
    RFindAt(p, '.', n);
  }

  /** Such a name is accepted exactly when its lower-cased suffix is jpg, jpeg, png or gif. */
  lemma ExtensionAcceptedIff(stem: string, suffix: string)
    requires stem != "" && stem[|stem| - 1] != '.' && stem[|stem| - 1] != '/'
    requires '.' !in suffix && '/' !in suffix
    ensures ValidateImageExtension(stem + "." + suffix).Accept?
      <==> LowerStr(suffix) in ["jpg", "jpeg", "png", "gif"]
  {
    SplitExtOfStemAndSuffix(stem, suffix);
    assert LowerStr("." + suffix) == "." + LowerStr(suffix);
    AllowedWithDot(LowerStr(suffix));
  }

  lemma AllowedWithDot(x: string)
    ensures "." + x in ValidExtensions <==> x in ["jpg", "jpeg", "png", "gif"]
  {
    assert "." + "jpg" == ".jpg" && "." + "jpeg" == ".jpeg";
    assert "." + "png" == ".png" && "." + "gif" == ".gif";
    DotPrefix(x, "jpg");
    DotPrefix(x, "jpeg");
    DotPrefix(x, "png");
    DotPrefix(x, "gif");
  }

  lemma DotPrefix(a: string, b: string)
    ensures "." + a == "." + b <==> a == b
  {
    if "." + a == "." + b {
      assert a == ("." + a)[1..];
    }
  }

  /** A final path component in which every dot is preceded only by dots (no
      dot at all, or a dotfile such as ".png") has no extension, so the name
      is rejected. */
  lemma NoExtensionRejected(dir: string, base: string)
    requires dir == "" || dir[|dir| - 1] == '/'
    requires '/' !in base
    requires forall k :: 0 <= k < |base| && base[k] == '.' ==> OnlyDots(base[..k])
    ensures SplitExt(dir + base).1 == ""
    ensures ValidateImageExtension(dir + base).Reject?
  {
    var p := dir + base;
    forall i | |dir| <= i < |p| ensures p[i] != '/' {
      assert p[i] == base[i - |dir|];
    }
    if dir != "" {
      assert p[|dir| - 1] == '/';
    }
    var sep := RFind(p, '/');
    assert sep == |dir| - 1;
    var dot := RFind(p, '.');
    if dot > sep {
      var k := dot - |dir|;
      assert base[k] == p[dot] == '.';
      assert OnlyDots(base[..k]);
      assert p[sep + 1..dot] == base[..k];
    }
    assert LowerStr("") == "";
  }

  /** Upper-case extensions are accepted: "A.PNG", and so is any name of that shape. */
  lemma UpperCaseExtensionAccepted(stem: string)
    requires stem != "" && stem[|stem| - 1] != '.' && stem[|stem| - 1] != '/'
    ensures ValidateImageExtension(stem + ".PNG").Accept?
  {
    assert stem + ".PNG" == stem + "." + "PNG";
    ExtensionAcceptedIff(stem, "PNG");
    LowerOfPng();
  }

  lemma LowerOfPng()
    ensures LowerStr("PNG") == "png"
  {
    var r := LowerStr("PNG");
    assert r[0] == Lower('P') == 'p';
    assert r[1] == Lower('N') == 'n';
    assert r[2] == Lower('G') == 'g';
  }

  /** A string with no upper-case letter is its own lower-case form. */
  lemma LowerOfLowerCase(s: string)
    requires forall i :: 0 <= i < |s| ==> !('A' <= s[i] <= 'Z')
    ensures LowerStr(s) == s
  {
  }

  /** Only the last suffix counts: whatever dotted words come before it
      ("a.tar.gif", "a.gif.tar"), the verdict is that of the last one. */
  lemma LastSuffixCounts(stem: string, inner: string, suffix: string)
    requires inner != "" && inner[|inner| - 1] != '.' && inner[|inner| - 1] != '/'
    requires '.' !in suffix && '/' !in suffix
    ensures ValidateImageExtension(stem + "." + inner + "." + suffix).Accept?
      <==> LowerStr(suffix) in ["jpg", "jpeg", "png", "gif"]
  {
    var s2 := stem + "." + inner;
    assert s2[|s2| - 1] == inner[|inner| - 1];
    ExtensionAcceptedIff(s2, suffix);
  }

  /** A final component without a dot is rejected: "photo". */
  lemma NameWithoutDotRejected(dir: string, base: string)
    requires dir == "" || dir[|dir| - 1] == '/'
    requires '/' !in base && '.' !in base
    ensures ValidateImageExtension(dir + base).Reject?
  {
    NoExtensionRejected(dir, base);
  }

  /** A dotfile is rejected: ".png" names a file with no extension. */
  lemma DotfileRejected(dir: string, suffix: string)
    requires dir == "" || dir[|dir| - 1] == '/'
    requires '/' !in suffix && '.' !in suffix
    ensures ValidateImageExtension(dir + "." + suffix).Reject?
  {
    var base := "." + suffix;
    forall k | 0 < k < |base|
      ensures base[k] != '.'
    {
      assert base[k] == suffix[k - 1];
    }
    assert OnlyDots(base[..0]);
    assert dir + "." + suffix == dir + base;
    NoExtensionRejected(dir, base);
  }

  // ---------------------------------------------------------------------------
  // Phone number, users/validators.py

  predicate IsPhoneSeparator(c: char) {
    c == '+' || c == '-' || c == ' '
  }

  /** `phone.replace('+', '').replace('-', '').replace(' ', '')`. */
  function RemoveSeparators(phone: string): (r: string)
    ensures |r| <= |phone|
    ensures forall i :: 0 <= i < |r| ==> r[i] in phone && !IsPhoneSeparator(r[i])
    ensures forall i :: 0 <= i < |phone| && !IsPhoneSeparator(phone[i]) ==> phone[i] in r
  {
    Seqs.FilterMembers(phone, c => !IsPhoneSeparator(c));
    Seqs.Filter(phone, c => !IsPhoneSeparator(c))
  }

  const PhoneMessage: string := "Enter a valid phone number"

  /** `validate_phone_number`. */
  function ValidatePhoneNumber(phone: string): (v: Verdict)
    ensures phone == "" ==> v.Accept?
    ensures v.Reject? ==> v.message == PhoneMessage
  {
    if phone != "" && !IsDigits(RemoveSeparators(phone)) then Reject(PhoneMessage) else Accept
  }

  /** A phone number is accepted exactly when it is empty, or is made of digits
      and the separators '+', '-' and ' ' with at least one digit. */
  lemma PhoneNumberAcceptedIff(phone: string)
    ensures ValidatePhoneNumber(phone).Accept? <==>
      phone == "" ||
      ((forall i :: 0 <= i < |phone| ==> IsDigit(phone[i]) || IsPhoneSeparator(phone[i]))
       && exists i :: 0 <= i < |phone| && IsDigit(phone[i]))
  {
    var r := RemoveSeparators(phone);
    Seqs.FilterMembers(phone, c => !IsPhoneSeparator(c));
    if phone != "" {
      if IsDigits(r) {
        forall i | 0 <= i < |phone|
          ensures IsDigit(phone[i]) || IsPhoneSeparator(phone[i])
        {
          if !IsPhoneSeparator(phone[i]) {
            assert phone[i] in r;
          }
        }
        assert r[0] in phone;
        var k :| 0 <= k < |phone| && phone[k] == r[0];
        assert IsDigit(phone[k]);
      }
      if (forall i :: 0 <= i < |phone| ==> IsDigit(phone[i]) || IsPhoneSeparator(phone[i]))
         && exists i :: 0 <= i < |phone| && IsDigit(phone[i])
      {
        var k :| 0 <= k < |phone| && IsDigit(phone[k]);
        assert phone[k] in r;
        forall i | 0 <= i < |r| ensures IsDigit(r[i]) {
          assert r[i] in phone;
        }
      }
    }
  }

  /** "+" alone is rejected: nothing is left once the '+' is removed. */
  lemma PlusAloneRejected()
    ensures ValidatePhoneNumber("+").Reject?
  {
    PhoneNumberAcceptedIff("+");
    assert "+"[0] == '+';
  }

  // ---------------------------------------------------------------------------
  // Phone format, users/custom_validators.py: re.match(r'^\+?1?\d{9,15}$', phone)

  /** A run of 9 to 15 decimal digits, `\d{9,15}`. */
  predicate DigitRun(d: string) {
    IsDigits(d) && 9 <= |d| <= 15
  }

  /** `\+?1?\d{9,15}` matches all of `b`. The optional '+' and '1' are taken
      when present, and the '1' is also tried as the first digit. */
  predicate MatchesPhoneBody(b: string) {
    var t := if b != "" && b[0] == '+' then b[1..] else b;
    DigitRun(t) || (t != "" && t[0] == '1' && DigitRun(t[1..]))
  }

  /** The whole pattern under `re.match`: anchored at the start, and `$`
      matches at the end or just before one final newline. */
  predicate MatchesPhonePattern(s: string) {
    MatchesPhoneBody(s) || (s != "" && s[|s| - 1] == '\n' && MatchesPhoneBody(s[..|s| - 1]))
  }

  /** `validate_phone_format`. */
  function ValidatePhoneFormat(phone: string): (v: Verdict)
    ensures v.Reject? ==> v.message == PhoneMessage
    ensures phone == "" ==> v.Accept?
  {
    if phone != "" && !MatchesPhonePattern(phone) then Reject(PhoneMessage) else Accept
  }

  /** `s` with one final newline removed, then one leading '+' removed. */
  function PhoneDigitsPart(s: string): string {
    var b := if s != "" && s[|s| - 1] == '\n' then s[..|s| - 1] else s;
    if b != "" && b[0] == '+' then b[1..] else b
  }

  /** Counting characterisation of the pattern: after dropping a final newline
      and a leading '+', what remains is 9 to 15 digits, or 16 digits the first
      of which is '1'. */
  lemma PhoneFormatByLength(s: string)
    requires s != ""
    ensures ValidatePhoneFormat(s).Accept? <==>
      var t := PhoneDigitsPart(s);
      IsDigits(t) && (9 <= |t| <= 15 || (|t| == 16 && t[0] == '1'))
  {
    var t := PhoneDigitsPart(s);
    if s[|s| - 1] == '\n' {
      assert !MatchesPhoneBody(s) by {
        var u := if s[0] == '+' then s[1..] else s;
        assert u[|u| - 1] == '\n';
        assert !IsDigits(u);
        if u != "" && u[0] == '1' {
          assert !IsDigits(u[1..]) || |u| == 1;
        }
      }
    }
    var b := if s[|s| - 1] == '\n' then s[..|s| - 1] else s;
    assert MatchesPhonePattern(s) <==> MatchesPhoneBody(b);
    if t != "" && t[0] == '1' && IsDigits(t[1..]) {
      assert IsDigits(t);
    }
    if IsDigits(t) && |t| > 1 {
      assert IsDigits(t[1..]);
    }
  }

  /** For digit-only input: 9 to 15 digits pass, 16 pass exactly when the first
      is '1', and anything shorter than 9 or longer than 16 fails. */
  lemma DigitsOnlyPhoneFormat(d: string)
    requires IsDigits(d)
    ensures 9 <= |d| <= 15 ==> ValidatePhoneFormat(d).Accept?
    ensures |d| == 16 ==> (ValidatePhoneFormat(d).Accept? <==> d[0] == '1')
    ensures |d| < 9 || |d| > 16 ==> ValidatePhoneFormat(d).Reject?
  {
    PhoneFormatByLength(d);
    assert PhoneDigitsPart(d) == d;
  }

  /** A number the pattern accepts is still accepted with one trailing newline
      added (a second newline is not). */
  lemma PhoneFormatAllowsTrailingNewline(s: string)
    requires s != "" && s[|s| - 1] != '\n' && ValidatePhoneFormat(s).Accept?
    ensures ValidatePhoneFormat(s + "\n").Accept?
  {
    PhoneFormatByLength(s);
    assert (s + "\n")[..|s|] == s;
    PhoneFormatByLength(s + "\n");
    assert PhoneDigitsPart(s + "\n") == PhoneDigitsPart(s);
  }

  /** The pattern is built from an optional '+', an optional '1', 9 to 15 digits
      and an optional final newline; every such string is accepted. */
  lemma PhoneFormatAcceptsPattern(plus: string, one: string, d: string, nl: string)
    requires plus == "" || plus == "+"
    requires one == "" || one == "1"
    requires DigitRun(d)
    requires nl == "" || nl == "\n"
    ensures ValidatePhoneFormat(plus + one + d + nl).Accept?
  {
    var b := plus + one + d;
    var s := b + nl;
    var u := one + d;
    assert (if b != "" && b[0] == '+' then b[1..] else b) == u;
    if one == "1" {
      assert u[1..] == d;
    }
    assert MatchesPhoneBody(b);
    if nl == "\n" {
      assert s[..|s| - 1] == b;
    } else {
      assert s == b;
    }
  }

  // ---------------------------------------------------------------------------
  // Bio length

  /** `validate_bio_length`: a non-empty bio needs 10 to 500 characters. */
  function ValidateBioLength(bio: string): (v: Verdict)
    ensures v.Accept? <==> bio == "" || 10 <= |bio| <= 500
    ensures v.Reject? && |bio| < 10 ==> v.message == "Bio must be at least 10 characters long"
    ensures v.Reject? && |bio| > 500 ==> v.message == "Bio must not exceed 500 characters"
  {
    if bio != "" && |bio| < 10 then Reject("Bio must be at least 10 characters long")
    else if bio != "" && |bio| > 500 then Reject("Bio must not exceed 500 characters")
    else Accept
  }

  // ---------------------------------------------------------------------------
  // Uniqueness

  /** `validate_username_unique`, over the account table. */
  function ValidateUsernameUnique(accounts: seq<Profiles.Account>, username: string): (v: Verdict)
    ensures v.Reject? <==> exists i :: 0 <= i < |accounts| && accounts[i].username == username
    ensures v.Reject? ==> v.message == "Username already taken"
  {
    if Profiles.UsernameTaken(accounts, username) then Reject("Username already taken") else Accept
  }

  /** `validate_email_unique`, over the account table. */
  function ValidateEmailUnique(accounts: seq<Profiles.Account>, email: string): (v: Verdict)
    ensures v.Reject? <==> exists i :: 0 <= i < |accounts| && accounts[i].email == email
    ensures v.Reject? ==> v.message == "Email already registered"
  {
    if Profiles.EmailTaken(accounts, email) then Reject("Email already registered") else Accept
  }
}

=== FILE: wrappers.dfy ===
/** Failure-carrying datatypes shared by the whole model: `Option` for values the
    source may lack (a missing query parameter, a user without a profile) and
    `Result` for operations that raise in the source. */
module Wrappers {

  datatype Option<+T> = None | Some(value: T) {

    /** The wrapped value, or `default` when there is none (Python's `dict.get(k, default)`). */
    function GetOr(default: T): T {
      match this
      case Some(v) => v
      case None => default
    }
  }

  /** `Err` carries the name of the exception the source would raise. */
  datatype Result<+R> = Ok(value: R) | Err(error: string)
}
